=== FILE: README.md ===
# share2go in Dafny

share2go is a ride-sharing application. Drivers publish rides. Passengers book seats on those rides. A driver accepts, rejects or cancels each booking, and every step notifies the other party. The application has two halves:

- a Spring Boot backend: services over JPA repositories, a login controller and a JWT filter;
- a React frontend: an authentication context, an axios client, a route table, two dashboards and three ride forms.

This project models the logic of both halves as pure Dafny functions over immutable data, and proves properties of that model.

**Backend**

- The four repositories are maps from id to entity, held in `Store.Db`.
- Every service call takes a `Db` and returns a `Step`: the database afterwards, plus either the value returned or the exception thrown.
- Identity allocation follows `save` as Hibernate before 6.6 performs it. An entity without an id, or with an unknown id, gets a fresh key. An entity with a known id replaces that row. The id of a deleted row is retired and never handed out again, as with an identity column.
- Entities refer to each other by id, as their foreign-key columns do. A DTO is built from the referenced rows as they are when it is read, so a ride shows its driver's current name.
- Deleting a ride deletes its bookings, through the cascade on `Ride.bookings`. Deleting a user that a ride, booking or notification still refers to fails, as the foreign keys make it fail. `Store.Consistent` says that every foreign key resolves, and the deletes and creates keep it.
- A dereference of a missing reference (a booking without a ride, a ride without a driver) is the error `NullReference`.
- Booking statuses are the strings the code writes. The service compares them with Java's `equalsIgnoreCase`, modelled on the characters whose Java case mapping is an ASCII letter. The dashboards compare them exactly.

**Frontend**

- JavaScript values are `Js.JsVal`. `Js` also gives truthiness, `||`, `??`, and `Number`, `parseInt`, `parseFloat` and `Math.trunc` on decimal literals with optional fraction and exponent.
- Local storage is a `map<string, string>`.
- JSON (de)serialisation, `jwtDecode`, JWT validation, BCrypt matching and token generation are function parameters. Nothing is assumed about them beyond what each lemma states.
- Times are integers, and the current time is a parameter.

Module layout follows the source: one module per service, mapper, page or component, plus shared modules.

- `Wrappers`: `Option` and `Result`.
- `Text`: Java and SQL case mapping, SQL `LIKE`, JavaScript trim, substring.
- `Js`: JavaScript values and number parsing.
- `Entities`: the JPA entities and DTOs.
- `Store`: the database and id allocation.
- `ClientModel`: the ride and booking objects the pages receive.
- `SeatLedger`: the seat-conservation invariant across the booking operations.
- `Lifecycle`: how the services meet in the shared store (cascades, retired ids, foreign keys).

## Model

| member | source | states |
|---|---|---|
| `Entities.IsConfirmedIgnoresCase` | share2go-backend/src/main/java/com/share2go/service/impl/BookingServiceImpl.java:118 | a status holds seats exactly when it is present and Java's `equalsIgnoreCase` finds it equal to "CONFIRMED" or "ACCEPTED" |
| `Entities.DotlessIConfirmed` | share2go-backend/src/main/java/com/share2go/service/impl/BookingServiceImpl.java:118 | "CONFıRMED", spelt with a dotless i, equals CONFIRMED ignoring case and holds seats |
| `Entities.RejectedHoldsNone` | share2go-backend/src/main/java/com/share2go/service/impl/BookingServiceImpl.java:163 | no spelling of REJECTED, in any letter case, holds seats |
| `Entities.CancelledHoldsNone` | share2go-backend/src/main/java/com/share2go/service/impl/BookingServiceImpl.java:118 | no spelling of CANCELLED, in any letter case, holds seats |
| `Text.EqualsIgnoreCaseFolds` | share2go-backend/src/main/java/com/share2go/service/impl/BookingServiceImpl.java:118 | Java's per-character test (equal, equal upper case, or equal lower case of the upper case) holds at every position exactly when the two texts fold to the same text |
| `Entities.WrittenStatuses` | share2go-backend/src/main/java/com/share2go/service/impl/BookingServiceImpl.java:53 | of the statuses the service writes, only CONFIRMED holds seats; PENDING, REJECTED and CANCELLED do not |
| `Entities.LowerCaseConfirmedHolds` | share2go-backend/src/main/java/com/share2go/service/impl/BookingServiceImpl.java:133 | the service treats a lower-case "confirmed" status as confirmed |
| `Store.FreshKey` | share2go-backend/src/main/java/com/share2go/model/Booking.java:11-13 | a new row gets a key that is neither in use nor held by a deleted row |
| `Store.SaveKey` | share2go-backend/src/main/java/com/share2go/service/impl/RideServiceImpl.java:37-38 | save keeps an id the table already holds, and otherwise allocates a key that is neither in use nor retired |
| `Store.FindUserByEmail` | share2go-backend/src/main/java/com/share2go/service/impl/UserServiceImpl.java:68-69 | the single-result email finder: no match when no user has the email, the one user when exactly one has it, an error when two or more share it |
| `BookingService.Notify` | share2go-backend/src/main/java/com/share2go/service/impl/NotificationServiceImpl.java:31-35 | a notification is added exactly when the recipient exists, and it is the only change to the store |
| `BookingService.CreateBooking` | share2go-backend/src/main/java/com/share2go/service/impl/BookingServiceImpl.java:41-69 | ride and passenger lookups fail in order (null id, then not found), then a seat count of 0 or less is refused; otherwise exactly one PENDING booking is added under a fresh key with the current time, and rides are untouched. The call succeeds exactly when, in addition, the ride's driver reference resolves; the driver then gets one BOOKING_REQUEST naming the ride and the new booking, and a ride without a driver fails with a null reference after the booking is saved |
| `BookingService.GetBookingById` | share2go-backend/src/main/java/com/share2go/service/impl/BookingServiceImpl.java:72-75 | an unknown id fails with "Booking not found"; a known one returns that booking's DTO |
| `BookingService.CreateThenGetBooking` | share2go-backend/src/main/java/com/share2go/service/impl/BookingServiceImpl.java:41-76 | a created booking is read back by its id exactly as the create returned it |
| `BookingService.AcceptThenGetBooking` | share2go-backend/src/main/java/com/share2go/service/impl/BookingServiceImpl.java:129-156 | after a successful accept, reading the booking shows a seat-holding status and the same seat count |
| `BookingService.AcceptBooking` | share2go-backend/src/main/java/com/share2go/service/impl/BookingServiceImpl.java:129-156 | an already confirmed/accepted booking is returned with nothing changed; otherwise too few seats fail, else the ride loses exactly the booking's seats (never below 0), the booking becomes CONFIRMED whatever its earlier status, and the passenger gets BOOKING_ACCEPTED |
| `BookingService.RejectBooking` | share2go-backend/src/main/java/com/share2go/service/impl/BookingServiceImpl.java:159-179 | a confirmed/accepted booking fails with the illegal-state message; otherwise it becomes REJECTED, no ride changes, and the passenger gets BOOKING_REJECTED |
| `BookingService.CancelBooking` | share2go-backend/src/main/java/com/share2go/service/impl/BookingServiceImpl.java:114-126 | the booking ends CANCELLED; its seats go back to the ride only if it was confirmed/accepted; no notification is sent. The call succeeds exactly when the booking exists and, if it holds seats, its ride resolves |
| `BookingService.UpdateBooking` | share2go-backend/src/main/java/com/share2go/service/impl/BookingServiceImpl.java:95-111 | an increase beyond the available seats fails; otherwise available seats plus the booking's seats stay constant, seats and status are overwritten unchecked, and no other ride changes |
| `SeatLedger.Holding` | share2go-backend/src/main/java/com/share2go/service/impl/BookingServiceImpl.java:118 | the bookings that hold seats on a ride are exactly its confirmed/accepted ones |
| `SeatLedger.EntryChange` | share2go-backend/src/main/java/com/share2go/service/impl/BookingServiceImpl.java:145 | replacing one booking changes a ride's held seats by the difference of what the old and new booking hold |
| `SeatLedger.NewEntry` | share2go-backend/src/main/java/com/share2go/service/impl/BookingServiceImpl.java:56 | adding a booking adds what it holds |
| `SeatLedger.CreateConserves` | share2go-backend/src/main/java/com/share2go/service/impl/BookingServiceImpl.java:41-69 | creating a booking keeps every ride's available-plus-held seat total |
| `SeatLedger.AcceptConserves` | share2go-backend/src/main/java/com/share2go/service/impl/BookingServiceImpl.java:137-146 | accepting keeps every ride's available-plus-held seat total, in every branch |
| `SeatLedger.RejectConserves` | share2go-backend/src/main/java/com/share2go/service/impl/BookingServiceImpl.java:163-168 | rejecting keeps every ride's available-plus-held seat total |
| `SeatLedger.CancelConserves` | share2go-backend/src/main/java/com/share2go/service/impl/BookingServiceImpl.java:118-125 | cancelling keeps every ride's available-plus-held seat total |
| `SeatLedger.CancelIdempotent` | share2go-backend/src/main/java/com/share2go/service/impl/BookingServiceImpl.java:118-125 | cancelling a cancelled booking changes nothing |
| `SeatLedger.UpdateHeldConserves` | share2go-backend/src/main/java/com/share2go/service/impl/BookingServiceImpl.java:99-107 | updating a held booking to a held status keeps the ride's total |
| `SeatLedger.UpdatePendingShiftsSeats` | share2go-backend/src/main/java/com/share2go/service/impl/BookingServiceImpl.java:99-107 | updating a booking that holds no seats still moves seats: the ride's total drops by the requested increase |
| `SeatLedger.AcceptRevives` | share2go-backend/src/main/java/com/share2go/service/impl/BookingServiceImpl.java:133-145 | a CANCELLED or REJECTED booking can be accepted; it becomes CONFIRMED and takes its seats again |
| `SeatLedger.StatusWithoutSeats` | share2go-backend/src/main/java/com/share2go/service/impl/BookingServiceImpl.java:167 | moving a booking between statuses that hold no seats keeps every total |
| `SeatLedger.AddedWithoutSeats` | share2go-backend/src/main/java/com/share2go/service/impl/BookingServiceImpl.java:53-56 | adding only bookings that hold no seats keeps every total |
| `NotificationService.CreateNotification` | share2go-backend/src/main/java/com/share2go/service/impl/NotificationServiceImpl.java:30-36 | fails unless the recipient exists; otherwise adds exactly one notification under a fresh key, addressed to that recipient, and returns its DTO |
| `NotificationService.MarkAsRead` | share2go-backend/src/main/java/com/share2go/service/impl/NotificationServiceImpl.java:50-55 | an unknown id fails with "Notification not found"; otherwise only that notification's read flag is set |
| `NotificationService.MarkAsReadIdempotent` | share2go-backend/src/main/java/com/share2go/service/impl/NotificationServiceImpl.java:50-55 | marking as read twice equals marking once |
| `NotificationService.MarkAsReadCount` | share2go-backend/src/main/java/com/share2go/service/impl/NotificationServiceImpl.java:44-55 | marking one notification read never raises a user's unread count and lowers it by at most one |
| `NotificationService.MarkAllAsRead` | share2go-backend/src/main/java/com/share2go/service/impl/NotificationServiceImpl.java:57-66 | every notification of the user is read afterwards; everyone else's are unchanged |
| `NotificationService.MarkAllClearsUnread` | share2go-backend/src/main/java/com/share2go/service/impl/NotificationServiceImpl.java:44-66 | after marking all read, the user's unread count is 0 |
| `NotificationService.MarkAllKeepsOthers` | share2go-backend/src/main/java/com/share2go/service/impl/NotificationServiceImpl.java:44-66 | marking all of one user's notifications read keeps every other user's unread count |
| `NotificationService.CreateNotificationCount` | share2go-backend/src/main/java/com/share2go/service/impl/NotificationServiceImpl.java:30-47 | a created notification raises its recipient's unread count by one when it is unread, and no one else's |
| `NotificationService.UnreadAfterInsert` | share2go-backend/src/main/java/com/share2go/service/impl/NotificationServiceImpl.java:44-47 | inserting a row adds it to the unread set exactly when it is an unread row of that user |
| `NotificationService.Insert` | share2go-backend/src/main/java/com/share2go/service/impl/NotificationServiceImpl.java:39-41 | inserting a key into a list sorted newest first keeps it sorted and adds exactly that key |
| `NotificationService.UserNotificationIds` | share2go-backend/src/main/java/com/share2go/service/impl/NotificationServiceImpl.java:39-41 | the ids of exactly the user's notifications, without repeats, newest first |
| `NotificationService.Dtos` | share2go-backend/src/main/java/com/share2go/service/impl/NotificationServiceImpl.java:40-41 | one DTO per id, in the same order |
| `NotificationService.CountUnreadDistinct` | share2go-backend/src/main/java/com/share2go/service/impl/NotificationServiceImpl.java:44-47 | counting unread DTOs of a repeat-free id list gives the size of its unread set |
| `NotificationService.GetUserNotifications` | share2go-backend/src/main/java/com/share2go/service/impl/NotificationServiceImpl.java:38-47 | the list holds exactly the user's notifications, each once, newest first, and its unread entries number the user's unread count |
| `RideRepository.Where` | share2go-backend/src/main/java/com/share2go/repository/RideRepository.java:16-28 | a finder returns exactly the rows that satisfy its condition, unchanged |
| `RideRepository.SearchWithoutText` | share2go-backend/src/main/java/com/share2go/repository/RideRepository.java:18-23 | a null or empty origin and destination leave only the departure bound |
| `RideRepository.SearchWithoutBound` | share2go-backend/src/main/java/com/share2go/repository/RideRepository.java:23 | a null departure bound matches nothing |
| `RideRepository.SearchBoundInclusive` | share2go-backend/src/main/java/com/share2go/repository/RideRepository.java:23 | a ride departing exactly at the bound matches |
| `RideRepository.SearchSymmetric` | share2go-backend/src/main/java/com/share2go/repository/RideRepository.java:19-21 | the destination criterion is the origin criterion applied to the other column |
| `RideRepository.SearchIgnoresCase` | share2go-backend/src/main/java/com/share2go/repository/RideRepository.java:19 | the text criterion does not depend on the argument's letter case |
| `RideRepository.TextMatchesSubstring` | share2go-backend/src/main/java/com/share2go/repository/RideRepository.java:19-21 | an argument without `%` or `_` matches exactly the columns that contain it ignoring case; an empty one matches every column |
| `RideRepository.UnderscoreIsWildcard` | share2go-backend/src/main/java/com/share2go/repository/RideRepository.java:19 | a `_` in the argument is a LIKE wildcard: "r_me" finds Rome and Rime, which do not contain it literally |
| `Text.LikeIsContains` | share2go-backend/src/main/java/com/share2go/repository/RideRepository.java:19-21 | for a pattern text without wildcards, `s LIKE %t%` holds exactly when t occurs in s |
| `RideRepository.DerivedFinderWithinSearch` | share2go-backend/src/main/java/com/share2go/service/impl/RideServiceImpl.java:55-58 | every ride the finder the service calls returns is also returned by the declared search query |
| `RideRepository.BoundDiffers` | share2go-backend/src/main/java/com/share2go/repository/RideRepository.java:23 | the declared query keeps a ride departing exactly at the bound; the finder the service calls drops it |
| `RideRepository.DriversDisjoint` | share2go-backend/src/main/java/com/share2go/repository/RideRepository.java:28 | two drivers' rides never overlap |
| `RideService.Dtos` | share2go-backend/src/main/java/com/share2go/service/impl/RideServiceImpl.java:56-58 | one DTO per found ride, showing the stored ride and its driver's current name |
| `RideService.CreateRideAsWritten` | share2go-backend/src/main/java/com/share2go/service/impl/RideServiceImpl.java:33-41 | as written: an unknown driver fails; otherwise the ride is saved under the DTO's id when that id exists, else under a fresh key |
| `RideService.CreateRideOverwritesExisting` | share2go-backend/src/main/java/com/share2go/service/impl/RideServiceImpl.java:37-38 | a create request carrying an existing ride's id replaces that ride and adds none |
| `RideService.CreateRide` | share2go-backend/src/main/java/com/share2go/service/impl/RideServiceImpl.java:33-41 | an unknown driver fails; otherwise exactly one new ride under a fresh key, driven by that user, with the DTO's scalar fields; other rides untouched |
| `RideService.GetRideById` | share2go-backend/src/main/java/com/share2go/service/impl/RideServiceImpl.java:44-47 | an unknown id fails with "Ride not found"; a known one returns the stored ride's fields, its driver's id and current name (neither when the driver reference does not resolve), and its passenger ids |
| `RideService.SearchRides` | share2go-backend/src/main/java/com/share2go/service/impl/RideServiceImpl.java:55-59 | exactly the rides on that route, ignoring case, departing strictly after the time |
| `RideService.UpdateRide` | share2go-backend/src/main/java/com/share2go/service/impl/RideServiceImpl.java:62-73 | an unknown id fails; otherwise the five scalar fields are overwritten, the driver and passengers and all other rides are unchanged, and the reply shows the updated ride |
| `RideService.DeleteRide` | share2go-backend/src/main/java/com/share2go/service/impl/RideServiceImpl.java:76-79 | an unknown id fails; otherwise the ride and exactly the bookings of that ride are removed, through the cascade on the ride's bookings, and their ids are retired |
| `RideService.DeleteRideKeepsConsistent` | share2go-backend/src/main/java/com/share2go/model/Ride.java:49-51 | deleting a ride leaves every foreign key resolvable: no booking is left pointing at it |
| `RideService.GetRidesByDriver` | share2go-backend/src/main/java/com/share2go/service/impl/RideServiceImpl.java:82-84 | exactly the rides whose driver reference is that id, each shown as stored, naming that driver when the driver exists |
| `RideService.CreateThenGet` | share2go-backend/src/main/java/com/share2go/service/impl/RideServiceImpl.java:33-47 | a created ride is read back by its id as the create returned it, except that the loaded ride has an empty passenger list; it is listed under its driver |
| `RideService.UpdateThenGet` | share2go-backend/src/main/java/com/share2go/service/impl/RideServiceImpl.java:44-73 | reading an updated ride returns the new scalar fields |
| `RideService.DeleteThenGet` | share2go-backend/src/main/java/com/share2go/service/impl/RideServiceImpl.java:44-79 | a deleted ride is not found, deleting it again fails, and a ride created afterwards gets a different id |
| `UserService.CreateUserAsWritten` | share2go-backend/src/main/java/com/share2go/service/impl/UserServiceImpl.java:23-27 | as written: the user is saved under the DTO's id when that id exists, else under a fresh key |
| `UserService.CreateUserOverwritesExisting` | share2go-backend/src/main/java/com/share2go/service/impl/UserServiceImpl.java:24-25 | a registration carrying an existing user's id replaces that user's email and password |
| `UserService.CreateUser` | share2go-backend/src/main/java/com/share2go/service/impl/UserServiceImpl.java:23-27 | exactly one new user under a key neither in use nor retired, holding the DTO's fields; other users untouched |
| `UserService.GetUserById` | share2go-backend/src/main/java/com/share2go/service/impl/UserServiceImpl.java:30-34 | an unknown id fails with the not-found message for that id; a known one returns that user |
| `UserService.UpdateUser` | share2go-backend/src/main/java/com/share2go/service/impl/UserServiceImpl.java:44-56 | an unknown id fails; otherwise name, email, phone, password and role are overwritten, the id is kept, and other users are unchanged |
| `UserService.DeleteUser` | share2go-backend/src/main/java/com/share2go/service/impl/UserServiceImpl.java:59-64 | an absent id fails; a user that a ride, booking or notification refers to is not deleted, and nothing changes; otherwise exactly that user is removed and the id is retired |
| `UserService.DeleteUserKeepsConsistent` | share2go-backend/src/main/java/com/share2go/model/Booking.java:19-21 | deleting a user never leaves a foreign key dangling |
| `UserService.Login` | share2go-backend/src/main/java/com/share2go/service/impl/UserServiceImpl.java:67-76 | success returns the stored user with that email and exactly that password; an unknown email fails with "Invalid email or password" |
| `UserService.LoginDecision` | share2go-backend/src/main/java/com/share2go/service/impl/UserServiceImpl.java:67-76 | for a user whose email is unique, login succeeds iff the stored password equals the argument, and both failures carry the same message |
| `UserService.CreateThenLogin` | share2go-backend/src/main/java/com/share2go/service/impl/UserServiceImpl.java:23-76 | a user registered with an unused email can log in with the registered password |
| `UserService.UpdateThenLogin` | share2go-backend/src/main/java/com/share2go/service/impl/UserServiceImpl.java:44-76 | after an update, when no other user has the new email, the user logs in with the new email and password and gets the updated record, and any other password fails |
| `UserService.DeleteThenGet` | share2go-backend/src/main/java/com/share2go/service/impl/UserServiceImpl.java:30-64 | a deleted user is not found, deleting again fails, and a user registered afterwards gets a different id |
| `AuthController.Login` | share2go-backend/src/main/java/com/share2go/auth/AuthController.java:28-43 | an unknown email gives the 401 body; success (200) only for a stored user whose hash matches, carrying a token generated from the user's email, id and role |
| `AuthController.LoginDecision` | share2go-backend/src/main/java/com/share2go/auth/AuthController.java:30-42 | for a user whose email is unique, the reply is 200 iff the password matches the hash, and it is the same 401 body otherwise |
| `AuthController.AgreesWithUserServiceLogin` | share2go-backend/src/main/java/com/share2go/auth/AuthController.java:28-43 | with plain equality as the matcher, the controller succeeds exactly when the service's login does |
| `AuthController.Logout` | share2go-backend/src/main/java/com/share2go/auth/AuthController.java:45-51 | 400 when userId is missing or null, 204 otherwise, with an empty body |
| `AuthController.LogoutOnlyReadsUserId` | share2go-backend/src/main/java/com/share2go/auth/AuthController.java:45-51 | two bodies that agree on whether a user id is present get the same reply: no user is looked up and nothing is revoked |
| `AuthController.ResponseShape` | share2go-backend/src/main/java/com/share2go/auth/AuthController.java:41-42 | the login response JSON has no "token" and no "email" field; the token is under "accessToken" |
| `JwtFilter.BearerToken` | share2go-backend/src/main/java/com/share2go/auth/JwtAuthenticationFilter.java:40-45 | a token is extracted iff the header starts with "Bearer ", and it is the header without that prefix |
| `JwtFilter.BearerRoundTrip` | share2go-backend/src/main/java/com/share2go/auth/JwtAuthenticationFilter.java:45 | the header "Bearer " + t yields exactly t |
| `JwtFilter.Filter` | share2go-backend/src/main/java/com/share2go/auth/JwtAuthenticationFilter.java:27-63 | the chain runs exactly once; skipped paths and missing or non-Bearer headers keep the context; otherwise the context is the user loaded by the validated subject, or cleared |
| `JwtFilter.AuthenticatedOnlyByToken` | share2go-backend/src/main/java/com/share2go/auth/JwtAuthenticationFilter.java:48-60 | on a filtered path a Bearer request is authenticated iff its token validates and its subject loads |
| `BookingMapper.ToEntity` | share2go-backend/src/main/java/com/share2go/mapper/BookingMapper.java:21-29 | the new entity has no id |
| `BookingMapper.NullReferences` | share2go-backend/src/main/java/com/share2go/mapper/BookingMapper.java:13-14 | without ride and passenger, the DTO's rideId and passengerId are null |
| `BookingMapper.DtoRoundTrip` | share2go-backend/src/main/java/com/share2go/mapper/BookingMapper.java:10-29 | DTO to entity to DTO keeps seats, status and time, drops the id, and takes rideId and passengerId from the attached entities |
| `RideMapper.DriverFields` | share2go-backend/src/main/java/com/share2go/mapper/RideMapper.java:20-23 | driverId and driverName are set iff a driver row is attached, and are that row's id and name |
| `RideMapper.PassengerIds` | share2go-backend/src/main/java/com/share2go/mapper/RideMapper.java:25-27 | passengerIds is present iff the ride's passenger list is, and holds the same ids in the same order |
| `RideMapper.ToEntityIgnoresDriverFields` | share2go-backend/src/main/java/com/share2go/mapper/RideMapper.java:32-42 | the DTO's driverId, driverName and passengerIds do not affect the entity |
| `RideMapper.DtoRoundTrip` | share2go-backend/src/main/java/com/share2go/mapper/RideMapper.java:11-42 | DTO to entity to DTO keeps the six scalars and takes the driver fields from the attached driver |
| `NotificationMapper.ToEntity` | share2go-backend/src/main/java/com/share2go/mapper/NotificationMapper.java:22-32 | the new entity has no id |
| `NotificationMapper.ToEntityIgnoresIds` | share2go-backend/src/main/java/com/share2go/mapper/NotificationMapper.java:22-32 | the DTO's id and recipientId do not affect the entity |
| `NotificationMapper.DtoRoundTrip` | share2go-backend/src/main/java/com/share2go/mapper/NotificationMapper.java:9-32 | DTO to entity to DTO keeps every field but the id and takes recipientId from the recipient |
| `NotificationMapper.EntityRoundTrip` | share2go-backend/src/main/java/com/share2go/mapper/NotificationMapper.java:9-32 | entity to DTO to entity, with the same recipient, gives back the entity without its id |
| `UserMapper.PasswordNotMasked` | share2go-backend/src/main/java/com/share2go/mapper/UserMapper.java:13 | the DTO carries the entity's password |
| `UserMapper.EntityRoundTrip` | share2go-backend/src/main/java/com/share2go/mapper/UserMapper.java:8-28 | entity to DTO to entity is the identity |
| `UserMapper.DtoRoundTrip` | share2go-backend/src/main/java/com/share2go/mapper/UserMapper.java:8-28 | DTO to entity to DTO is the identity |
| `AuthContext.Initial` | share2go-frontend/src/context/AuthContext.jsx:7-11 | the token is the stored one when non-empty; the stored user is parsed unguarded, so a malformed one is an error |
| `AuthContext.Logout` | share2go-frontend/src/context/AuthContext.jsx:71-76 | token and user become null, both keys are removed, and all other keys are kept |
| `AuthContext.LogoutIdempotent` | share2go-frontend/src/context/AuthContext.jsx:71-76 | logging out twice equals logging out once |
| `AuthContext.Effect` | share2go-frontend/src/context/AuthContext.jsx:13-54 | no token clears both keys and the user; otherwise the token is stored and a parsed stored user with a truthy id is adopted; otherwise the decoded claims become the user and are persisted, or a decode failure logs out |
| `AuthContext.EffectAfterLogout` | share2go-frontend/src/context/AuthContext.jsx:13-19 | the effect after logout changes nothing |
| `AuthContext.AdoptedWithoutDecoding` | share2go-frontend/src/context/AuthContext.jsx:25-32 | an adoptable stored user is taken without consulting the token decoder |
| `AuthContext.CorruptUserFallsThrough` | share2go-frontend/src/context/AuthContext.jsx:33-35 | a stored user that fails to parse behaves as if it were absent |
| `AuthContext.UndecodableTokenLogsOut` | share2go-frontend/src/context/AuthContext.jsx:50-53 | an undecodable token without an adoptable user ends with token, user and both keys gone |
| `AuthContext.Login` | share2go-frontend/src/context/AuthContext.jsx:57-69 | the user gets the response's userId and role, no name, and its email or else the decoded subject; both keys are stored; a falsy email with an undecodable token is an error |
| `AuthContext.LoginThenEffectStable` | share2go-frontend/src/context/AuthContext.jsx:13-69 | when the user survives JSON with a truthy id, the effect that follows login changes nothing |
| `AuthContext.ResponseLoginDecodes` | share2go-frontend/src/context/AuthContext.jsx:57-62 | logging in with the backend's response always falls back to the decoded subject for the email, and keeps the role string |
| `AuthContext.MisnamedTokenLogsOut` | share2go-frontend/src/context/AuthContext.jsx:57-62 | reading the token under "token" from the backend's response yields nothing, so that login fails and the effect keeps no user |
| `ApiClient.OnRequest` | share2go-frontend/src/api/axios.js:11-25 | with a stored token the Authorization header is "Bearer " + token and other headers are kept; without one the headers are unchanged |
| `ApiClient.OnResponseError` | share2go-frontend/src/api/axios.js:32-42 | a 401 removes both keys and goes to /login; any other status changes nothing; the error is always rejected |
| `ApiClient.OnResponse` | share2go-frontend/src/api/axios.js:29-31 | a success response passes through unchanged |
| `ApiClient.UnauthorizedStartsAnonymous` | share2go-frontend/src/api/axios.js:33-37 | after a 401 the session starts with no token and no user |
| `ApiClient.UnauthorizedSendsNoToken` | share2go-frontend/src/api/axios.js:11-37 | after a 401 no Authorization header is added |
| `ApiClient.ForbiddenKeepsToken` | share2go-frontend/src/api/axios.js:38-39 | after a 403 requests carry the same headers as before |
| `ApiClient.LoginTokenReachesFilter` | share2go-frontend/src/api/axios.js:13-15 | the token stored at login reaches the backend filter intact |
| `Routes.Route` | share2go-frontend/src/App.js:24-58 | dashboards and the create page need a user, the create page also the exact role "Driver"; dashboards receive the user's name and id; redirects go to /login or / |
| `Routes.PublicIgnoresUser` | share2go-frontend/src/App.js:25-27 | /, /login and /register render the same page for any user |
| `Routes.DashboardsIgnoreRole` | share2go-frontend/src/App.js:28-47 | the dashboards redirect iff there is no user, and never look at the role |
| `Routes.CreateRideGate` | share2go-frontend/src/App.js:48-57 | /create-ride renders iff a user with role exactly "Driver" exists, else redirects to /login |
| `Routes.UpperCaseRoleRefused` | share2go-frontend/src/App.js:51 | a user whose role is "DRIVER" is sent to /login |
| `Routes.UnknownPathGoesHome` | share2go-frontend/src/App.js:58 | any other path redirects to / |
| `Routes.LoginRoleGate` | share2go-frontend/src/App.js:51 | after logging in with the backend's response, /create-ride renders iff the role string is exactly "Driver" |
| `DriverDashboard.RideTotals` | share2go-frontend/src/pages/DriverDashboard.jsx:77-84 | one ride's held bookings and their seats, counting only the exact statuses CONFIRMED and ACCEPTED |
| `DriverDashboard.ActiveCount` | share2go-frontend/src/pages/DriverDashboard.jsx:71 | the number of rides whose departure is after now |
| `DriverDashboard.HeldCount` | share2go-frontend/src/pages/DriverDashboard.jsx:78 | the number of bookings whose status is exactly CONFIRMED or ACCEPTED |
| `DriverDashboard.PendingCount` | share2go-frontend/src/pages/DriverDashboard.jsx:152 | the number of bookings whose status is exactly PENDING |
| `DriverDashboard.CalculateStats` | share2go-frontend/src/pages/DriverDashboard.jsx:69-95 | total and active rides, held bookings over all rides, and earnings as price (0 if missing) times booked seats |
| `DriverDashboard.GetPendingCount` | share2go-frontend/src/pages/DriverDashboard.jsx:150-153 | the number of the ride's bookings whose status is exactly PENDING; 0 for a ride with no entry |
| `DriverDashboard.NormaliseRides` | share2go-frontend/src/pages/DriverDashboard.jsx:43 | an array is taken as is, a page gives its content or [], and a null response fails with the dashboard error |
| `DriverDashboard.BuildBookingsMap` | share2go-frontend/src/pages/DriverDashboard.jsx:48-57 | one entry per ride id: the fetched bookings, or [] when the fetch failed |
| `DriverDashboard.FetchRides` | share2go-frontend/src/pages/DriverDashboard.jsx:36-67 | without a driver id the page is unchanged; a rejected request or a null body sets only the error message; otherwise the page shows the normalised rides and their bookings map, with the ride count, the rides still to depart, the held bookings and the earnings of exactly those rides and bookings, and keeps its error message |
| `DriverDashboard.FailedFetchIsolated` | share2go-frontend/src/pages/DriverDashboard.jsx:50-56 | one failed bookings fetch empties only that ride's entry |
| `DriverDashboard.HeldAtMostSeats` | share2go-frontend/src/pages/DriverDashboard.jsx:78-82 | when every booking has a seat, held bookings never outnumber booked seats |
| `DriverDashboard.PassengersAtMostSeats` | share2go-frontend/src/pages/DriverDashboard.jsx:76-84 | the passenger statistic counts bookings, so it is at most the seats sold |
| `DriverDashboard.PendingAndHeldDisjoint` | share2go-frontend/src/pages/DriverDashboard.jsx:78 | no booking is both pending and held |
| `DriverDashboard.LowerCaseConfirmedUncounted` | share2go-frontend/src/pages/DriverDashboard.jsx:78 | a "confirmed" booking, which the backend treats as confirmed, adds nothing to the dashboard's counts |
| `DriverDashboard.UnheldAppend` | share2go-frontend/src/pages/DriverDashboard.jsx:78-82 | a booking that is not held adds nothing to the held count or the seats |
| `PassengerDashboard.CalculateStats` | share2go-frontend/src/pages/PassengerDashboard.jsx:78-98 | total, upcoming and completed bookings, and spending over CONFIRMED bookings only |
| `PassengerDashboard.UpcomingPlusCompleted` | share2go-frontend/src/pages/PassengerDashboard.jsx:90-94 | no booking counts as both upcoming and completed |
| `PassengerDashboard.CompletedIsDeparted` | share2go-frontend/src/pages/PassengerDashboard.jsx:92 | completed means departed by now and exactly CONFIRMED |
| `PassengerDashboard.UpcomingCount` | share2go-frontend/src/pages/PassengerDashboard.jsx:90-91 | the number of bookings departing after now that are neither CANCELLED nor REJECTED |
| `PassengerDashboard.CompletedCount` | share2go-frontend/src/pages/PassengerDashboard.jsx:92-93 | the number of bookings that are not upcoming, departed by now, and CONFIRMED |
| `PassengerDashboard.RidelessBookingsCountNothing` | share2go-frontend/src/pages/PassengerDashboard.jsx:85-94 | bookings that carry no ride object, like the bookings endpoint's DTO, are never upcoming or completed and cost nothing |
| `PassengerDashboard.NormaliseBookings` | share2go-frontend/src/pages/PassengerDashboard.jsx:69-70 | an array response is the list; anything else is [] |
| `PassengerDashboard.LoadBookings` | share2go-frontend/src/pages/PassengerDashboard.jsx:64-76 | without a passenger id, or when the request is rejected, the page is unchanged; otherwise the list is the normalised response and the statistics count exactly its upcoming and completed bookings and the cost of its confirmed ones, upcoming plus completed never above the total, all zero for a non-array response |
| `PassengerDashboard.SpentSplits` | share2go-frontend/src/pages/PassengerDashboard.jsx:85-89 | the amount spent over two lists is the sum of the amounts spent over each |
| `PassengerDashboard.LoadRides` | share2go-frontend/src/pages/PassengerDashboard.jsx:35-61 | the search source is used iff a search field is set; the chosen response fails only when null, and an array is taken as is |
| `PassengerDashboard.SourcesNormaliseAlike` | share2go-frontend/src/pages/PassengerDashboard.jsx:39-51 | both sources normalise a response the way the driver dashboard does |
| `CreateRide.Validate` | share2go-frontend/src/pages/CreateRide.jsx:20-31 | one error per field: blank origin or destination, empty time, seats or price missing, not a number or below 1 |
| `CreateRide.ValidateText` | share2go-frontend/src/pages/CreateRide.jsx:22-24 | the origin and destination errors are exactly "empty after trim" |
| `CreateRide.HandleChange` | share2go-frontend/src/pages/CreateRide.jsx:33-36 | editing a field sets it and clears its error only; other fields and errors are kept |
| `CreateRide.FailureMessage` | share2go-frontend/src/pages/CreateRide.jsx:67-71 | the server's message when non-empty, else the fixed failure text |
| `CreateRide.HandleSubmit` | share2go-frontend/src/pages/CreateRide.jsx:38-75 | an invalid form stops with its errors; a valid one posts the payload for the user's id, then clears the form or records the submit error; the posted seats are the validated number's whole part (corrected, see Findings) |
| `CreateRide.ValidPayloadTexts` | share2go-frontend/src/pages/CreateRide.jsx:44-47 | a valid form posts non-empty origin, destination and time |
| `CreateRide.ValidPayloadPositive` | share2go-frontend/src/pages/CreateRide.jsx:25-49 | when the seats and price pass validation (as in every valid form), the corrected payload posts a whole seat count between 1 and the validated number, and a price equal to the validated number and at least 1 |
| `CreateRide.SeatsAtLeastOne` | share2go-frontend/src/pages/CreateRide.jsx:25-26 | seats that pass validation truncate to a whole number between 1 and the validated number |
| `CreateRide.PriceAtLeastOne` | share2go-frontend/src/pages/CreateRide.jsx:27-49 | a price that passes validation is read by `parseFloat` exactly as `Number` reads it, at least 1 |
| `CreateRide.SeatsWithoutExponent` | share2go-frontend/src/pages/CreateRide.jsx:25-48 | for validated seats without an exponent, the page's `parseInt` body equals the corrected body |
| `CreateRide.ExponentSeatsPostZero` | share2go-frontend/src/pages/CreateRide.jsx:25-48 | as written: the seats "0.5e1" pass validation and the page posts 0 seats; the corrected body posts 5 |
| `CreateRide.PayloadTrimmed` | share2go-frontend/src/pages/CreateRide.jsx:45-46 | origin and destination are posted trimmed |
| `CreateRide.BlankOriginRefused` | share2go-frontend/src/pages/CreateRide.jsx:22 | an origin of one space is an error |
| `CreateRide.ZeroPriceRefused` | share2go-frontend/src/pages/CreateRide.jsx:27-28 | a price of "0" is refused |
| `Js.ParseFloatAgrees` | share2go-frontend/src/pages/CreateRide.jsx:27-49 | for a non-blank string that `Number` reads as a number, `parseFloat` reads the same number |
| `Js.ParseIntTruncates` | share2go-frontend/src/pages/CreateRide.jsx:25-48 | for a string with no exponent marker whose `Number` value is at least 1, `parseInt` gives that value's whole part |
| `Js.ExponentSplitsReadings` | share2go-frontend/src/pages/CreateRide.jsx:25-48 | `Number` and `parseFloat` read "0.5e1" as 5 and `Math.trunc` keeps 5, while `parseInt` reads 0 |
| `PublishRide.HandleSubmit` | share2go-frontend/src/pages/PublishRide.jsx:16-46 | an empty required field gives "All fields are required."; else a missing user id gives its error; else the request carries the user's id, the texts unchanged, Number(seats) and the price or 0 |
| `PublishRide.SameBodyAsRideForm` | share2go-frontend/src/pages/PublishRide.jsx:30-36 | with every required text filled and a user id present the page posts, and the body equals the one the ride form submits for the same texts |
| `PublishRide.OptionalPriceOnly` | share2go-frontend/src/pages/PublishRide.jsx:19-35 | price may be empty (then 0), but seats may not |
| `RideForm.Prefill` | share2go-frontend/src/components/RideForm.jsx:10-20 | no initial data keeps the form; texts default to "" when falsy, the first "Z" is removed from the time, seats and price keep everything but null/undefined, and a non-string time fails |
| `RideForm.Submit` | share2go-frontend/src/components/RideForm.jsx:22-32 | texts unchanged, Number(seats), and the price as a Number or 0 when falsy |
| `RideForm.EditRoundTrip` | share2go-frontend/src/components/RideForm.jsx:10-32 | prefilling a ride whose time ends in "Z" and submitting unchanged posts the ride without the "Z" |
| `RideForm.ZeroSeatsKept` | share2go-frontend/src/components/RideForm.jsx:17 | 0 seats survive prefill, where `||` would have dropped them |
| `RideForm.MissingTextsBlank` | share2go-frontend/src/components/RideForm.jsx:12-16 | missing texts are submitted as "" |
| `RideForm.EmptyFormBody` | share2go-frontend/src/components/RideForm.jsx:24-30 | an untouched form posts empty texts and 0 seats and price |
| `Lifecycle.DeletedRideBookingNotFound` | share2go-backend/src/main/java/com/share2go/model/Ride.java:49-51 | after a ride is deleted and a new ride created, the new ride has another id and the old ride's booking is not found by accept or cancel |
| `Lifecycle.RenamedDriverShown` | share2go-backend/src/main/java/com/share2go/mapper/RideMapper.java:20-23 | renaming a driver renames them on the rides they drive |
| `Lifecycle.DriverNotDeletable` | share2go-backend/src/main/java/com/share2go/model/Ride.java:26-28 | the driver of a ride cannot be deleted, and the store is left as it was |
| `Lifecycle.PassengerNotDeletable` | share2go-backend/src/main/java/com/share2go/model/Booking.java:19-21 | the passenger of a booking cannot be deleted, and the store is left as it was |
| `Lifecycle.CreateRideKeepsConsistent` | share2go-backend/src/main/java/com/share2go/service/impl/RideServiceImpl.java:33-41 | creating a ride keeps every foreign key resolvable |
| `Lifecycle.CreateBookingKeepsConsistent` | share2go-backend/src/main/java/com/share2go/service/impl/BookingServiceImpl.java:41-69 | creating a booking keeps every foreign key resolvable, whether or not the driver is notified |
| `Text.TrimEmptyIffBlank` | share2go-frontend/src/pages/CreateRide.jsx:22-23 | a string trims to "" iff every character is JavaScript white space |
| `Text.RemoveFirstLast` | share2go-frontend/src/components/RideForm.jsx:15 | removing the first "Z" from s + "Z" gives s when s has no "Z" |

## Left out

- JPA persistence is a map per table. Lazy loading, transactions and row order are not modelled. The one cascade the entities declare, a ride's bookings, is modelled. Query results are maps keyed by id, except the notification list, whose order is modelled.
- Concurrency: simultaneous accepts and updates are not modelled, because the code has no locking and transactions are framework-managed.
- Java `int` overflow of `availableSeats` and `numberOfSeats` is not modelled. Seats are unbounded integers.
- `BookingService.UpdateBooking` writes the ride change made at `BookingServiceImpl.java:104` to the store. The code never saves the ride. `Booking.ride` is a `@ManyToOne` without a cascade. The change is written only because the ride is still a managed entity when the persistence context is flushed. The model does not follow persistence contexts, so it takes every change to a loaded entity as written.
- The queries `getAllBookings`, `getBookingsByPassenger`, `getBookingsByRide`, `getAllRides` and `getAllUser` are not modelled. They only map a finder's rows to DTOs, and the mappers are modelled.
- `AuthController.Login` calls `userService.findByEmail` (`AuthController.java:30`), which is declared nowhere: `UserService.java:7-21` has no such method, and `UserServiceImpl` implements only that interface. The backend therefore does not compile as written. The model takes the call to be the single-result email finder that `UserServiceImpl.java:68` uses on the user repository, `Store.FindUserByEmail`. `UserRepository.java` is not part of this model.
- `JwtFilter.Filter` relies on `userService.loadUserByUsername` (`JwtAuthenticationFilter.java:51`), which is declared nowhere either: `UserService` does not extend `UserDetailsService`, and `UserServiceImpl` defines no such method. The backend does not compile as written. The model takes the loader as a function parameter and assumes nothing of it beyond what each lemma states.
- `RideService.SearchRides` calls `findByOriginIgnoreCaseAndDestinationIgnoreCaseAndDepartureTimeAfter` (`RideServiceImpl.java:56-57`), which `RideRepository.java:14-29` does not declare, so the backend does not compile as written. The model gives the finder the meaning Spring Data would derive from its name (`RideRepository.FindByOriginIgnoreCaseAndDestinationIgnoreCaseAndDepartureTimeAfter`). `RideRepository.DerivedFinderWithinSearch` and `RideRepository.BoundDiffers` relate it to the declared `searchRides` query.
- `User.java` and `Notification.java` are not part of this model. Their fields are taken from the mappers. A notification's recipient is a user reference (`NotificationMapper.java:24`), while its ride and booking ids are plain columns. The model takes `User` to declare no cascading collection, so deleting a user that a row refers to violates a foreign key.
- `Text.EqualsIgnoreCase` folds only ASCII letters and the four characters whose Java case mapping is an ASCII letter (U+0130, U+0131, U+017F, U+212A). Other non-ASCII case pairs, such as É and é, compare unequal here, although Java's `equalsIgnoreCase` accepts them.
- `Entities.IsConfirmed` is exact against Java for every status, because the constants it compares with are ASCII. This holds provided that the four characters above are the only ones Java maps onto an ASCII letter.
- `Text.SqlEqualsIgnoreCase` and `Text.ToLower` fold ASCII letters only. What else the database's `UPPER` and `LOWER` fold depends on its collation, which is not part of this model.
- `RideRepository.TextMatches` models `%` and `_` as LIKE wildcards but uses no escape character. A backslash in the argument is an ordinary character here, while MySQL and PostgreSQL treat it as an escape by default.
- `Store.FindDriver` shows a ride whose driver id names no user as having no driver. The foreign key rules such a row out in the database (`Store.Consistent`).
- Nothing in the modelled code adds passengers to a ride. The passenger list is carried and shown, but never written.
- The notification message texts built at `BookingServiceImpl.java:62`, `:151` and `:173` are not modelled. The recipient, type, ride id and booking id are.
- The current time is a parameter. Dates are integers, and an unparseable date is `None`.
- JWT signing, validation, expiry, BCrypt and `jwtDecode` are function parameters.
- JSON serialisation is a codec parameter, and only object-valued user JSON is modelled.
- `Js.ParseInt` reads decimal digits only. JavaScript's `parseInt` also reads a `0x` or `0X` prefix as hexadecimal: `parseInt("0x1A")` is 26, and the model gives 0. `Js.ParseFloat` does not read `Infinity`, which JavaScript does. So `Js.ParseIntTruncates`, `Js.ParseFloatAgrees` and `CreateRide.SeatsWithoutExponent` hold in JavaScript for decimal literals only. For "0b11", `Number` gives 3 while `parseInt` gives 0. This does not affect the page: the seat and price inputs are `type="number"` (`CreateRide.jsx:136` and `:149`), whose value is always empty or a decimal literal with optional fraction and exponent.
- `Js.StringToNumber` covers decimal literals with optional sign, fraction, exponent and surrounding white space. Hexadecimal, binary and octal literals, `Infinity` and numeric separators read as NaN in the model. Values are exact rationals, so a large exponent does not overflow to `Infinity` and a small one does not underflow to 0.
- `Entities.Ride` and `Entities.RideDto` take prices to be whole numbers. `Ride.java:24` and `RideDTO.java:12` declare `double pricePerSeat`, and `CreateRide.jsx:49` posts `parseFloat` of the field, so a price such as 99.5 passes validation and is stored. Fractional prices, floating-point rounding and `toFixed` are not modelled. The client reads a price as an optional whole number.
- `DriverDashboard.Earnings` and `PassengerDashboard.Spent`, and the statistics stated through them, are therefore stated for whole prices only.
- `Routes.Route` matches paths exactly. React Router's case-insensitive and trailing-slash matching is not modelled. The duplicate router wiring in `App.jsx` and `AppRouter.jsx` is not modelled either.
- UI side effects are not modelled: alert, confirm, console output, the loading flags, `setTimeout` redirects, and the success message.
- The driver dashboard's post, edit, delete and booking-action handlers and the passenger page's book and cancel handlers are not modelled. They only call the API and reload.
- The publish page's post-failure message is not modelled: the outcome of the HTTP call is not modelled there.
- `CreateRide.Validate` and `CreateRide.HandleSubmit` take the numeric readings of the seat and price fields as an argument (`CreateRide.Reading`). `CreateRide.Read` computes the readings the page uses, and `CreateRide.Valid` ties the two together. The lemmas about the posted numbers are stated for `Read(form)`.
- The `@PreAuthorize` role-casing split between the controllers cannot be checked without the `User.Role` enum, which is not part of this model.
- `DriverDashboard.FetchRides` and `DriverDashboard.BuildBookingsMap` model the page's logic, but `DriverDashboard.jsx:3-9` imports `getRidesByDriver`, `deleteRide` and `updateRide` from `api/rides.js`, and `getBookingsForRide` and `updateBookingStatus` from `api/bookings.js`. Neither module exports them: `rides.js:3` exports only `publishRideApi`, and `bookings.js` exports only `createBooking`, `getPassengerBookings` and `cancelBooking`. With a bundler the names are undefined and calling them throws, so `fetchRides` as written always ends in its error branch; under native ES modules the page does not load at all. The model assumes the calls exist and return the responses it takes as parameters.
- `PassengerDashboard.LoadRides` likewise assumes `getAllRides` and `searchRides`, which `PassengerDashboard.jsx:3` imports but `api/rides.js` does not export. As written `loadRides` never updates the list.
- `Routes.LoginRoleGate` and the other route gates model `context/AuthContext.jsx`, but `App.js:8` and `CreateRide.jsx:4` import `contexts/AuthContext`, which is not part of this model. Whether that module behaves as the modelled one is not promised.
- `CreateRide.HandleSubmit` models the post as succeeding or failing by a parameter. `CreateRide.jsx:3` and `:52-55` post with bare `axios`, which sends no bearer token, while `RideController.java:26` requires `hasRole('Driver')`; with that security configuration the success branch cannot be reached as written.
- `Store.SaveKey` follows `merge` as Hibernate performed it before version 6.6: an entity with a generated id that no row holds is inserted under a fresh key. From Hibernate 6.6 on, such a merge throws an optimistic-locking exception instead. The same applies to `RideService.CreateRideAsWritten` and `UserService.CreateUserAsWritten` when the request carries an unknown id.
- `NotificationService.GetUserNotifications` orders notifications without a creation time last (`NotificationService.NewerOrSame`), as MySQL and H2 sort NULL under `ORDER BY ... DESC`. PostgreSQL and Oracle sort NULL first under DESC, so there such notifications come first. The database is not part of this model.
- Markup-only components, the HTTP wrapper modules, the other controllers and `SecurityConfig` are not modelled.

## Findings

| source | as written | input that shows it | evidently intended | confidence | as-written member | corrected member |
|---|---|---|---|---|---|---|
| share2go-backend/src/main/java/com/share2go/service/impl/RideServiceImpl.java:37-38 | `toEntity` copies the request DTO's id into the new ride, and `save` with a known id merges into that row | a create request for driver 1 whose body carries `"id": 5` while ride 5 exists: ride 5 is replaced with the new data and driver 1, and no ride is added | a create always inserts a new ride under a fresh id | medium (not executed) | `RideService.CreateRideOverwritesExisting` | `RideService.CreateRide` |
| share2go-backend/src/main/java/com/share2go/service/impl/UserServiceImpl.java:24-25 | `toEntity` copies the request DTO's id into the new user, and `save` with a known id merges into that row | a registration whose body carries the id of an existing user: that user's email and password are replaced | a registration always inserts a new user under a fresh id | medium (not executed) | `UserService.CreateUserOverwritesExisting` | `UserService.CreateUser` |
| share2go-frontend/src/pages/CreateRide.jsx:25-48 | the seats are validated with `Number` (`isNaN` and `< 1`) but posted with `parseInt`, which stops at the first character that is not a digit | seats "0.5e1": `Number` gives 5, so the form is valid, and `parseInt` posts 0 seats | the posted seat count is the validated number's whole part | medium (not executed) | `CreateRide.ExponentSeatsPostZero` | `CreateRide.ValidPayloadPositive` |

=== FILE: api_client.dfy ===
/**
 * The client's HTTP instance: a request interceptor that attaches the
 * stored token, and a response interceptor that ends the session on 401.
 */
module ApiClient {
  import opened Wrappers
  import AuthContext
  import JwtFilter

  type Storage = map<string, string>
  type Headers = map<string, string>

  const AuthorizationHeader: string := "Authorization"

  /** `localStorage.getItem("token")` taken as a condition: present and non-empty. */
  predicate HasToken(storage: Storage) {
    AuthContext.TokenKey in storage && storage[AuthContext.TokenKey] != ""
  }

  /**
   * The request interceptor: with a stored token the request carries a
   * bearer header holding exactly that token; every other header, and a
   * request made without a token, is passed on as it was.
   */
  function OnRequest(storage: Storage, headers: Headers): (h: Headers)
    ensures HasToken(storage) ==>
      && AuthorizationHeader in h
      && JwtFilter.BearerToken(Some(h[AuthorizationHeader])) == Some(storage[AuthContext.TokenKey])
    ensures HasToken(storage) ==> h.Keys == headers.Keys + {AuthorizationHeader}
    ensures !HasToken(storage) ==> h == headers
    ensures forall k :: k in headers && k != AuthorizationHeader ==> k in h && h[k] == headers[k]
  {
    if HasToken(storage) then
      JwtFilter.BearerRoundTrip(storage[AuthContext.TokenKey]);
      headers[AuthorizationHeader := JwtFilter.BearerPrefix + storage[AuthContext.TokenKey]]
    else headers
  }

  /** What the error interceptor leaves behind: storage, a navigation, and the error it rejects with. */
  datatype ErrorOutcome<E> = ErrorOutcome(storage: Storage, navigateTo: Option<string>, rejected: E)

  /**
   * The error interceptor: a 401 forgets the session and navigates to the
   * login page; any other status (403 included) or no response at all
   * leaves storage as it was. The error is always rejected to the caller.
   */
  function OnResponseError<E>(storage: Storage, status: Option<int>, error: E): (o: ErrorOutcome<E>)
    ensures o.rejected == error
    ensures status == Some(401) ==>
      && o.navigateTo == Some("/login")
      && AuthContext.TokenKey !in o.storage && AuthContext.UserKey !in o.storage
      && o.storage.Keys == storage.Keys - {AuthContext.TokenKey, AuthContext.UserKey}
      && forall k :: k in o.storage ==> o.storage[k] == storage[k]
    ensures status != Some(401) ==> o.storage == storage && o.navigateTo.None?
  {
    if status == Some(401) then
      ErrorOutcome(storage - {AuthContext.TokenKey, AuthContext.UserKey}, Some("/login"), error)
    else ErrorOutcome(storage, None, error)
  }

  /** A successful response passes through unchanged. */
  function OnResponse<R>(response: R): (r: R)
    ensures r == response
  {
    response
  }

  /** After a 401 the next page load starts with no session, whatever the codec. */
  lemma UnauthorizedStartsAnonymous<E>(storage: Storage, error: E, codec: AuthContext.Codec)
    ensures var st := OnResponseError(storage, Some(401), error).storage;
      AuthContext.Initial(st, codec) == Ok(AuthContext.Session(None, None, st))
  {
  }

  /** After a 401 the next request carries no bearer header of its own making. */
  lemma UnauthorizedSendsNoToken<E>(storage: Storage, error: E, headers: Headers)
    ensures OnRequest(OnResponseError(storage, Some(401), error).storage, headers) == headers
  {
  }

  /**
   * A request sent with a token and a 403 back keeps the session: the
   * following request carries the same header.
   */
  lemma ForbiddenKeepsToken<E>(storage: Storage, error: E, headers: Headers)
    ensures OnRequest(OnResponseError(storage, Some(403), error).storage, headers) == OnRequest(storage, headers)
  {
  }

  /** The session that login stores is the one the interceptor sends to the backend's filter. */
  lemma LoginTokenReachesFilter<P>(s: AuthContext.Session, token: string, data: AuthContext.LoginData,
                                    codec: AuthContext.Codec, decode: string -> Option<AuthContext.TokenClaims>,
                                    headers: Headers, path: string, context: Option<P>,
                                    validate: string -> Option<JwtFilter.Claims>, load: string -> Option<P>)
    requires token != ""
    requires AuthContext.Login(s, Some(token), data, codec, decode).Ok?
    requires !JwtFilter.ShouldNotFilter(path)
    ensures var st := AuthContext.Login(s, Some(token), data, codec, decode).value.storage;
      var h := OnRequest(st, headers);
      var o := JwtFilter.Filter(path, Some(h[AuthorizationHeader]), context, validate, load);
      o.context == (if validate(token).Some? then load(validate(token).value.subject) else None)
  {
    var st := AuthContext.Login(s, Some(token), data, codec, decode).value.storage;
    assert st[AuthContext.TokenKey] == token;
    assert HasToken(st);
  }
}

=== FILE: auth_context.dfy ===
/**
 * The client's session: the token and user held in memory, mirrored in
 * the browser's storage under the keys `token` and `user`. JSON encoding
 * of the user and JWT decoding are parameters (a codec and a decoder);
 * an exception they would throw is `Malformed` / `None`.
 */
module AuthContext {
  import opened Wrappers
  import opened Js
  import AuthController

  /** The user object the client keeps; a property it lacks is undefined. */
  datatype SessionUser = SessionUser(id: JsVal, email: JsVal, role: JsVal, name: JsVal)

  /** JSON.parse of a stored user: a syntax error, JSON null, or a user object. */
  datatype ParseResult = Malformed | Parsed(user: Option<SessionUser>)

  datatype Codec = Codec(stringify: SessionUser -> string, parse: string -> ParseResult)

  /** The payload jwtDecode reads from a token. */
  datatype TokenClaims = TokenClaims(sub: JsVal, uid: JsVal, role: JsVal)

  /** The login body as the client reads it. */
  datatype LoginData = LoginData(userId: JsVal, email: JsVal, role: JsVal)

  /** The token (`None` for null or undefined), the user, and the browser's storage. */
  datatype Session = Session(token: Option<string>, user: Option<SessionUser>, storage: map<string, string>)

  const TokenKey: string := "token"
  const UserKey: string := "user"

  predicate TokenTruthy(token: Option<string>) {
    token.Some? && token.value != ""
  }

  /** A stored user the effect adopts as it is: it parses to an object with a truthy id. */
  predicate AdoptableUser(storage: map<string, string>, codec: Codec) {
    && UserKey in storage && storage[UserKey] != ""
    && codec.parse(storage[UserKey]).Parsed?
    && codec.parse(storage[UserKey]).user.Some?
    && Truthy(codec.parse(storage[UserKey]).user.value.id)
  }

  /** The user the effect builds from a token's claims. */
  function ClaimsUser(c: TokenClaims): SessionUser {
    SessionUser(c.uid, c.sub, c.role, Undefined)
  }

  /**
   * The first render: token and user read from storage. An empty token is
   * null; a stored user is parsed without a guard, so a corrupt one throws.
   */
  function Initial(storage: map<string, string>, codec: Codec): (r: Result<Session, string>)
    ensures r.Err? <==> UserKey in storage && storage[UserKey] != "" && codec.parse(storage[UserKey]).Malformed?
    ensures r.Ok? ==> r.value.storage == storage
    ensures r.Ok? ==> (r.value.token.Some? <==> TokenKey in storage && storage[TokenKey] != "")
    ensures r.Ok? && r.value.token.Some? ==> r.value.token.value == storage[TokenKey]
    ensures r.Ok? ==> (r.value.user.None? <==>
      !(UserKey in storage && storage[UserKey] != "") || codec.parse(storage[UserKey]) == Parsed(None))
  {
    var token := if TokenKey in storage && storage[TokenKey] != "" then Some(storage[TokenKey]) else None;
    if UserKey !in storage || storage[UserKey] == "" then Ok(Session(token, None, storage))
    else
      match codec.parse(storage[UserKey])
      case Malformed => Err("SyntaxError")
      case Parsed(u) => Ok(Session(token, u, storage))
  }

  /** logout: forgets token and user in memory and in storage. */
  function Logout(s: Session): (s': Session)
    ensures s'.token.None? && s'.user.None?
    ensures TokenKey !in s'.storage && UserKey !in s'.storage
    ensures forall k :: k in s.storage && k != TokenKey && k != UserKey ==> k in s'.storage && s'.storage[k] == s.storage[k]
    ensures s'.storage.Keys <= s.storage.Keys
  {
    Session(None, None, s.storage - {TokenKey, UserKey})
  }

  /**
   * The effect that runs whenever the token changes. Without a token it
   * clears the session; with one it stores the token, adopts a stored user
   * that has an id, and otherwise rebuilds the user from the token's
   * claims, logging out when the token cannot be decoded.
   */
  function Effect(s: Session, codec: Codec, decode: string -> Option<TokenClaims>): (s': Session)
    ensures !TokenTruthy(s.token) ==> s' == Session(s.token, None, s.storage - {TokenKey, UserKey})
    ensures TokenTruthy(s.token) && AdoptableUser(s.storage[TokenKey := s.token.value], codec) ==>
      s' == Session(s.token, codec.parse(s.storage[UserKey]).user, s.storage[TokenKey := s.token.value])
    ensures TokenTruthy(s.token) && !AdoptableUser(s.storage[TokenKey := s.token.value], codec) ==>
      var st := s.storage[TokenKey := s.token.value];
      match decode(s.token.value)
      case None => s' == Logout(s.(storage := st))
      case Some(c) => s' == Session(s.token, Some(ClaimsUser(c)), st[UserKey := codec.stringify(ClaimsUser(c))])
  {
    if !TokenTruthy(s.token) then Session(s.token, None, s.storage - {TokenKey, UserKey})
    else
      var st := s.storage[TokenKey := s.token.value];
      if AdoptableUser(st, codec) then Session(s.token, codec.parse(st[UserKey]).user, st)
      else
        match decode(s.token.value)
        case None => Logout(s.(storage := st))
        case Some(c) =>
          var u := ClaimsUser(c);
          Session(s.token, Some(u), st[UserKey := codec.stringify(u)])
  }

  /**
   * login: stores the token and a user built from the login body; the
   * email falls back to the token's subject, which needs decoding.
   */
  function Login(s: Session, token: Option<string>, data: LoginData, codec: Codec,
                 decode: string -> Option<TokenClaims>): (r: Result<Session, string>)
    ensures Truthy(data.email) ==> r.Ok?
    ensures !Truthy(data.email) ==> (r.Ok? <==> token.Some? && decode(token.value).Some?)
    ensures r.Ok? ==>
      && r.value.token == token
      && r.value.user.Some?
      && var u := r.value.user.value;
      && u.id == data.userId && u.role == data.role && u.name == Undefined
      && u.email == (if Truthy(data.email) then data.email else decode(token.value).value.sub)
      && r.value.storage == s.storage[TokenKey := StoredToken(token)][UserKey := codec.stringify(u)]
  {
    var email :=
      if Truthy(data.email) then Some(data.email)
      else if token.None? then None
      else match decode(token.value)
        case None => None
        case Some(c) => Some(c.sub);
    if email.None? then Err("InvalidTokenError")
    else
      var u := SessionUser(data.userId, email.value, data.role, Undefined);
      Ok(Session(token, Some(u), s.storage[TokenKey := StoredToken(token)][UserKey := codec.stringify(u)]))
  }

  /** What `localStorage.setItem` records for a token that may be undefined. */
  function StoredToken(token: Option<string>): string {
    if token.Some? then token.value else "undefined"
  }

  /** The login body a client reads from the server's reply. */
  function FromResponse(r: AuthController.LoginResponse): LoginData {
    var j := AuthController.ResponseJson(r);
    LoginData(AuthController.Field(j, "userId"), AuthController.Field(j, "email"), AuthController.Field(j, "role"))
  }

  // ---- properties ----

  /** Logging out twice is logging out once. */
  lemma LogoutIdempotent(s: Session)
    ensures Logout(Logout(s)) == Logout(s)
  {
    assert Logout(s).storage - {TokenKey, UserKey} == Logout(s).storage;
  }

  /** After logout the effect has nothing left to do. */
  lemma EffectAfterLogout(s: Session, codec: Codec, decode: string -> Option<TokenClaims>)
    ensures Effect(Logout(s), codec, decode) == Logout(s)
  {
    LogoutIdempotent(s);
  }

  /** An adoptable stored user is taken as it is: the token is never decoded. */
  lemma AdoptedWithoutDecoding(s: Session, codec: Codec, d1: string -> Option<TokenClaims>, d2: string -> Option<TokenClaims>)
    requires TokenTruthy(s.token) && AdoptableUser(s.storage[TokenKey := s.token.value], codec)
    ensures Effect(s, codec, d1) == Effect(s, codec, d2)
    ensures Effect(s, codec, d1).user == codec.parse(s.storage[UserKey]).user
  {
  }

  /** A corrupt stored user makes the effect act as if no user were stored. */
  lemma CorruptUserFallsThrough(s: Session, codec: Codec, decode: string -> Option<TokenClaims>)
    requires TokenTruthy(s.token) && UserKey in s.storage && codec.parse(s.storage[UserKey]).Malformed?
    ensures Effect(s, codec, decode) == Effect(s.(storage := s.storage - {UserKey}), codec, decode)
  {
    var st := s.storage[TokenKey := s.token.value];
    var st' := (s.storage - {UserKey})[TokenKey := s.token.value];
    assert st' == st - {UserKey};
    assert st' - {TokenKey, UserKey} == st - {TokenKey, UserKey};
    assert st'[UserKey := "x"] == st[UserKey := "x"];
    if decode(s.token.value).Some? {
      var u := ClaimsUser(decode(s.token.value).value);
      assert st'[UserKey := codec.stringify(u)] == st[UserKey := codec.stringify(u)];
    }
  }

  /** A token that cannot be decoded, with no adoptable user, ends the session. */
  lemma UndecodableTokenLogsOut(s: Session, codec: Codec, decode: string -> Option<TokenClaims>)
    requires TokenTruthy(s.token) && !AdoptableUser(s.storage[TokenKey := s.token.value], codec)
    requires decode(s.token.value).None?
    ensures var s' := Effect(s, codec, decode);
      s'.token.None? && s'.user.None? && TokenKey !in s'.storage && UserKey !in s'.storage
  {
  }

  /**
   * After a login whose user has a truthy id and survives the JSON round
   * trip, the effect keeps the session exactly as login left it.
   */
  lemma LoginThenEffectStable(s: Session, token: string, data: LoginData, codec: Codec,
                              decode: string -> Option<TokenClaims>)
    requires token != ""
    requires Login(s, Some(token), data, codec, decode).Ok?
    requires var u := Login(s, Some(token), data, codec, decode).value.user.value;
      codec.stringify(u) != "" && codec.parse(codec.stringify(u)) == Parsed(Some(u)) && Truthy(u.id)
    ensures var s1 := Login(s, Some(token), data, codec, decode).value;
      Effect(s1, codec, decode) == s1
  {
    var s1 := Login(s, Some(token), data, codec, decode).value;
    assert s1.storage[TokenKey] == token;
    assert s1.storage[TokenKey := token] == s1.storage;
    assert AdoptableUser(s1.storage, codec);
  }

  /**
   * The server's login body carries no email, so login always needs the
   * token's subject: an undecodable token makes login throw, and the
   * session's email is the subject.
   */
  lemma ResponseLoginDecodes(s: Session, r: AuthController.LoginResponse, codec: Codec,
                             decode: string -> Option<TokenClaims>)
    ensures var res := Login(s, Some(r.accessToken), FromResponse(r), codec, decode);
      && (res.Ok? <==> decode(r.accessToken).Some?)
      && (res.Ok? ==> res.value.user.value.email == decode(r.accessToken).value.sub)
      && (res.Ok? ==> res.value.user.value.role == Str(r.role))
  {
    AuthController.ResponseShape(r);
  }

  /**
   * A caller that passes the body's `token` property passes undefined:
   * login throws before it stores anything, and a session whose token is
   * missing ends at the next effect.
   */
  lemma MisnamedTokenLogsOut(s: Session, r: AuthController.LoginResponse, codec: Codec,
                             decode: string -> Option<TokenClaims>)
    requires AuthController.Field(AuthController.ResponseJson(r), "token") == Undefined
    ensures Login(s, None, FromResponse(r), codec, decode).Err?
    ensures Effect(s.(token := None), codec, decode).user.None?
  {
    AuthController.ResponseShape(r);
  }
}

=== FILE: auth_controller.dfy ===
/**
 * The login and logout endpoints. Password hashing (`PasswordEncoder.matches`)
 * and token signing (`JwtUtil.generateAccessToken`) are parameters: the
 * model says which inputs they receive and what the endpoint does with
 * their answers, not how they compute them.
 */
module AuthController {
  import opened Wrappers
  import opened Entities
  import opened Store
  import opened Js
  import UserService

  datatype LoginRequest = LoginRequest(email: string, password: string)

  /** The body of a successful login: the token is named `accessToken`, and there is no email. */
  datatype LoginResponse = LoginResponse(accessToken: string, userId: Option<Id>, name: string, role: string)

  datatype Body = ErrorBody(error: string) | TokenBody(response: LoginResponse) | EmptyBody
  datatype Reply = Reply(status: int, body: Body)

  /** The one reply for both an unknown email and a wrong password. */
  const Unauthorized: Reply := Reply(401, ErrorBody("Invalid credentials"))

  /**
   * login: finds the user by email, checks the password against the stored
   * hash, and answers with a token built from the user's email, id and
   * role. A lookup that matches several users ends in the lookup's error.
   */
  function Login(db: Db, req: LoginRequest, matches: (string, string) -> bool,
                 generate: (string, Option<Id>, string) -> string): (r: Result<Reply, Error>)
    ensures FindUserByEmail(db, req.email).Err? <==> r.Err?
    ensures (forall k :: k in db.users ==> db.users[k].email != req.email) ==> r == Ok(Unauthorized)
    ensures r.Ok? ==> r.value == Unauthorized || r.value.status == 200
    ensures r.Ok? && r.value.status == 200 ==>
      && var u := FindUserByEmail(db, req.email).value.value;
      && u.email == req.email
      && matches(req.password, u.password)
      && r.value.body == TokenBody(LoginResponse(generate(u.email, u.id, u.role), u.id, u.name, u.role))
  {
    match FindUserByEmail(db, req.email)
    case Err(e) => Err(e)
    case Ok(None) => Ok(Unauthorized)
    case Ok(Some(u)) =>
      if !matches(req.password, u.password) then Ok(Unauthorized)
      else Ok(Reply(200, TokenBody(LoginResponse(generate(u.email, u.id, u.role), u.id, u.name, u.role))))
  }

  /**
   * With exactly one user registered under the email, login answers 200
   * exactly when the password matches that user's hash, and otherwise the
   * same 401 as for an unknown email.
   */
  lemma LoginDecision(db: Db, k: Id, password: string, matches: (string, string) -> bool,
                      generate: (string, Option<Id>, string) -> string)
    requires k in db.users
    requires forall j :: j in db.users && j != k ==> db.users[j].email != db.users[k].email
    ensures var r := Login(db, LoginRequest(db.users[k].email, password), matches, generate);
      && r.Ok?
      && (r.value.status == 200 <==> matches(password, db.users[k].password))
      && (r.value.status != 200 ==> r.value == Unauthorized)
      && (r.value.status == 200 ==> r.value.body.response.userId == Some(k))
  {
    assert UsersWithEmail(db.users, db.users[k].email) == {k};
  }

  /**
   * With a matcher that is plain equality, this endpoint and the user
   * service's own login accept exactly the same credentials.
   */
  lemma AgreesWithUserServiceLogin(db: Db, req: LoginRequest, matches: (string, string) -> bool,
                                   generate: (string, Option<Id>, string) -> string)
    requires forall a, b :: matches(a, b) <==> a == b
    ensures var r := Login(db, req, matches, generate);
      r.Ok? && r.value.status == 200 <==> UserService.Login(db, req.email, req.password).Ok?
  {
  }

  /** logout: 400 without a user id, 204 otherwise; nothing is recorded. */
  function Logout(payload: map<string, Option<Id>>): (r: Reply)
    ensures r.body == EmptyBody
    ensures r.status == 204 <==> "userId" in payload && payload["userId"].Some?
    ensures r.status == 400 <==> !("userId" in payload && payload["userId"].Some?)
  {
    if "userId" !in payload || payload["userId"].None? then Reply(400, EmptyBody) else Reply(204, EmptyBody)
  }

  /**
   * Logout reads nothing but whether a user id is present: two bodies that
   * agree on that get the same reply, whatever else they carry, so a
   * logout neither checks the id against any user nor revokes anything.
   */
  lemma LogoutOnlyReadsUserId(p: map<string, Option<Id>>, q: map<string, Option<Id>>)
    requires ("userId" in p && p["userId"].Some?) == ("userId" in q && q["userId"].Some?)
    ensures Logout(p) == Logout(q)
  {
  }

  /** The JSON object a client receives for a successful login. */
  function ResponseJson(r: LoginResponse): map<string, JsVal> {
    map["accessToken" := Str(r.accessToken),
        "userId" := (if r.userId.Some? then Num(r.userId.value as real) else Null),
        "name" := Str(r.name),
        "role" := Str(r.role)]
  }

  /** Reading a property of a JSON object: a missing property is undefined. */
  function Field(obj: map<string, JsVal>, key: string): JsVal {
    if key in obj then obj[key] else Undefined
  }

  /**
   * A client that reads the login body's `token` or `email` gets
   * undefined: the token travels as `accessToken` and no email is sent.
   */
  lemma ResponseShape(r: LoginResponse)
    ensures Field(ResponseJson(r), "token") == Undefined
    ensures Field(ResponseJson(r), "email") == Undefined
    ensures Field(ResponseJson(r), "accessToken") == Str(r.accessToken)
    ensures Field(ResponseJson(r), "role") == Str(r.role)
  {
  }
}

=== FILE: booking_mapper.dfy ===
/** Conversion between Booking and BookingDto. */
module BookingMapper {
  import opened Wrappers
  import opened Entities

  /** The id a reference contributes: null when there is no referenced entity. */
  function RideRef(ride: Option<Ride>): Option<Id> {
    if ride.Some? then ride.value.id else None
  }

  function UserRef(user: Option<User>): Option<Id> {
    if user.Some? then user.value.id else None
  }

  function ToDto(b: Booking): BookingDto {
    BookingDto(b.id, b.rideId, b.passengerId, b.numberOfSeats, b.status, b.bookingTime)
  }

  /** Copies seats, status and booking time, attaches ride and passenger, and never copies the id. */
  function ToEntity(d: BookingDto, ride: Option<Ride>, passenger: Option<User>): (b: Booking)
    ensures b.id.None?
  {
    Booking(None, RideRef(ride), UserRef(passenger), d.numberOfSeats, d.status, d.bookingTime)
  }

  /** A booking without a ride or passenger reports null ids. */
  lemma NullReferences(d: BookingDto)
    ensures ToDto(ToEntity(d, None, None)).rideId.None?
    ensures ToDto(ToEntity(d, None, None)).passengerId.None?
  {
  }

  /** DTO to entity and back keeps seats, status and time, and reports the attached ride and passenger. */
  lemma DtoRoundTrip(d: BookingDto, ride: Ride, passenger: User)
    ensures var d' := ToDto(ToEntity(d, Some(ride), Some(passenger)));
      && d' == d.(id := None, rideId := ride.id, passengerId := passenger.id)
  {
  }
}

=== FILE: booking_service.dfy ===
/**
 * The booking service: a booking request moves between PENDING, CONFIRMED,
 * REJECTED and CANCELLED (or any text an update writes), and the ride's
 * `availableSeats` moves with it. Each operation sends the notification
 * the source sends, through the notification service.
 */
module BookingService {
  import opened Wrappers
  import opened Text
  import opened Entities
  import opened Store
  import BookingMapper
  import NotificationService

  const BookingNotFound: Error := NotFound("Booking not found")

  /** The notification the booking service builds: unread, no creation time. */
  function Notice(recipient: Option<Id>, kind: string, message: string, rideId: Option<Id>, bookingId: Option<Id>): NotificationDto {
    NotificationDto(None, recipient, kind, message, false, None, rideId, bookingId)
  }

  /** `after` is `before` plus exactly one notification, with the given recipient, type, ride and booking. */
  predicate AddsOneNotice(before: map<Id, Notification>, after: map<Id, Notification>,
                          recipient: Option<Id>, kind: string, rideId: Option<Id>, bookingId: Option<Id>)
  {
    && before.Keys <= after.Keys
    && |after| == |before| + 1
    && (forall k :: k in before ==> after[k] == before[k])
    && forall k :: k in after && k !in before ==>
         && after[k].recipientId == recipient && after[k].kind == kind
         && after[k].rideId == rideId && after[k].bookingId == bookingId
         && !after[k].readFlag
  }

  /** Sends a notice; the call's value is `value` if the notice was stored, else the notification error. */
  function Notify<T>(db: Db, recipient: Option<Id>, kind: string, message: string,
                     rideId: Option<Id>, bookingId: Option<Id>, value: T): (s: Step<T>)
    ensures s.db.(notifications := db.notifications) == db
    ensures s.result.Ok? <==> recipient.Some? && recipient.value in db.users
    ensures s.result.Ok? ==> s.result.value == value
    ensures s.result.Ok? ==> AddsOneNotice(db.notifications, s.db.notifications, recipient, kind, rideId, bookingId)
    ensures s.result.Err? ==> s.db == db
  {
    var n := NotificationService.CreateNotification(db, Notice(recipient, kind, message, rideId, bookingId));
    if n.result.Err? then Step(n.db, Err(n.result.error))
    else
      var k := n.result.value.id.value;
      assert forall j :: j in n.db.notifications && j !in db.notifications ==> j == k;
      Step(n.db, Ok(value))
  }

  /** The ride a stored booking refers to, if it is in the store. */
  predicate RideResolves(db: Db, b: Booking) {
    b.rideId.Some? && b.rideId.value in db.rides
  }

  /** The ride's driver reference is set and resolves. */
  predicate DriverResolves(db: Db, r: Ride) {
    r.driverId.Some? && r.driverId.value in db.users
  }

  /** createBooking passes its checks: both references resolve and at least one seat is asked for. */
  predicate CanBook(db: Db, dto: BookingDto) {
    && dto.rideId.Some? && dto.rideId.value in db.rides
    && dto.passengerId.Some? && dto.passengerId.value in db.users
    && dto.numberOfSeats > 0
  }

  /**
   * createBooking: looks up the ride, then the passenger, rejects a
   * non-positive seat count, saves a PENDING booking stamped `now`, then
   * asks the ride's driver to review it.
   */
  function CreateBooking(db: Db, dto: BookingDto, now: Time): (s: Step<BookingDto>)
    ensures s.db.users == db.users && s.db.rides == db.rides && s.db.retiredBookings == db.retiredBookings
    ensures dto.rideId.None? ==> s == Step(db, Err(NullIdError))
    ensures dto.rideId.Some? && dto.rideId.value !in db.rides ==> s == Step(db, Err(NotFound("Ride not found")))
    ensures dto.rideId.Some? && dto.rideId.value in db.rides ==>
      && (dto.passengerId.None? ==> s == Step(db, Err(NullIdError)))
      && (dto.passengerId.Some? && dto.passengerId.value !in db.users ==> s == Step(db, Err(NotFound("Passenger not found"))))
    ensures (dto.rideId.Some? && dto.rideId.value in db.rides && dto.passengerId.Some? && dto.passengerId.value in db.users
             && dto.numberOfSeats <= 0) ==> s == Step(db, Err(IllegalArgument("Requested seats must be greater than zero")))
    ensures CanBook(db, dto) ==>
      && db.bookings.Keys <= s.db.bookings.Keys
      && |s.db.bookings| == |db.bookings| + 1
      && (forall k :: k in db.bookings ==> s.db.bookings[k] == db.bookings[k])
      && (forall k :: k in s.db.bookings && k !in db.bookings ==>
            && k !in db.retiredBookings
            && s.db.bookings[k] == Booking(Some(k), dto.rideId, dto.passengerId, dto.numberOfSeats, Some(PENDING), Some(now)))
    ensures CanBook(db, dto) && !DriverResolves(db, db.rides[dto.rideId.value]) ==>
      s.result == Err(NullReference) && s.db.notifications == db.notifications
    ensures s.result.Ok? <==> CanBook(db, dto) && DriverResolves(db, db.rides[dto.rideId.value])
    ensures s.result.Ok? ==>
      && s.result.value.id.Some?
      && var k := s.result.value.id.value;
      && k !in db.bookings
      && s.result.value == dto.(id := Some(k), status := Some(PENDING), bookingTime := Some(now))
      && AddsOneNotice(db.notifications, s.db.notifications,
                       db.rides[dto.rideId.value].driverId, "BOOKING_REQUEST", dto.rideId, Some(k))
  {
    if dto.rideId.None? then Step(db, Err(NullIdError))
    else
      var ride := FindRide(db, dto.rideId.value);
      if ride.None? then Step(db, Err(NotFound("Ride not found")))
      else if dto.passengerId.None? then Step(db, Err(NullIdError))
      else
        var passenger := FindUser(db, dto.passengerId.value);
        if passenger.None? then Step(db, Err(NotFound("Passenger not found")))
        else if dto.numberOfSeats <= 0 then Step(db, Err(IllegalArgument("Requested seats must be greater than zero")))
        else
          var request := dto.(bookingTime := Some(now), status := Some(PENDING));
          var booking := BookingMapper.ToEntity(request, ride, passenger);
          var k := FreshKey(db.bookings, db.retiredBookings);
          var saved := booking.(id := Some(k));
          InsertFresh(db.bookings, k, saved);
          var db1 := db.(bookings := db.bookings[k := saved]);
          var driver := FindDriver(db, ride.value);
          if driver.None? then Step(db1, Err(NullReference))
          else
            Notify(db1, driver.value.id, "BOOKING_REQUEST",
                   "New booking request: " + passenger.value.name + " requested "
                     + IntToString(dto.numberOfSeats) + " seat(s).",
                   ride.value.id, saved.id, BookingMapper.ToDto(saved))
  }

  function GetBookingById(db: Db, id: Id): (r: Result<BookingDto, Error>)
    ensures id !in db.bookings ==> r == Err(BookingNotFound)
    ensures id in db.bookings ==> r == Ok(BookingMapper.ToDto(db.bookings[id].(id := Some(id))))
  {
    var b := FindBooking(db, id);
    if b.None? then Err(BookingNotFound) else Ok(BookingMapper.ToDto(b.value))
  }

  /** A created booking is read back by its id exactly as it was returned. */
  lemma CreateThenGetBooking(db: Db, dto: BookingDto, now: Time)
    requires CreateBooking(db, dto, now).result.Ok?
    ensures var s := CreateBooking(db, dto, now);
      GetBookingById(s.db, s.result.value.id.value) == Ok(s.result.value)
  {
  }

  /** Reading a booking after accepting it shows a seat-holding status, with its seats unchanged. */
  lemma AcceptThenGetBooking(db: Db, id: Id)
    requires AcceptBooking(db, id).result.Ok?
    ensures var r := GetBookingById(AcceptBooking(db, id).db, id);
      && r.Ok? && r.value.status.Some? && IsConfirmed(r.value.status)
      && r.value.numberOfSeats == db.bookings[id].numberOfSeats
  {
    ConfirmedHoldsSeats();
  }

  /**
   * acceptBooking: a booking that already holds seats is returned as it
   * is; any other booking (whatever its status) takes its seats from the
   * ride, becomes CONFIRMED, and its passenger is told.
   */
  function AcceptBooking(db: Db, id: Id): (s: Step<BookingDto>)
    ensures s.db.users == db.users
    ensures s.db.rides.Keys == db.rides.Keys
    ensures id !in db.bookings ==> s == Step(db, Err(BookingNotFound))
    ensures id in db.bookings && IsConfirmed(db.bookings[id].status) ==>
      s == Step(db, Ok(BookingMapper.ToDto(db.bookings[id].(id := Some(id)))))
    ensures id in db.bookings && !IsConfirmed(db.bookings[id].status) && !RideResolves(db, db.bookings[id]) ==>
      s == Step(db, Err(NullReference))
    ensures id in db.bookings && !IsConfirmed(db.bookings[id].status) && RideResolves(db, db.bookings[id]) ==>
      var b := db.bookings[id];
      var r := b.rideId.value;
      if db.rides[r].availableSeats < b.numberOfSeats then
        s == Step(db, Err(IllegalArgument("Not enough available seats to accept booking")))
      else
        && s.db.rides == db.rides[r := db.rides[r].(availableSeats := db.rides[r].availableSeats - b.numberOfSeats)]
        && s.db.rides[r].availableSeats >= 0
        && s.db.bookings == db.bookings[id := b.(status := Some(CONFIRMED))]
        && (s.result.Ok? <==> b.passengerId.Some? && b.passengerId.value in db.users)
        && (s.result.Ok? ==>
              && s.result.value == BookingMapper.ToDto(b.(id := Some(id), status := Some(CONFIRMED)))
              && AddsOneNotice(db.notifications, s.db.notifications, b.passengerId, "BOOKING_ACCEPTED", Some(r), Some(id)))
  {
    if id !in db.bookings then Step(db, Err(BookingNotFound))
    else
      var b := db.bookings[id];
      if IsConfirmed(b.status) then Step(db, Ok(BookingMapper.ToDto(b.(id := Some(id)))))
      else if !RideResolves(db, b) then Step(db, Err(NullReference))
      else
        var r := b.rideId.value;
        var ride := db.rides[r];
        if ride.availableSeats < b.numberOfSeats then
          Step(db, Err(IllegalArgument("Not enough available seats to accept booking")))
        else
          var db1 := db.(rides := db.rides[r := ride.(availableSeats := ride.availableSeats - b.numberOfSeats)]);
          var saved := b.(status := Some(CONFIRMED));
          var db2 := db1.(bookings := db1.bookings[id := saved]);
          if b.passengerId.None? then Step(db2, Err(NullReference))
          else
            Notify(db2, b.passengerId, "BOOKING_ACCEPTED",
                   "Your booking was accepted for " + ride.origin + " \U{2192} " + ride.destination + ".",
                   Some(r), Some(id), BookingMapper.ToDto(saved.(id := Some(id))))
  }

  /**
   * rejectBooking: refuses a booking that holds seats; otherwise marks it
   * REJECTED (seats untouched) and tells the passenger.
   */
  function RejectBooking(db: Db, id: Id): (s: Step<BookingDto>)
    ensures s.db.users == db.users && s.db.rides == db.rides
    ensures id !in db.bookings ==> s == Step(db, Err(BookingNotFound))
    ensures id in db.bookings && IsConfirmed(db.bookings[id].status) ==>
      s == Step(db, Err(IllegalState("Cannot reject a confirmed booking. Cancel instead.")))
    ensures id in db.bookings && !IsConfirmed(db.bookings[id].status) ==>
      var b := db.bookings[id];
      && s.db.bookings == db.bookings[id := b.(status := Some(REJECTED))]
      && (s.result.Ok? <==> b.passengerId.Some? && b.passengerId.value in db.users && RideResolves(db, b))
      && (s.result.Ok? ==>
            && s.result.value == BookingMapper.ToDto(b.(id := Some(id), status := Some(REJECTED)))
            && AddsOneNotice(db.notifications, s.db.notifications, b.passengerId, "BOOKING_REJECTED", b.rideId, Some(id)))
  {
    if id !in db.bookings then Step(db, Err(BookingNotFound))
    else
      var b := db.bookings[id];
      if IsConfirmed(b.status) then Step(db, Err(IllegalState("Cannot reject a confirmed booking. Cancel instead.")))
      else
        var saved := b.(status := Some(REJECTED));
        var db1 := db.(bookings := db.bookings[id := saved]);
        if b.passengerId.None? || !RideResolves(db, b) then Step(db1, Err(NullReference))
        else
          var ride := db.rides[b.rideId.value];
          Notify(db1, b.passengerId, "BOOKING_REJECTED",
                 "Your booking was rejected for " + ride.origin + " \U{2192} " + ride.destination + ".",
                 b.rideId, Some(id), BookingMapper.ToDto(saved.(id := Some(id))))
  }

  /**
   * cancelBooking: a booking that holds seats gives them back to its ride;
   * every booking ends CANCELLED. No notification is sent.
   */
  function CancelBooking(db: Db, id: Id): (s: Step<()>)
    ensures s.db.users == db.users && s.db.notifications == db.notifications
    ensures s.db.rides.Keys == db.rides.Keys
    ensures id !in db.bookings ==> s == Step(db, Err(BookingNotFound))
    ensures id in db.bookings && IsConfirmed(db.bookings[id].status) && !RideResolves(db, db.bookings[id]) ==>
      s == Step(db, Err(NullReference))
    ensures id in db.bookings && IsConfirmed(db.bookings[id].status) && RideResolves(db, db.bookings[id]) ==>
      var b := db.bookings[id];
      var r := b.rideId.value;
      s.db.rides == db.rides[r := db.rides[r].(availableSeats := db.rides[r].availableSeats + b.numberOfSeats)]
    ensures id in db.bookings && !IsConfirmed(db.bookings[id].status) ==> s.db.rides == db.rides
    ensures s.result.Ok? <==>
      id in db.bookings && (!IsConfirmed(db.bookings[id].status) || RideResolves(db, db.bookings[id]))
    ensures s.result.Ok? ==>
      && id in db.bookings
      && s.db.bookings == db.bookings[id := db.bookings[id].(status := Some(CANCELLED))]
  {
    if id !in db.bookings then Step(db, Err(BookingNotFound))
    else
      var b := db.bookings[id];
      var cancelled := db.bookings[id := b.(status := Some(CANCELLED))];
      if !IsConfirmed(b.status) then Step(db.(bookings := cancelled), Ok(()))
      else if !RideResolves(db, b) then Step(db, Err(NullReference))
      else
        var r := b.rideId.value;
        var ride := db.rides[r].(availableSeats := db.rides[r].availableSeats + b.numberOfSeats);
        Step(db.(rides := db.rides[r := ride], bookings := cancelled), Ok(()))
  }

  /**
   * updateBooking: moves the seat difference between the ride and the
   * booking, whatever the booking's status, refusing only an increase the
   * ride cannot cover, and writes the requested status unchecked.
   */
  function UpdateBooking(db: Db, id: Id, dto: BookingDto): (s: Step<BookingDto>)
    ensures s.db.users == db.users && s.db.notifications == db.notifications
    ensures s.db.rides.Keys == db.rides.Keys
    ensures id !in db.bookings ==> s == Step(db, Err(BookingNotFound))
    ensures id in db.bookings && !RideResolves(db, db.bookings[id]) ==> s == Step(db, Err(NullReference))
    ensures id in db.bookings && RideResolves(db, db.bookings[id]) ==>
      var b := db.bookings[id];
      var r := b.rideId.value;
      var diff := dto.numberOfSeats - b.numberOfSeats;
      if diff > 0 && db.rides[r].availableSeats < diff then
        s == Step(db, Err(IllegalArgument("Not enough available seats to increase booking")))
      else
        && s.result.Ok?
        && s.db.rides.Keys == db.rides.Keys
        && (forall q :: q in db.rides && q != r ==> s.db.rides[q] == db.rides[q])
        && s.db.rides[r] == db.rides[r].(availableSeats := s.db.rides[r].availableSeats)
        && s.db.rides[r].availableSeats + dto.numberOfSeats == db.rides[r].availableSeats + b.numberOfSeats
        && (db.rides[r].availableSeats >= 0 ==> s.db.rides[r].availableSeats >= 0)
        && s.db.bookings == db.bookings[id := b.(numberOfSeats := dto.numberOfSeats, status := dto.status)]
        && s.result.value == BookingMapper.ToDto(s.db.bookings[id].(id := Some(id)))
  {
    if id !in db.bookings then Step(db, Err(BookingNotFound))
    else
      var b := db.bookings[id];
      var diff := dto.numberOfSeats - b.numberOfSeats;
      if !RideResolves(db, b) then Step(db, Err(NullReference))
      else
        var r := b.rideId.value;
        var ride := db.rides[r];
        if diff > 0 && ride.availableSeats < diff then
          Step(db, Err(IllegalArgument("Not enough available seats to increase booking")))
        else
          var saved := b.(numberOfSeats := dto.numberOfSeats, status := dto.status);
          var db1 := db.(rides := db.rides[r := ride.(availableSeats := ride.availableSeats - diff)],
                         bookings := db.bookings[id := saved]);
          Step(db1, Ok(BookingMapper.ToDto(saved.(id := Some(id)))))
  }
}

=== FILE: client_model.dfy ===
/**
 * The ride and booking objects the browser pages receive, reduced to the
 * fields the dashboards read. Times are integers (milliseconds); a
 * departure the client cannot turn into a date is `None`, and every
 * comparison with it is false, as with an invalid JavaScript Date.
 */
module ClientModel {
  import opened Wrappers
  import opened Entities

  datatype ClientRide = ClientRide(id: Id, departureTime: Option<Time>, pricePerSeat: Option<int>)

  datatype ClientBooking = ClientBooking(status: Option<string>, numberOfSeats: int, ride: Option<ClientRide>)

  /** `new Date(t) > now`. */
  predicate DepartsAfter(t: Option<Time>, now: Time) {
    t.Some? && t.value > now
  }

  /** `new Date(t) <= now`. */
  predicate DepartedBy(t: Option<Time>, now: Time) {
    t.Some? && t.value <= now
  }

  /** `pricePerSeat || 0`. */
  function Price(r: ClientRide): int {
    r.pricePerSeat.GetOr(0)
  }

  /** `status === s`, false for a missing status. */
  predicate StatusIs(b: ClientBooking, s: string) {
    b.status == Some(s)
  }
}

=== FILE: create_ride.dfy ===
/**
 * The ride-creation page: field validation, editing, and the request it
 * sends once the form is valid. Inputs hold text. The page reads seats and
 * price as numbers four ways (`Number` inside `isNaN` and `< 1`, then
 * `parseInt` and `parseFloat` for the request); `Read` gathers those
 * readings, and the page's decisions are stated over them.
 *
 * `parseInt` stops at an exponent, so the page as written can validate a
 * seat count and post another one (`PayloadAsWritten`,
 * `ExponentSeatsPostZero`). The submission here posts the validated number
 * with its fraction dropped (`Payload`).
 */
module CreateRide {
  import opened Wrappers
  import opened Text
  import opened Js

  /** The five inputs, as typed. */
  datatype Form = Form(origin: string, destination: string, departureTime: string,
                       availableSeats: string, pricePerSeat: string)

  /** The keys of the error map: one per input, and one for a failed request. */
  datatype Key = Origin | Destination | DepartureTime | AvailableSeats | PricePerSeat | Submit

  type Errors = map<Key, string>

  const EmptyForm: Form := Form("", "", "", "", "")

  const OriginRequired: string := "Origin is required"
  const DestinationRequired: string := "Destination is required"
  const DepartureRequired: string := "Departure date/time required"
  const SeatsInvalid: string := "Seats must be a positive number"
  const PriceInvalid: string := "Price must be a positive number"
  const SubmitFailed: string := "Failed to create ride. Please try again."
  const CreatedMessage: string := "Ride created! Redirecting to dashboard..."

  /** The numeric readings of the seats and price inputs. */
  datatype Reading = Reading(seats: JsVal, price: JsVal, seatsInt: JsVal, priceFloat: JsVal)

  /** `Number(seats)`, `Number(price)`, `parseInt(seats)`, `parseFloat(price)`. */
  function Read(form: Form): Reading {
    Reading(StringToNumber(form.availableSeats), StringToNumber(form.pricePerSeat),
            ParseInt(form.availableSeats), ParseFloat(form.pricePerSeat))
  }

  /** `!v || isNaN(v) || v < 1`, given `n`, the number `v` reads as. */
  predicate NotPositive(v: string, n: JsVal) {
    v == [] || n.NaN? || (n.Num? && n.n < 1.0)
  }

  /** `!v.trim()`: nothing but whitespace. */
  predicate Blank(v: string) {
    forall i :: 0 <= i < |v| ==> IsJsSpace(v[i])
  }

  /** The value of the form field each input key names. */
  function Value(form: Form, k: Key): string
    requires k != Submit
  {
    match k
    case Origin => form.origin
    case Destination => form.destination
    case DepartureTime => form.departureTime
    case AvailableSeats => form.availableSeats
    case PricePerSeat => form.pricePerSeat
  }

  /**
   * validate: one message per failing input. Origin and destination fail
   * when nothing but whitespace, the departure when empty, seats and price
   * when empty or not reading as a number of at least one.
   */
  function Validate(form: Form, r: Reading): (errs: Errors)
    ensures Submit !in errs
    ensures Origin in errs <==> Blank(form.origin)
    ensures Destination in errs <==> Blank(form.destination)
    ensures DepartureTime in errs <==> form.departureTime == []
    ensures AvailableSeats in errs <==> NotPositive(form.availableSeats, r.seats)
    ensures PricePerSeat in errs <==> NotPositive(form.pricePerSeat, r.price)
  {
    var e0: Errors := map[];
    var e1 := if Blank(form.origin) then e0[Origin := OriginRequired] else e0;
    var e2 := if Blank(form.destination) then e1[Destination := DestinationRequired] else e1;
    var e3 := if form.departureTime == [] then e2[DepartureTime := DepartureRequired] else e2;
    var e4 := if NotPositive(form.availableSeats, r.seats) then e3[AvailableSeats := SeatsInvalid] else e3;
    if NotPositive(form.pricePerSeat, r.price) then e4[PricePerSeat := PriceInvalid] else e4
  }

  /** validate() answers true: the error map it builds is empty. */
  predicate Valid(form: Form) {
    Validate(form, Read(form)) == map[]
  }

  /** The text checks: origin and destination fail when blank after trimming, the departure when empty. */
  lemma ValidateText(form: Form, r: Reading)
    ensures Submit !in Validate(form, r)
    ensures Origin in Validate(form, r) <==> Trim(form.origin) == []
    ensures Destination in Validate(form, r) <==> Trim(form.destination) == []
    ensures DepartureTime in Validate(form, r) <==> form.departureTime == []
  {
    TrimEmptyIffBlank(form.origin);
    TrimEmptyIffBlank(form.destination);
  }

  /** handleChange: the field takes the new text and its error is blanked; every other error stays. */
  function HandleChange(form: Form, errors: Errors, k: Key, value: string): (r: (Form, Errors))
    requires k != Submit
    ensures Value(r.0, k) == value
    ensures forall k' :: k' != Submit && k' != k ==> Value(r.0, k') == Value(form, k')
    ensures k in r.1 && r.1[k] == ""
    ensures r.1.Keys == errors.Keys + {k}
    ensures forall k' :: k' in errors && k' != k ==> r.1[k'] == errors[k']
  {
    var f := match k
      case Origin => form.(origin := value)
      case Destination => form.(destination := value)
      case DepartureTime => form.(departureTime := value)
      case AvailableSeats => form.(availableSeats := value)
      case PricePerSeat => form.(pricePerSeat := value);
    (f, errors[k := ""])
  }

  /** The request body. */
  datatype RideData = RideData(origin: string, destination: string, departureTime: string,
                               availableSeats: JsVal, pricePerSeat: JsVal)

  /** What a submission does. */
  datatype SubmitOutcome =
    | Invalid(errors: Errors)
    | Created(driverId: JsVal, body: RideData, form: Form, message: string)
    | Failed(driverId: JsVal, body: RideData, errors: Errors)

  /** The request body as the page builds it: trimmed texts, `parseInt` of the seats and `parseFloat` of the price. */
  function PayloadAsWritten(form: Form, r: Reading): RideData {
    RideData(Trim(form.origin), Trim(form.destination), form.departureTime, r.seatsInt, r.priceFloat)
  }

  /** The request body with the seats posted as the validated number, its fraction dropped (`Math.trunc(Number(seats))`). */
  function Payload(form: Form, r: Reading): RideData {
    RideData(Trim(form.origin), Trim(form.destination), form.departureTime, Trunc(r.seats), r.priceFloat)
  }

  /** `err.response?.data?.message || default`: the server's message when it sent a non-empty one. */
  function FailureMessage(m: Option<string>): (msg: string)
    ensures m.Some? && m.value != "" ==> msg == m.value
    ensures m.None? || m.value == "" ==> msg == SubmitFailed
  {
    if m.Some? && m.value != "" then m.value else SubmitFailed
  }

  /**
   * handleSubmit: an invalid form posts nothing. A valid one posts the
   * payload for the user's id; `serverError` is `None` when the request
   * succeeds, else the message the server sent (if any), shown as the
   * only error. Success clears the form.
   */
  function HandleSubmit(form: Form, r: Reading, driverId: JsVal, serverError: Option<Option<string>>): (o: SubmitOutcome)
    ensures o.Invalid? <==> Validate(form, r) != map[]
    ensures o.Invalid? ==> o.errors == Validate(form, r)
    ensures o.Created? <==> Validate(form, r) == map[] && serverError.None?
    ensures o.Created? ==> o.body == Payload(form, r) && o.form == EmptyForm && o.driverId == driverId
    ensures o.Failed? ==> o.body == Payload(form, r) && o.errors == map[Submit := FailureMessage(serverError.value)]
  {
    var errs := Validate(form, r);
    if errs != map[] then Invalid(errs)
    else
      var body := Payload(form, r);
      match serverError
      case None => Created(driverId, body, EmptyForm, CreatedMessage)
      case Some(m) => Failed(driverId, body, map[Submit := FailureMessage(m)])
  }

  // ---- properties ----

  /** A valid form has a non-blank origin and destination and a departure. */
  lemma ValidPayloadTexts(form: Form, r: Reading)
    requires Validate(form, r) == map[]
    ensures Payload(form, r).origin != [] && Payload(form, r).destination != [] && Payload(form, r).departureTime != []
  {
    ValidateText(form, r);
  }

  /**
   * A form whose seats and price pass validation (as every valid form's
   * do) sends seats and price of at least one: the seats are the whole
   * part of the validated number, and `parseFloat` reads the price exactly
   * as `Number` does.
   */
  lemma ValidPayloadPositive(form: Form)
    requires !NotPositive(form.availableSeats, StringToNumber(form.availableSeats))
    requires !NotPositive(form.pricePerSeat, StringToNumber(form.pricePerSeat))
    ensures var d := Payload(form, Read(form));
      && d.availableSeats.Num? && d.availableSeats.n >= 1.0
      && StringToNumber(form.availableSeats).Num? && d.availableSeats.n <= StringToNumber(form.availableSeats).n
      && d.pricePerSeat == StringToNumber(form.pricePerSeat)
      && d.pricePerSeat.Num? && d.pricePerSeat.n >= 1.0
  {
    SeatsAtLeastOne(form.availableSeats);
    PriceAtLeastOne(form.pricePerSeat);
  }

  /** Seats that pass validation truncate to a whole number between 1 and the validated number. */
  lemma SeatsAtLeastOne(v: string)
    requires !NotPositive(v, StringToNumber(v))
    ensures Trunc(StringToNumber(v)).Num? && StringToNumber(v).Num?
    ensures 1.0 <= Trunc(StringToNumber(v)).n <= StringToNumber(v).n
  {
    var x := StringToNumber(v).n;
    assert TruncInt(x) >= 1;
  }

  /** A price that passes validation is read by `parseFloat` as `Number` reads it. */
  lemma PriceAtLeastOne(v: string)
    requires !NotPositive(v, StringToNumber(v))
    ensures ParseFloat(v) == StringToNumber(v) && ParseFloat(v).Num? && ParseFloat(v).n >= 1.0
  {
    ParseFloatAgrees(v);
  }

  /** Without an exponent, the page's `parseInt` posts exactly the whole part of the validated seats. */
  lemma SeatsWithoutExponent(form: Form)
    requires !NotPositive(form.availableSeats, StringToNumber(form.availableSeats))
    requires NoExponentMarker(form.availableSeats)
    ensures PayloadAsWritten(form, Read(form)) == Payload(form, Read(form))
  {
    ParseIntTruncates(form.availableSeats);
  }

  /** The seats "0.5e1" pass validation as 5, and the page posts 0 of them. */
  lemma ExponentSeatsPostZero(form: Form)
    requires form.availableSeats == "0.5e1"
    ensures AvailableSeats !in Validate(form, Read(form))
    ensures PayloadAsWritten(form, Read(form)).availableSeats == Num(0.0)
    ensures Payload(form, Read(form)).availableSeats == Num(5.0)
  {
    ExponentSplitsReadings();
  }

  /** The sent origin and destination are already trimmed. */
  lemma PayloadTrimmed(form: Form, r: Reading)
    ensures Trim(Payload(form, r).origin) == Payload(form, r).origin
    ensures Trim(Payload(form, r).destination) == Payload(form, r).destination
  {
    TrimIdempotent(form.origin);
    TrimIdempotent(form.destination);
  }

  /** An origin of spaces alone is refused, though it is not empty. */
  lemma BlankOriginRefused(form: Form, r: Reading)
    requires form.origin == " "
    ensures Origin in Validate(form, r)
  {
    assert IsJsSpace(form.origin[0]);
  }

  /** A price of 0 is refused. */
  lemma ZeroPriceRefused(form: Form)
    requires form.pricePerSeat == "0"
    ensures PricePerSeat in Validate(form, Read(form)) && !Valid(form)
  {
    ZeroReadsAsZero();
  }
}

=== FILE: driver_dashboard.dfy ===
/**
 * The driver's dashboard: the ride list it normalises, the bookings it
 * fetches per ride, and the four statistics it shows.
 */
module DriverDashboard {
  import opened Wrappers
  import opened Entities
  import opened Js
  import opened ClientModel

  /** rideId -> bookings, as fetched. */
  type BookingsMap = map<Id, seq<ClientBooking>>

  datatype DriverStats = DriverStats(totalRides: nat, activeRides: nat, totalPassengers: nat, totalEarnings: int)

  /** `bookingsData[id] || []`. */
  function BookingsFor(m: BookingsMap, id: Id): seq<ClientBooking> {
    if id in m then m[id] else []
  }

  /** The bookings the dashboard treats as seat-holding: status exactly `CONFIRMED` or `ACCEPTED`. */
  predicate Held(b: ClientBooking) {
    StatusIs(b, CONFIRMED) || StatusIs(b, ACCEPTED)
  }

  // ---- reference definitions, each folding from the last element ----

  /** The positions of the rides departing after `now`. */
  function ActiveAt(rides: seq<ClientRide>, now: Time): set<int> {
    set i | 0 <= i < |rides| && DepartsAfter(rides[i].departureTime, now)
  }

  /** The positions of the bookings holding seats. */
  function HeldAt(bs: seq<ClientBooking>): set<int> {
    set i | 0 <= i < |bs| && Held(bs[i])
  }

  /** The positions of the PENDING bookings. */
  function PendingAt(bs: seq<ClientBooking>): set<int> {
    set i | 0 <= i < |bs| && StatusIs(bs[i], PENDING)
  }

  /** A position set grows by one exactly when the last element is selected. */
  lemma GrowsByLast(before: set<int>, after: set<int>, last: int, selected: bool)
    requires last !in before
    requires after == before + (if selected then {last} else {})
    ensures |after| == |before| + (if selected then 1 else 0)
  {
  }

  function ActiveCount(rides: seq<ClientRide>, now: Time): (n: nat)
    ensures n == |ActiveAt(rides, now)|
    ensures n <= |rides|
  {
    if rides == [] then 0
    else
      var init, last := rides[..|rides| - 1], |rides| - 1;
      assert ActiveAt(rides, now) == ActiveAt(init, now) + (if DepartsAfter(rides[last].departureTime, now) then {last} else {});
      GrowsByLast(ActiveAt(init, now), ActiveAt(rides, now), last, DepartsAfter(rides[last].departureTime, now));
      ActiveCount(init, now) + (if DepartsAfter(rides[last].departureTime, now) then 1 else 0)
  }

  function HeldCount(bs: seq<ClientBooking>): (n: nat)
    ensures n == |HeldAt(bs)|
    ensures n <= |bs|
  {
    if bs == [] then 0
    else
      var init, last := bs[..|bs| - 1], |bs| - 1;
      assert HeldAt(bs) == HeldAt(init) + (if Held(bs[last]) then {last} else {});
      GrowsByLast(HeldAt(init), HeldAt(bs), last, Held(bs[last]));
      HeldCount(init) + (if Held(bs[last]) then 1 else 0)
  }

  function BookedSeats(bs: seq<ClientBooking>): int {
    if bs == [] then 0 else BookedSeats(bs[..|bs| - 1]) + (if Held(bs[|bs| - 1]) then bs[|bs| - 1].numberOfSeats else 0)
  }

  function PendingCount(bs: seq<ClientBooking>): (n: nat)
    ensures n == |PendingAt(bs)|
    ensures n <= |bs|
  {
    if bs == [] then 0
    else
      var init, last := bs[..|bs| - 1], |bs| - 1;
      assert PendingAt(bs) == PendingAt(init) + (if StatusIs(bs[last], PENDING) then {last} else {});
      GrowsByLast(PendingAt(init), PendingAt(bs), last, StatusIs(bs[last], PENDING));
      PendingCount(init) + (if StatusIs(bs[last], PENDING) then 1 else 0)
  }

  function Passengers(rides: seq<ClientRide>, m: BookingsMap): nat {
    if rides == [] then 0 else Passengers(rides[..|rides| - 1], m) + HeldCount(BookingsFor(m, rides[|rides| - 1].id))
  }

  function SeatsSold(rides: seq<ClientRide>, m: BookingsMap): int {
    if rides == [] then 0 else SeatsSold(rides[..|rides| - 1], m) + BookedSeats(BookingsFor(m, rides[|rides| - 1].id))
  }

  /** One ride's earnings: its price, 0 when missing, times its booked seats. */
  function Fare(r: ClientRide, m: BookingsMap): int {
    Price(r) * BookedSeats(BookingsFor(m, r.id))
  }

  function Earnings(rides: seq<ClientRide>, m: BookingsMap): int {
    if rides == [] then 0 else Earnings(rides[..|rides| - 1], m) + Fare(rides[|rides| - 1], m)
  }

  /** The seats and the count of held bookings in one list, as the page's filter and reduce compute them. */
  method RideTotals(bs: seq<ClientBooking>) returns (held: nat, seats: int)
    ensures held == HeldCount(bs) && seats == BookedSeats(bs)
  {
    held, seats := 0, 0;
    var j := 0;
    while j < |bs|
      invariant 0 <= j <= |bs|
      invariant held == HeldCount(bs[..j]) && seats == BookedSeats(bs[..j])
    {
      assert bs[..j + 1][..j] == bs[..j];
      if Held(bs[j]) {
        held, seats := held + 1, seats + bs[j].numberOfSeats;
      }
      j := j + 1;
    }
    assert bs[..|bs|] == bs;
  }

  /** Each statistic of one more ride adds that ride's share. */
  lemma StatsStep(rides: seq<ClientRide>, m: BookingsMap, now: Time, i: int)
    requires 0 <= i < |rides|
    ensures ActiveCount(rides[..i + 1], now) == ActiveCount(rides[..i], now) + (if DepartsAfter(rides[i].departureTime, now) then 1 else 0)
    ensures Passengers(rides[..i + 1], m) == Passengers(rides[..i], m) + HeldCount(BookingsFor(m, rides[i].id))
  {
    assert rides[..i + 1][..i] == rides[..i] && rides[..i + 1][i] == rides[i];
  }

  /** Adding one ride's price times its booked seats extends the earnings by that ride. */
  lemma EarningsStep(rides: seq<ClientRide>, m: BookingsMap, i: int, earnings: int, seats: int)
    requires 0 <= i < |rides|
    requires earnings == Earnings(rides[..i], m) && seats == BookedSeats(BookingsFor(m, rides[i].id))
    ensures earnings + Price(rides[i]) * seats == Earnings(rides[..i + 1], m)
  {
    assert rides[..i + 1][..i] == rides[..i] && rides[..i + 1][i] == rides[i];
  }

  /**
   * calculateStats: the ride count, the rides departing after `now`, the
   * held bookings (not seats) over all rides, and the price of each ride
   * times its booked seats, a missing price counting as 0.
   */
  method CalculateStats(rides: seq<ClientRide>, m: BookingsMap, now: Time) returns (s: DriverStats)
    ensures s.totalRides == |rides|
    ensures s.activeRides == ActiveCount(rides, now) && s.activeRides <= s.totalRides
    ensures s.totalPassengers == Passengers(rides, m)
    ensures s.totalEarnings == Earnings(rides, m)
  {
    var active, passengers, earnings := 0, 0, 0;
    var i := 0;
    while i < |rides|
      invariant 0 <= i <= |rides|
      invariant active == ActiveCount(rides[..i], now)
      invariant passengers == Passengers(rides[..i], m)
      invariant earnings == Earnings(rides[..i], m)
    {
      var r := rides[i];
      StatsStep(rides, m, now, i);
      if DepartsAfter(r.departureTime, now) {
        active := active + 1;
      }
      var held, seats := RideTotals(BookingsFor(m, r.id));
      passengers := passengers + held;
      EarningsStep(rides, m, i, earnings, seats);
      earnings := earnings + Price(r) * seats;
      i := i + 1;
    }
    assert rides[..|rides|] == rides;
    s := DriverStats(|rides|, active, passengers, earnings);
  }

  /** getPendingCount: the PENDING bookings of a ride, 0 for a ride with no entry. */
  function GetPendingCount(m: BookingsMap, rideId: Id): (n: nat)
    ensures rideId !in m ==> n == 0
    ensures n == |PendingAt(BookingsFor(m, rideId))|
    ensures n <= |BookingsFor(m, rideId)|
  {
    PendingCount(BookingsFor(m, rideId))
  }

  /**
   * The ride list: `data.content` when present, else the data itself when
   * it is an array, else empty. Reading `content` of a null body throws,
   * which the page reports as a load failure.
   */
  /** The message the page shows when loading fails. */
  const LoadFailed := "Failed to load dashboard data."

  function NormaliseRides(data: Payload<ClientRide>): (r: Result<seq<ClientRide>, string>)
    ensures r.Err? <==> data.NullPayload?
    ensures data.ArrayPayload? ==> r == Ok(data.items)
    ensures data.PagePayload? ==> r == Ok(data.content.GetOr([]))
  {
    match data
    case NullPayload => Err(LoadFailed)
    case PagePayload(content) => Ok(if content.Some? then content.value else [])
    case ArrayPayload(items) => Ok(items)
  }

  function RideIds(rides: seq<ClientRide>): set<Id> {
    set r | r in rides :: r.id
  }

  /**
   * The bookings map built from one fetch per ride; a fetch that fails
   * (`None`, also a null body) gives that ride an empty list.
   */
  function BuildBookingsMap(rides: seq<ClientRide>, fetch: Id -> Option<seq<ClientBooking>>): (m: BookingsMap)
    ensures m.Keys == RideIds(rides)
    ensures forall id :: id in m ==> m[id] == (if fetch(id).Some? then fetch(id).value else [])
  {
    map id | id in RideIds(rides) :: fetch(id).GetOr([])
  }

  /** The dashboard after loading: the rides, their bookings and the statistics. */
  datatype DriverView = DriverView(rides: seq<ClientRide>, bookings: BookingsMap, stats: DriverStats)

  /** The page's state: what it shows and its error message. */
  datatype DriverPage = DriverPage(view: DriverView, error: string)

  /**
   * fetchRides: without a driver id nothing happens. A rejected rides
   * request (`Err`) or a null body ends in the catch, which sets only the
   * error message. Otherwise the rides, their bookings and the statistics
   * replace the shown ones and the error message is kept.
   */
  method FetchRides(page: DriverPage, driverId: JsVal, response: Result<Payload<ClientRide>, string>,
                    fetch: Id -> Option<seq<ClientBooking>>, now: Time)
    returns (p: DriverPage)
    ensures !Truthy(driverId) ==> p == page
    ensures Truthy(driverId) && (response.Err? || response.value.NullPayload?) ==> p == page.(error := LoadFailed)
    ensures Truthy(driverId) && response.Ok? && !response.value.NullPayload? ==>
      && p.error == page.error
      && p.view.rides == NormaliseRides(response.value).value
      && p.view.bookings == BuildBookingsMap(p.view.rides, fetch)
      && p.view.stats.totalRides == |p.view.rides|
      && p.view.stats.activeRides == ActiveCount(p.view.rides, now)
      && p.view.stats.totalPassengers == Passengers(p.view.rides, p.view.bookings)
      && p.view.stats.totalEarnings == Earnings(p.view.rides, p.view.bookings)
  {
    if !Truthy(driverId) {
      return page;
    }
    if response.Err? {
      return page.(error := LoadFailed);
    }
    var rides := NormaliseRides(response.value);
    if rides.Err? {
      return page.(error := rides.error);
    }
    var m := BuildBookingsMap(rides.value, fetch);
    var stats := CalculateStats(rides.value, m, now);
    return page.(view := DriverView(rides.value, m, stats));
  }

  // ---- properties ----

  /** A failed fetch for one ride empties that ride's entry and no other. */
  lemma FailedFetchIsolated(rides: seq<ClientRide>, fetch: Id -> Option<seq<ClientBooking>>,
                            fetch': Id -> Option<seq<ClientBooking>>, bad: Id)
    requires fetch'(bad).None?
    requires forall id :: id != bad ==> fetch'(id) == fetch(id)
    ensures var m := BuildBookingsMap(rides, fetch);
      var m' := BuildBookingsMap(rides, fetch');
      && m'.Keys == m.Keys
      && (bad in m' ==> m'[bad] == [])
      && forall id :: id in m && id != bad ==> m'[id] == m[id]
  {
  }

  lemma {:induction false} HeldAtMostSeats(bs: seq<ClientBooking>)
    requires forall j :: 0 <= j < |bs| ==> bs[j].numberOfSeats >= 1
    ensures HeldCount(bs) <= BookedSeats(bs)
  {
    if bs != [] {
      HeldAtMostSeats(bs[..|bs| - 1]);
    }
  }

  /**
   * When every booking asks for at least one seat, the passenger count
   * never exceeds the seats sold: it counts bookings, not seats.
   */
  lemma {:induction false} PassengersAtMostSeats(rides: seq<ClientRide>, m: BookingsMap)
    requires forall id, j :: id in m && 0 <= j < |m[id]| ==> m[id][j].numberOfSeats >= 1
    ensures Passengers(rides, m) <= SeatsSold(rides, m)
  {
    if rides != [] {
      PassengersAtMostSeats(rides[..|rides| - 1], m);
      HeldAtMostSeats(BookingsFor(m, rides[|rides| - 1].id));
    }
  }

  /** A ride's bookings split into pending, held and the rest: pending plus held never exceeds the list. */
  lemma {:induction false} PendingAndHeldDisjoint(bs: seq<ClientBooking>)
    ensures PendingCount(bs) + HeldCount(bs) <= |bs|
  {
    if bs != [] {
      PendingAndHeldDisjoint(bs[..|bs| - 1]);
    }
  }

  /**
   * A booking whose status is `confirmed` in lower case holds seats for
   * the booking service, which compares ignoring case, but adds nothing
   * to the dashboard's passengers or booked seats, which compare exactly.
   */
  lemma LowerCaseConfirmedUncounted(bs: seq<ClientBooking>, b: ClientBooking)
    requires b.status == Some("confirmed")
    ensures IsConfirmed(b.status)
    ensures HeldCount(bs + [b]) == HeldCount(bs)
    ensures BookedSeats(bs + [b]) == BookedSeats(bs)
  {
    LowerCaseConfirmedHolds();
    assert !Held(b) by {
      assert "confirmed"[0] != CONFIRMED[0] && "confirmed"[0] != ACCEPTED[0];
    }
    UnheldAppend(bs, b);
  }

  /** Appending a booking the dashboard does not count changes neither total. */
  lemma UnheldAppend(bs: seq<ClientBooking>, b: ClientBooking)
    requires !Held(b)
    ensures HeldCount(bs + [b]) == HeldCount(bs)
    ensures BookedSeats(bs + [b]) == BookedSeats(bs)
  {
    assert (bs + [b])[..|bs|] == bs;
  }
}

=== FILE: entities.dfy ===
/**
 * The persistent entities of the backend (User, Ride, Booking, Notification)
 * and the DTOs its REST layer exchanges. A nullable Java `Long` or
 * reference is an `Option`; `LocalDateTime` is an integer count of ticks;
 * `pricePerSeat` is taken to be a whole number; the source's `double`
 * admits fractions, which are not modelled.
 */
module Entities {
  import opened Wrappers
  import opened Text

  type Id = nat
  type Time = int

  /** A booking status as stored: free text, possibly null. */
  type Status = Option<string>

  /**
   * A user. The role is the name of the user's role enum constant, which is
   * what `role.toString()` yields.
   */
  datatype User = User(
    id: Option<Id>, name: string, email: string, password: string,
    phone: string, role: string)

  /**
   * A ride. Its driver and passengers are references to user rows, held by
   * id: the `user_id` join column and the rows of the passenger join table.
   * `passengerIds` is `None` for a ride built in memory whose list was never
   * set; a ride loaded from the store always has a list. Its bookings are
   * found through the booking store by ride id.
   */
  datatype Ride = Ride(
    id: Option<Id>, origin: string, destination: string, departureTime: Time,
    availableSeats: int, pricePerSeat: int,
    driverId: Option<Id>, passengerIds: Option<seq<Id>>)

  /**
   * A booking. The ride and passenger it references are held by id (`None`
   * when there is no referenced entity or it has no id yet): a ride's seat
   * count changes over time and lives in the ride store.
   */
  datatype Booking = Booking(
    id: Option<Id>, rideId: Option<Id>, passengerId: Option<Id>,
    numberOfSeats: int, status: Status, bookingTime: Option<Time>)

  /** A notification addressed to a user (by id). */
  datatype Notification = Notification(
    id: Option<Id>, recipientId: Option<Id>, kind: string, message: string,
    readFlag: bool, createdAt: Option<Time>, rideId: Option<Id>, bookingId: Option<Id>)

  datatype UserDto = UserDto(
    id: Option<Id>, name: string, email: string, password: string,
    phone: string, role: string)

  datatype RideDto = RideDto(
    id: Option<Id>, origin: string, destination: string, departureTime: Time,
    availableSeats: int, pricePerSeat: int,
    driverId: Option<Id>, driverName: Option<string>, passengerIds: Option<seq<Id>>)

  datatype BookingDto = BookingDto(
    id: Option<Id>, rideId: Option<Id>, passengerId: Option<Id>,
    numberOfSeats: int, status: Status, bookingTime: Option<Time>)

  datatype NotificationDto = NotificationDto(
    id: Option<Id>, recipientId: Option<Id>, kind: string, message: string,
    readFlag: bool, createdAt: Option<Time>, rideId: Option<Id>, bookingId: Option<Id>)

  /** The status the booking service writes on creation. */
  const PENDING: string := "PENDING"
  const CONFIRMED: string := "CONFIRMED"
  const ACCEPTED: string := "ACCEPTED"
  const REJECTED: string := "REJECTED"
  const CANCELLED: string := "CANCELLED"

  /**
   * The booking service's test for a booking that holds seats:
   * `"CONFIRMED".equalsIgnoreCase(status) || "ACCEPTED".equalsIgnoreCase(status)`,
   * false for a null status. Stated on the folded status so that the folded
   * constants are computed once (see `IsConfirmedIgnoresCase`).
   */
  predicate IsConfirmed(status: Status) {
    status.Some? && (Fold(status.value) == "confirmed" || Fold(status.value) == "accepted")
  }

  /** Folding a text whose letters are all upper-case ASCII. */
  lemma FoldUpper(s: string, t: string)
    requires |s| == |t|
    requires forall i :: 0 <= i < |s| ==> 'A' <= s[i] <= 'Z' && t[i] == (s[i] as int + 32) as char
    ensures Fold(s) == t
  {
  }

  /** IsConfirmed is exactly the two case-insensitive comparisons. */
  lemma IsConfirmedIgnoresCase(status: Status)
    ensures IsConfirmed(status) <==>
      status.Some? && (EqualsIgnoreCase(CONFIRMED, status.value) || EqualsIgnoreCase(ACCEPTED, status.value))
  {
    FoldUpper(CONFIRMED, "confirmed");
    FoldUpper(ACCEPTED, "accepted");
    if status.Some? {
      EqualsIgnoreCaseFolds(CONFIRMED, status.value);
      EqualsIgnoreCaseFolds(ACCEPTED, status.value);
    }
  }

  lemma ConfirmedHoldsSeats()
    ensures IsConfirmed(Some(CONFIRMED))
  {
    FoldUpper(CONFIRMED, "confirmed");
  }

  /** A status that folds to a text starting with `c`, other than `c` and `a`, holds no seats. */
  lemma FoldStartsOtherwise(status: string, c: char)
    requires |status| > 0 && Fold(status)[0] == c && c != 'c' && c != 'a'
    ensures !IsConfirmed(Some(status))
  {
    assert "confirmed"[0] == 'c' && "accepted"[0] == 'a';
  }

  /** No spelling of REJECTED, in any letter case, holds seats. */
  lemma RejectedHoldsNone(status: string)
    requires EqualsIgnoreCase(REJECTED, status)
    ensures !IsConfirmed(Some(status))
  {
    EqualsIgnoreCaseFolds(REJECTED, status);
    FoldStartsOtherwise(status, 'r');
  }

  /** No spelling of CANCELLED, in any letter case, holds seats. */
  lemma CancelledHoldsNone(status: string)
    requires EqualsIgnoreCase(CANCELLED, status)
    ensures !IsConfirmed(Some(status))
  {
    EqualsIgnoreCaseFolds(CANCELLED, status);
    assert Fold(status)[1] == Fold(CANCELLED)[1] == 'a' && "confirmed"[1] == 'o';
  }

  /** A status spelt in lower case still holds seats. */
  lemma LowerCaseConfirmedHolds()
    ensures IsConfirmed(Some("confirmed"))
  {
    assert forall i :: 0 <= i < |"confirmed"| ==> Fold("confirmed")[i] == "confirmed"[i];
  }

  /**
   * Java folds the dotless i (U+0131) onto the letter i, so a status spelt
   * with it holds seats, and equals CONFIRMED ignoring case.
   */
  lemma DotlessIConfirmed()
    ensures IsConfirmed(Some("CONF\U{0131}RMED"))
    ensures EqualsIgnoreCase(CONFIRMED, "CONF\U{0131}RMED")
  {
    assert forall i :: 0 <= i < 9 ==> Fold("CONF\U{0131}RMED")[i] == "confirmed"[i];
    IsConfirmedIgnoresCase(Some("CONF\U{0131}RMED"));
  }

  /** The statuses the booking service writes: only CONFIRMED holds seats. */
  lemma WrittenStatuses()
    ensures IsConfirmed(Some(CONFIRMED))
    ensures !IsConfirmed(Some(PENDING)) && !IsConfirmed(Some(REJECTED)) && !IsConfirmed(Some(CANCELLED))
  {
    ConfirmedHoldsSeats();
    FoldStartsOtherwise(PENDING, 'p');
    RejectedHoldsNone(REJECTED);
    CancelledHoldsNone(CANCELLED);
  }
}

=== FILE: js.dfy ===
/**
 * The JavaScript values the client code inspects, with the language's
 * truthiness, `||`, `??`, and the string-to-number conversions `Number`,
 * `parseInt` and `parseFloat` on decimal literals.
 */
module Js {
  import opened Wrappers
  import opened Text

  /** A JavaScript value as the client reads it; objects and arrays are modelled where they occur. */
  datatype JsVal = Undefined | Null | Bool(b: bool) | Num(n: real) | NaN | Str(s: string)

  predicate Truthy(v: JsVal) {
    match v
    case Undefined => false
    case Null => false
    case Bool(b) => b
    case Num(n) => n != 0.0
    case NaN => false
    case Str(s) => s != []
  }

  /** `a || b`. */
  function Or(a: JsVal, b: JsVal): JsVal {
    if Truthy(a) then a else b
  }

  /** `a ?? b`: only null and undefined are replaced. */
  function Coalesce(a: JsVal, b: JsVal): JsVal {
    if a.Undefined? || a.Null? then b else a
  }

  /** A response body the client normalises: an array, an object that may carry a `content` array, or null. */
  datatype Payload<T> = ArrayPayload(items: seq<T>) | PagePayload(content: Option<seq<T>>) | NullPayload

  // ---- decimal literals ----

  predicate IsDigit(c: char) {
    '0' <= c <= '9'
  }

  predicate AllDigits(s: string) {
    forall i :: 0 <= i < |s| ==> IsDigit(s[i])
  }

  /** The value of a run of decimal digits. */
  function DigitsValue(ds: string): nat
    requires AllDigits(ds)
    decreases |ds|
  {
    if ds == [] then 0 else DigitsValue(ds[..|ds| - 1]) * 10 + (ds[|ds| - 1] as int - '0' as int)
  }

  function Pow10(k: nat): (p: nat)
    ensures p >= 1
  {
    if k == 0 then 1 else 10 * Pow10(k - 1)
  }

  /** k digits are worth less than 10^k. */
  lemma {:induction false} DigitsBelowPow10(ds: string)
    requires AllDigits(ds)
    ensures DigitsValue(ds) < Pow10(|ds|)
    decreases |ds|
  {
    if ds != [] {
      DigitsBelowPow10(ds[..|ds| - 1]);
    }
  }

  /** The length of the run of digits `s` starts with. */
  function LeadingDigits(s: string): (n: nat)
    ensures n <= |s|
    ensures forall i :: 0 <= i < n ==> IsDigit(s[i])
    ensures AllDigits(s[..n])
    ensures n == |s| || !IsDigit(s[n])
  {
    if s != [] && IsDigit(s[0]) then 1 + LeadingDigits(s[1..]) else 0
  }

  /** An optional leading sign: whether it is a minus, and the text after it. */
  function SplitSign(t: string): (r: (bool, string))
    ensures r.0 ==> t != [] && t[0] == '-'
    ensures |r.1| <= |t| && r.1 == t[|t| - |r.1|..]
  {
    if t != [] && t[0] == '-' then (true, t[1..])
    else if t != [] && t[0] == '+' then (false, t[1..])
    else (false, t)
  }

  /** The magnitude `x` with the sign applied. */
  function Signed(negative: bool, x: real): real {
    if negative then -x else x
  }

  /** The value of `digits.digits` with the fraction `k` digits long. */
  function DecimalValue(intDigits: string, fracDigits: string): (v: real)
    requires AllDigits(intDigits) && AllDigits(fracDigits)
    ensures v >= 0.0
  {
    DigitsValue(intDigits) as real + DigitsValue(fracDigits) as real / Pow10(|fracDigits|) as real
  }

  /**
   * The mantissa `[digits][.[digits]]` that `b` starts with: its integer
   * digits, its fraction digits and its length.
   */
  function Mantissa(b: string): (r: (string, string, nat))
    ensures AllDigits(r.0) && AllDigits(r.1) && r.2 <= |b|
    ensures r.0 == b[..LeadingDigits(b)]
    ensures r.2 == |r.0| || (r.2 == |r.0| + 1 + |r.1| && b[|r.0|] == '.')
  {
    var n := LeadingDigits(b);
    if n < |b| && b[n] == '.' then
      var m := LeadingDigits(b[n + 1..]);
      (b[..n], b[n + 1..][..m], n + 1 + m)
    else (b[..n], [], n)
  }

  /** `x` times ten to the power `e`, or divided by it when the exponent is `negative`. */
  function Scale(x: real, negative: bool, e: nat): (r: real)
    ensures x >= 0.0 ==> r >= 0.0
  {
    if negative then x / Pow10(e) as real else x * Pow10(e) as real
  }

  /** The exponent `e` or `E`, an optional sign and digits that `t` starts with: its sign, its value and its length. */
  function ExponentPrefix(t: string): (r: Option<(bool, nat, nat)>)
    ensures r.Some? ==> 2 <= r.value.2 <= |t| && (t[0] == 'e' || t[0] == 'E')
  {
    if t != [] && (t[0] == 'e' || t[0] == 'E') then
      var (negative, ds) := SplitSign(t[1..]);
      var d := LeadingDigits(ds);
      if d == 0 then None else Some((negative, DigitsValue(ds[..d]), |t| - |ds| + d))
    else None
  }

  /** `b` in full is a decimal literal: a mantissa holding a digit, then optionally an exponent. */
  function UnsignedDecimal(b: string): (r: Option<real>)
    ensures r.Some? ==> r.value >= 0.0
  {
    var (i, f, k) := Mantissa(b);
    if |i| + |f| == 0 then None
    else if k == |b| then Some(DecimalValue(i, f))
    else match ExponentPrefix(b[k..])
      case Some((negative, e, len)) => if k + len == |b| then Some(Scale(DecimalValue(i, f), negative, e)) else None
      case None => None
  }

  /** `Number(s)`: surrounding whitespace ignored, the empty string is 0, anything else must be a signed decimal literal. */
  function StringToNumber(s: string): JsVal {
    var t := Trim(s);
    if t == [] then Num(0.0)
    else
      var (negative, body) := SplitSign(t);
      match UnsignedDecimal(body)
      case None => NaN
      case Some(v) => Num(Signed(negative, v))
  }

  /** `Number(v)`. */
  function ToNumber(v: JsVal): JsVal {
    match v
    case Undefined => NaN
    case Null => Num(0.0)
    case Bool(b) => Num(if b then 1.0 else 0.0)
    case Num(_) => v
    case NaN => NaN
    case Str(s) => StringToNumber(s)
  }

  /** A real number with its fraction dropped toward zero. */
  function TruncInt(x: real): (k: int)
    ensures x >= 0.0 ==> k as real <= x < k as real + 1.0
    ensures x < 0.0 ==> k as real - 1.0 < x <= k as real
  {
    if x >= 0.0 then x.Floor else -((-x).Floor)
  }

  /** `Math.trunc(v)`: the number `v` reads as, with its fraction dropped toward zero. */
  function Trunc(v: JsVal): (r: JsVal)
    ensures r.Num? <==> ToNumber(v).Num?
    ensures r.Num? ==> r.n == TruncInt(ToNumber(v).n) as real
  {
    match ToNumber(v)
    case Num(x) => Num(TruncInt(x) as real)
    case _ => NaN
  }

  /** The number the longest run of leading digits of `body` spells, if any. */
  function IntPrefix(body: string): Option<real> {
    var n := LeadingDigits(body);
    if n == 0 then None else Some(DigitsValue(body[..n]) as real)
  }

  /** The number the longest decimal-literal prefix of `body` spells, if any; an exponent counts only with a digit. */
  function FloatPrefix(body: string): Option<real> {
    var (i, f, k) := Mantissa(body);
    if |i| + |f| == 0 then None
    else match ExponentPrefix(body[k..])
      case Some((negative, e, _)) => Some(Scale(DecimalValue(i, f), negative, e))
      case None => Some(DecimalValue(i, f))
  }

  /** `parseInt(s)`: leading whitespace skipped, an optional sign, then the longest run of digits. */
  function ParseInt(s: string): JsVal {
    var (negative, body) := SplitSign(TrimStart(s));
    match IntPrefix(body)
    case None => NaN
    case Some(x) => Num(Signed(negative, x))
  }

  /** `parseFloat(s)`: leading whitespace skipped, then the longest prefix that is a signed decimal literal. */
  function ParseFloat(s: string): JsVal {
    var (negative, body) := SplitSign(TrimStart(s));
    match FloatPrefix(body)
    case None => NaN
    case Some(x) => Num(Signed(negative, x))
  }

  /** No `e` or `E` anywhere in the text. */
  predicate NoExponentMarker(s: string) {
    forall i :: 0 <= i < |s| ==> s[i] != 'e' && s[i] != 'E'
  }

  /** `Number("0")` is 0. */
  lemma ZeroReadsAsZero()
    ensures StringToNumber("0") == Num(0.0)
  {
    ZeroTrimmed();
    ZeroLiteral();
  }

  lemma ZeroTrimmed()
    ensures Trim("0") == "0"
  {
    assert !IsJsSpace("0"[0]);
  }

  lemma ZeroLiteral()
    ensures SplitSign("0") == (false, "0") && UnsignedDecimal("0") == Some(0.0)
  {
    assert LeadingDigits("0") == 1;
    assert "0"[..1] == "0";
    assert DigitsValue("0") == 0;
    assert Mantissa("0") == ("0", [], 1);
  }

  lemma SpaceIsNotLiteral(c: char)
    requires IsJsSpace(c)
    ensures !IsDigit(c) && c != '.' && c != 'e' && c != 'E' && c != '-' && c != '+'
  {
  }

  /** A text's run of leading digits is unchanged by appending whitespace. */
  lemma LeadingDigitsPadded(a: string, b: string)
    requires |a| <= |b| && a == b[..|a|]
    requires forall i :: |a| <= i < |b| ==> IsJsSpace(b[i])
    ensures LeadingDigits(b) == LeadingDigits(a)
  {
    var n := LeadingDigits(a);
    if n == |a| && |a| < |b| {
      SpaceIsNotLiteral(b[|a|]);
    }
  }

  lemma FractionBelowOne(f: nat, p: nat)
    requires f < p
    ensures (f as real) / (p as real) < 1.0
  {
  }

  /** `b` is `a` followed by whitespace only. */
  predicate Padded(a: string, b: string) {
    && |a| <= |b| && a == b[..|a|]
    && forall i :: |a| <= i < |b| ==> IsJsSpace(b[i])
  }

  /** Dropping the first `k` characters of a text and of its padding keeps them padded. */
  lemma PaddedDrop(t: string, u: string, k: nat)
    requires Padded(t, u) && k <= |t|
    ensures Padded(t[k..], u[k..])
  {
    var a, b := t[k..], u[k..];
    assert a == b[..|a|];
    forall i | |a| <= i < |b|
      ensures IsJsSpace(b[i])
    {
      assert b[i] == u[i + k];
    }
  }

  /** Trailing whitespace does not disturb the sign split. */
  lemma SignPadded(t: string, u: string)
    requires t != [] && Padded(t, u)
    ensures SplitSign(u).0 == SplitSign(t).0
    ensures Padded(SplitSign(t).1, SplitSign(u).1)
  {
    assert u[0] == t[0];
    if t[0] == '-' || t[0] == '+' {
      PaddedDrop(t, u, 1);
    }
  }

  /** Trailing whitespace does not change the run of fraction digits after a point. */
  lemma FractionPadded(b: string, b': string, n: nat)
    requires Padded(b, b') && n < |b|
    ensures LeadingDigits(b'[n + 1..]) == LeadingDigits(b[n + 1..])
    ensures b'[n + 1..][..LeadingDigits(b[n + 1..])] == b[n + 1..][..LeadingDigits(b[n + 1..])]
  {
    PaddedDrop(b, b', n + 1);
    var a, a' := b[n + 1..], b'[n + 1..];
    LeadingDigitsPadded(a, a');
    var m := LeadingDigits(a);
    assert a'[..m] == a[..m];
  }

  /** Trailing whitespace does not change the mantissa a text starts with. */
  lemma MantissaPadded(b: string, b': string)
    requires Padded(b, b')
    ensures Mantissa(b') == Mantissa(b)
  {
    var n := LeadingDigits(b);
    LeadingDigitsPadded(b, b');
    assert b'[..n] == b[..n];
    if n < |b| {
      assert b'[n] == b[n];
      if b[n] == '.' {
        FractionPadded(b, b', n);
      }
    } else if n < |b'| {
      SpaceIsNotLiteral(b'[n]);
    }
  }

  /** Trailing whitespace does not change the sign or value of a signed run of digits. */
  lemma SignedDigitsPadded(a: string, b: string)
    requires Padded(a, b)
    ensures var (n, ds) := SplitSign(a); var (n', ds') := SplitSign(b);
      && (LeadingDigits(ds') == 0 <==> LeadingDigits(ds) == 0)
      && (LeadingDigits(ds) != 0 ==> n' == n && ds'[..LeadingDigits(ds')] == ds[..LeadingDigits(ds)])
  {
    if a == [] {
      if b != [] {
        SpaceIsNotLiteral(b[0]);
      }
    } else {
      SignPadded(a, b);
      var ds, ds' := SplitSign(a).1, SplitSign(b).1;
      LeadingDigitsPadded(ds, ds');
      var d := LeadingDigits(ds);
      assert ds'[..d] == ds[..d];
    }
  }

  /** Trailing whitespace does not change the sign or value of the exponent a text starts with. */
  lemma ExponentPadded(t: string, u: string)
    requires Padded(t, u)
    ensures ExponentPrefix(u).Some? <==> ExponentPrefix(t).Some?
    ensures ExponentPrefix(u).Some? ==> ExponentPrefix(u).value.0 == ExponentPrefix(t).value.0
    ensures ExponentPrefix(u).Some? ==> ExponentPrefix(u).value.1 == ExponentPrefix(t).value.1
  {
    if t == [] {
      if u != [] {
        SpaceIsNotLiteral(u[0]);
      }
    } else {
      assert u[0] == t[0];
      if t[0] == 'e' || t[0] == 'E' {
        PaddedDrop(t, u, 1);
        SignedDigitsPadded(t[1..], u[1..]);
      }
    }
  }

  /** A whole decimal literal followed by whitespace is read by `parseFloat` as `Number` reads the literal. */
  lemma DecimalPaddedFloat(b: string, b': string)
    requires Padded(b, b') && UnsignedDecimal(b).Some?
    ensures FloatPrefix(b') == UnsignedDecimal(b)
  {
    MantissaPadded(b, b');
    var k := Mantissa(b).2;
    PaddedDrop(b, b', k);
    ExponentPadded(b[k..], b'[k..]);
  }

  /** `parseFloat` reads every non-blank text that `Number` reads as a number as that same number. */
  lemma ParseFloatAgrees(s: string)
    requires Trim(s) != [] && StringToNumber(s).Num?
    ensures ParseFloat(s) == StringToNumber(s)
  {
    var u := TrimStart(s);
    var t := TrimEnd(u);
    SignPadded(t, u);
    DecimalPaddedFloat(SplitSign(t).1, SplitSign(u).1);
  }

  /** A fraction of k digits over 10^k lies in [0, 1). */
  lemma FractionPart(frac: string)
    requires AllDigits(frac)
    ensures 0.0 <= DigitsValue(frac) as real / Pow10(|frac|) as real < 1.0
  {
    DigitsBelowPow10(frac);
    FractionBelowOne(DigitsValue(frac), Pow10(|frac|));
  }

  /** A mantissa's integer digits are the integer part of its value. */
  lemma MantissaFloor(i: string, f: string)
    requires AllDigits(i) && AllDigits(f)
    ensures DigitsValue(i) as real <= DecimalValue(i, f) < DigitsValue(i) as real + 1.0
  {
    FractionPart(f);
  }

  /** Trimming and dropping the sign keep a text free of exponent markers. */
  lemma MarkerFreeBody(s: string)
    requires NoExponentMarker(s)
    ensures NoExponentMarker(SplitSign(Trim(s)).1)
  {
    var u := TrimStart(s);
    var t := TrimEnd(u);
    var body := SplitSign(t).1;
    forall k | 0 <= k < |body|
      ensures body[k] != 'e' && body[k] != 'E'
    {
      assert body[k] == t[|t| - |body| + k] == u[|t| - |body| + k] == s[|s| - |u| + |t| - |body| + k];
    }
  }

  /** Without an exponent marker, a literal is all mantissa. */
  lemma MantissaIsWhole(b: string)
    requires NoExponentMarker(b) && UnsignedDecimal(b).Some?
    ensures Mantissa(b).2 == |b| && |Mantissa(b).0| + |Mantissa(b).1| > 0
    ensures UnsignedDecimal(b) == Some(DecimalValue(Mantissa(b).0, Mantissa(b).1))
  {
    var k := Mantissa(b).2;
    if k < |b| {
      assert false;
    }
  }

  /** A real number has one integer part. */
  lemma IntegerPartUnique(a: int, b: int, x: real)
    requires a as real <= x < a as real + 1.0 && b as real <= x < b as real + 1.0
    ensures a == b
  {
  }

  /** A padded literal without an exponent, worth at least 1, starts with the digits of its integer part. */
  lemma IntPrefixPadded(b: string, b': string)
    requires Padded(b, b') && NoExponentMarker(b) && UnsignedDecimal(b).Some? && UnsignedDecimal(b).value >= 1.0
    ensures IntPrefix(b') == Some(TruncInt(UnsignedDecimal(b).value) as real)
  {
    MantissaIsWhole(b);
    MantissaPadded(b, b');
    var m := Mantissa(b);
    var i, f, w := m.0, m.1, UnsignedDecimal(b).value;
    assert w == DecimalValue(i, f);
    MantissaFloor(i, f);
    assert DigitsValue(i) > 0;
    assert i != [];
    IntegerPartUnique(TruncInt(w), DigitsValue(i), w);
    assert b'[..LeadingDigits(b')] == i;
  }

  /** A text `Number` reads as a positive number is, once trimmed, an unsigned literal worth that number. */
  lemma PositiveNumberBody(s: string)
    requires StringToNumber(s).Num? && StringToNumber(s).n > 0.0
    ensures Trim(s) != [] && !SplitSign(Trim(s)).0
    ensures UnsignedDecimal(SplitSign(Trim(s)).1) == Some(StringToNumber(s).n)
  {
    var (negative, body) := SplitSign(Trim(s));
    var w := UnsignedDecimal(body).value;
    assert StringToNumber(s) == Num(Signed(negative, w)) && w >= 0.0;
  }

  /**
   * For a text without an exponent that `Number` reads as at least 1,
   * `parseInt` reads exactly its integer part.
   */
  lemma ParseIntTruncates(s: string)
    requires NoExponentMarker(s) && StringToNumber(s).Num? && StringToNumber(s).n >= 1.0
    ensures ParseInt(s) == Trunc(StringToNumber(s))
  {
    var v := StringToNumber(s).n;
    PositiveNumberBody(s);
    var u := TrimStart(s);
    var t := TrimEnd(u);
    SignPadded(t, u);
    MarkerFreeBody(s);
    var body, body' := SplitSign(t).1, SplitSign(u).1;
    IntPrefixPadded(body, body');
    assert IntPrefix(body') == Some(TruncInt(v) as real) && !SplitSign(u).0;
    assert Trunc(Num(v)) == Num(TruncInt(v) as real);
  }

  /** The mantissa of "0.5e1" is "0.5", worth one half. */
  lemma PointFiveMantissa()
    ensures Mantissa("0.5e1") == ("0", "5", 3) && DecimalValue("0", "5") == 0.5
  {
    var s := "0.5e1";
    assert LeadingDigits(s) == 1 && s[..1] == "0" && s[1] == '.';
    assert s[2..] == "5e1" && LeadingDigits("5e1") == 1 && "5e1"[..1] == "5";
    SingleDigit('0');
    SingleDigit('5');
    assert Pow10(1) == 10;
  }

  /** A marker followed by digits only is an exponent as long as the text. */
  lemma UnsignedExponent(t: string)
    requires |t| >= 2 && (t[0] == 'e' || t[0] == 'E') && AllDigits(t[1..])
    ensures ExponentPrefix(t) == Some((false, DigitsValue(t[1..]), |t|))
  {
    var ds := t[1..];
    assert ds[0] != '-' && ds[0] != '+';
    assert SplitSign(ds) == (false, ds);
    assert LeadingDigits(ds) == |ds| && ds[..|ds|] == ds;
  }

  /** One digit is worth its own value. */
  lemma SingleDigit(c: char)
    requires IsDigit(c)
    ensures DigitsValue([c]) == c as int - '0' as int
  {
    assert [c][..0] == [];
  }

  /** The exponent "e1" is a positive power of one, two characters long. */
  lemma ExponentOne()
    ensures ExponentPrefix("e1") == Some((false, 1, 2))
  {
    var t := "e1";
    assert t[1..] == ['1'];
    UnsignedExponent(t);
    SingleDigit('1');
  }

  /** "0.5e1" as a whole, or as a prefix, is worth 5. */
  lemma PointFiveTimesTen()
    ensures UnsignedDecimal("0.5e1") == Some(5.0) && FloatPrefix("0.5e1") == Some(5.0)
  {
    var s := "0.5e1";
    PointFiveMantissa();
    ExponentOne();
    assert s[3..] == "e1";
    assert Scale(0.5, false, 1) == 5.0;
  }

  /** "0.5e1" has no surrounding whitespace and no sign. */
  lemma PointFiveBare()
    ensures TrimStart("0.5e1") == "0.5e1" && Trim("0.5e1") == "0.5e1" && SplitSign("0.5e1") == (false, "0.5e1")
  {
    var s := "0.5e1";
    assert !IsJsSpace(s[0]) && !IsJsSpace(s[|s| - 1]);
  }

  /** `parseInt` reads "0.5e1" as 0: its run of leading digits is "0". */
  lemma PointFiveIntegerPart()
    ensures ParseInt("0.5e1") == Num(0.0)
  {
    var s := "0.5e1";
    PointFiveBare();
    assert LeadingDigits(s) == 1 && s[..1] == ['0'];
    SingleDigit('0');
    assert IntPrefix(s) == Some(0.0);
  }

  /** "0.5e1": `Number` and `parseFloat` read 5, while `parseInt` stops at the point and reads 0. */
  lemma ExponentSplitsReadings()
    ensures StringToNumber("0.5e1") == Num(5.0) && ParseFloat("0.5e1") == Num(5.0)
    ensures Trunc(StringToNumber("0.5e1")) == Num(5.0)
    ensures ParseInt("0.5e1") == Num(0.0)
  {
    PointFiveBare();
    PointFiveTimesTen();
    PointFiveIntegerPart();
    assert TruncInt(5.0) == 5;
  }
}

=== FILE: jwt_filter.dfy ===
/**
 * The request filter that turns a `Bearer` header into an authenticated
 * principal. Token validation and the user lookup are parameters that
 * answer `None` where the source throws.
 */
module JwtFilter {
  import opened Wrappers
  import opened Text

  /** The claims a validated access token carries. */
  datatype Claims = Claims(subject: string, uid: Option<nat>, role: string)

  /** shouldNotFilter: the public paths. */
  predicate ShouldNotFilter(path: string) {
    StartsWith(path, "/auth/") || path == "/api/users/register" || StartsWith(path, "/actuator/")
  }

  const BearerPrefix: string := "Bearer "

  /** The token of an `Authorization` header: everything after the first seven characters of `Bearer `. */
  function BearerToken(header: Option<string>): (t: Option<string>)
    ensures t.Some? <==> header.Some? && StartsWith(header.value, BearerPrefix)
    ensures t.Some? ==> header.value == BearerPrefix + t.value
  {
    if header.Some? && StartsWith(header.value, BearerPrefix) then Some(header.value[7..]) else None
  }

  /** A header built as `"Bearer " + t` gives back exactly `t`. */
  lemma BearerRoundTrip(t: string)
    ensures BearerToken(Some(BearerPrefix + t)) == Some(t)
  {
    assert (BearerPrefix + t)[..|BearerPrefix|] == BearerPrefix;
    assert (BearerPrefix + t)[7..] == t;
  }

  /** The security context after the filter, and how many times the rest of the chain ran. */
  datatype Outcome<P> = Outcome(context: Option<P>, chainCalls: nat)

  /**
   * The filter: public paths and requests without a bearer token pass with
   * the context untouched; otherwise a token that validates, whose subject
   * loads a user, authenticates that user, and any failure clears the
   * context. The chain runs once either way.
   */
  function Filter<P>(path: string, header: Option<string>, context: Option<P>,
                     validate: string -> Option<Claims>, load: string -> Option<P>): (o: Outcome<P>)
    ensures o.chainCalls == 1
    ensures ShouldNotFilter(path) || BearerToken(header).None? ==> o.context == context
    ensures !ShouldNotFilter(path) && BearerToken(header).Some? ==>
      var c := validate(BearerToken(header).value);
      o.context == (if c.Some? then load(c.value.subject) else None)
  {
    if ShouldNotFilter(path) then Outcome(context, 1)
    else
      var token := BearerToken(header);
      if token.None? then Outcome(context, 1)
      else
        match validate(token.value)
        case None => Outcome(None, 1)
        case Some(claims) => Outcome(load(claims.subject), 1)
  }

  /** On a filtered path, a bearer token authenticates some principal only through a valid token whose subject loads. */
  lemma AuthenticatedOnlyByToken<P>(path: string, t: string, context: Option<P>,
                                    validate: string -> Option<Claims>, load: string -> Option<P>)
    requires !ShouldNotFilter(path)
    ensures var o := Filter(path, Some(BearerPrefix + t), context, validate, load);
      o.context.Some? <==> validate(t).Some? && load(validate(t).value.subject).Some?
  {
    BearerRoundTrip(t);
  }
}

=== FILE: lifecycle.dfy ===
/**
 * How the services meet in the shared store: a deleted ride takes its
 * bookings with it, a deleted id is never handed out again, a ride shows
 * its driver's current name, a user that rows still refer to cannot be
 * deleted, and the writes keep every foreign key resolvable.
 */
module Lifecycle {
  import opened Wrappers
  import opened Entities
  import opened Store
  import RideService
  import UserService
  import BookingService

  /**
   * A booking of a deleted ride is gone with it: once a new ride is created
   * (under a new id), accepting or cancelling the old booking fails with
   * "Booking not found".
   */
  lemma DeletedRideBookingNotFound(db: Db, rideId: Id, b: Id, dto: RideDto, driverId: Id)
    requires rideId in db.rides && driverId in db.users
    requires b in db.bookings && db.bookings[b].rideId == Some(rideId)
    ensures var s := RideService.CreateRide(RideService.DeleteRide(db, rideId).db, dto, driverId);
      && s.result.value.id != Some(rideId)
      && BookingService.AcceptBooking(s.db, b) == Step(s.db, Err(BookingService.BookingNotFound))
      && BookingService.CancelBooking(s.db, b) == Step(s.db, Err(BookingService.BookingNotFound))
  {
  }

  /** Renaming a driver renames them on every ride they drive. */
  lemma RenamedDriverShown(db: Db, k: Id, dto: UserDto)
    requires k in db.rides && db.rides[k].driverId.Some? && db.rides[k].driverId.value in db.users
    ensures var s := UserService.UpdateUser(db, db.rides[k].driverId.value, dto);
      var r := RideService.GetRideById(s.db, k);
      r.Ok? && r.value.driverName == Some(dto.name) && r.value.driverId == db.rides[k].driverId
  {
  }

  /** The driver of a ride cannot be deleted; the store is left as it was. */
  lemma DriverNotDeletable(db: Db, k: Id)
    requires k in db.rides && db.rides[k].driverId.Some? && db.rides[k].driverId.value in db.users
    ensures UserService.DeleteUser(db, db.rides[k].driverId.value) == Step(db, Err(IntegrityViolation))
  {
    assert RideRefersTo(db.rides[k], db.rides[k].driverId.value);
  }

  /** The passenger of a booking cannot be deleted; the store is left as it was. */
  lemma PassengerNotDeletable(db: Db, b: Id)
    requires b in db.bookings && db.bookings[b].passengerId.Some? && db.bookings[b].passengerId.value in db.users
    ensures UserService.DeleteUser(db, db.bookings[b].passengerId.value) == Step(db, Err(IntegrityViolation))
  {
  }

  /** Creating a ride keeps every foreign key resolvable. */
  lemma CreateRideKeepsConsistent(db: Db, dto: RideDto, driverId: Id)
    requires Consistent(db)
    ensures Consistent(RideService.CreateRide(db, dto, driverId).db)
  {
    var s := RideService.CreateRide(db, dto, driverId);
    if driverId in db.users {
      var k := s.result.value.id.value;
      forall j | j in s.db.rides
        ensures Resolves(s.db.users, s.db.rides[j].driverId)
        ensures forall u :: u in PassengerRows(s.db.rides[j]) ==> u in s.db.users
      {
        if j != k {
          assert s.db.rides[j] == db.rides[j];
        }
      }
      forall b | b in s.db.bookings
        ensures Resolves(s.db.rides, s.db.bookings[b].rideId)
      {
        assert Resolves(db.rides, db.bookings[b].rideId);
      }
    }
  }

  /** Creating a booking keeps every foreign key resolvable, whether or not the driver is notified. */
  lemma CreateBookingKeepsConsistent(db: Db, dto: BookingDto, now: Time)
    requires Consistent(db)
    ensures Consistent(BookingService.CreateBooking(db, dto, now).db)
  {
    var s := BookingService.CreateBooking(db, dto, now);
    if BookingService.CanBook(db, dto) {
      forall b | b in s.db.bookings
        ensures Resolves(s.db.rides, s.db.bookings[b].rideId) && Resolves(s.db.users, s.db.bookings[b].passengerId)
      {
        if b in db.bookings {
          assert s.db.bookings[b] == db.bookings[b];
        }
      }
      forall n | n in s.db.notifications
        ensures Resolves(s.db.users, s.db.notifications[n].recipientId)
      {
        if n in db.notifications {
          assert s.db.notifications[n] == db.notifications[n];
        } else {
          assert s.result.Ok?;
        }
      }
    }
  }
}

=== FILE: notification_mapper.dfy ===
/** Conversion between Notification and NotificationDto. */
module NotificationMapper {
  import opened Wrappers
  import opened Entities

  function ToDto(n: Notification): NotificationDto {
    NotificationDto(n.id, n.recipientId, n.kind, n.message, n.readFlag, n.createdAt, n.rideId, n.bookingId)
  }

  /** The recipient comes from the argument; the DTO's id and recipientId are ignored. */
  function ToEntity(d: NotificationDto, recipient: Option<User>): (n: Notification)
    ensures n.id.None?
  {
    Notification(
      None, if recipient.Some? then recipient.value.id else None,
      d.kind, d.message, d.readFlag, d.createdAt, d.rideId, d.bookingId)
  }

  /** Neither the DTO's id nor its recipientId reaches the entity. */
  lemma ToEntityIgnoresIds(d: NotificationDto, id: Option<Id>, recipientId: Option<Id>, u: Option<User>)
    ensures ToEntity(d, u) == ToEntity(d.(id := id, recipientId := recipientId), u)
  {
  }

  /** DTO to entity and back keeps the payload fields and reports the attached recipient. */
  lemma DtoRoundTrip(d: NotificationDto, u: User)
    ensures ToDto(ToEntity(d, Some(u))) == d.(id := None, recipientId := u.id)
  {
  }

  /** Entity to DTO and back gives the entity back, minus its id, when the recipient matches. */
  lemma EntityRoundTrip(n: Notification, u: User)
    requires n.recipientId == u.id
    ensures ToEntity(ToDto(n), Some(u)) == n.(id := None)
  {
  }
}

=== FILE: notification_service.dfy ===
/** The notification service: create, list, count unread, mark as read. */
module NotificationService {
  import opened Wrappers
  import opened Entities
  import opened Store
  import NotificationMapper

  /**
   * createNotification: looks the recipient up, saves the mapped entity as
   * a new row and returns it as a DTO.
   */
  function CreateNotification(db: Db, dto: NotificationDto): (s: Step<NotificationDto>)
    ensures s.db.(notifications := db.notifications) == db
    ensures dto.recipientId.None? ==> s == Step(db, Err(NullIdError))
    ensures dto.recipientId.Some? && dto.recipientId.value !in db.users ==>
      s == Step(db, Err(NotFound("Recipient not found")))
    ensures s.result.Ok? <==> dto.recipientId.Some? && dto.recipientId.value in db.users
    ensures s.result.Ok? ==>
      && s.result.value == dto.(id := s.result.value.id)
      && s.result.value.id.Some?
      && var k := s.result.value.id.value;
      && k !in db.notifications
      && k in s.db.notifications
      && s.db.notifications == db.notifications[k := s.db.notifications[k]]
      && s.db.notifications[k].recipientId == dto.recipientId
      && NotificationMapper.ToDto(s.db.notifications[k]) == s.result.value
  {
    if dto.recipientId.None? then Step(db, Err(NullIdError))
    else
      var recipient := FindUser(db, dto.recipientId.value);
      if recipient.None? then Step(db, Err(NotFound("Recipient not found")))
      else
        var n := NotificationMapper.ToEntity(dto, recipient);
        // No operation deletes a notification, so none of their ids is retired.
        var k := FreshKey(db.notifications, {});
        var saved := n.(id := Some(k));
        Step(db.(notifications := db.notifications[k := saved]), Ok(NotificationMapper.ToDto(saved)))
  }

  /** The ids of a user's unread notifications. */
  function UnreadIds(ns: map<Id, Notification>, u: Id): set<Id> {
    set k | k in ns && ns[k].recipientId == Some(u) && !ns[k].readFlag
  }

  /** getUnreadCount (countByRecipientIdAndReadFlagFalse). */
  function GetUnreadCount(db: Db, u: Id): nat {
    |UnreadIds(db.notifications, u)|
  }

  /** markAsRead: sets the read flag of one notification. */
  function MarkAsRead(db: Db, id: Id): (s: Step<()>)
    ensures s.db.users == db.users && s.db.rides == db.rides && s.db.bookings == db.bookings
    ensures id !in db.notifications ==> s == Step(db, Err(NotFound("Notification not found")))
    ensures id in db.notifications ==>
      && s.result.Ok?
      && s.db.notifications.Keys == db.notifications.Keys
      && s.db.notifications[id] == db.notifications[id].(readFlag := true)
      && forall k :: k in db.notifications && k != id ==> s.db.notifications[k] == db.notifications[k]
  {
    if id !in db.notifications then Step(db, Err(NotFound("Notification not found")))
    else
      var n := db.notifications[id];
      Step(db.(notifications := db.notifications[id := n.(readFlag := true)]), Ok(()))
  }

  /** markAllAsRead: sets the read flag of every notification addressed to `u`. */
  function MarkAllAsRead(db: Db, u: Id): (db': Db)
    ensures db'.users == db.users && db'.rides == db.rides && db'.bookings == db.bookings
    ensures db'.notifications.Keys == db.notifications.Keys
    ensures forall k :: k in db.notifications && db.notifications[k].recipientId == Some(u) ==>
      db'.notifications[k] == db.notifications[k].(readFlag := true)
    ensures forall k :: k in db.notifications && db.notifications[k].recipientId != Some(u) ==>
      db'.notifications[k] == db.notifications[k]
  {
    var ns := db.notifications;
    db.(notifications := map k | k in ns :: if ns[k].recipientId == Some(u) then ns[k].(readFlag := true) else ns[k])
  }

  /** After markAllAsRead(u), u has no unread notification. */
  lemma MarkAllClearsUnread(db: Db, u: Id)
    ensures GetUnreadCount(MarkAllAsRead(db, u), u) == 0
  {
    assert UnreadIds(MarkAllAsRead(db, u).notifications, u) == {};
  }

  /** markAllAsRead(u) leaves every other user's unread count as it was. */
  lemma MarkAllKeepsOthers(db: Db, u: Id, v: Id)
    requires u != v
    ensures GetUnreadCount(MarkAllAsRead(db, u), v) == GetUnreadCount(db, v)
  {
    assert UnreadIds(MarkAllAsRead(db, u).notifications, v) == UnreadIds(db.notifications, v);
  }

  /** markAsRead never raises an unread count, and lowers one by at most one. */
  lemma MarkAsReadCount(db: Db, id: Id, v: Id)
    ensures GetUnreadCount(MarkAsRead(db, id).db, v) <= GetUnreadCount(db, v)
    ensures GetUnreadCount(MarkAsRead(db, id).db, v) + 1 >= GetUnreadCount(db, v)
  {
    if id in db.notifications {
      var before := UnreadIds(db.notifications, v);
      var after := UnreadIds(MarkAsRead(db, id).db.notifications, v);
      assert after == before - {id};
    }
  }

  /** Marking the same notification twice is marking it once. */
  lemma MarkAsReadIdempotent(db: Db, id: Id)
    ensures MarkAsRead(MarkAsRead(db, id).db, id) == MarkAsRead(db, id)
  {
    if id in db.notifications {
      var once := MarkAsRead(db, id).db;
      assert once.notifications[id := once.notifications[id].(readFlag := true)] == once.notifications;
    }
  }

  /** Storing a new notification adds it to its recipient's unread ids when it is unread. */
  lemma UnreadAfterInsert(ns: map<Id, Notification>, k: Id, n: Notification, v: Id)
    requires k !in ns
    ensures UnreadIds(ns[k := n], v) ==
      UnreadIds(ns, v) + (if n.recipientId == Some(v) && !n.readFlag then {k} else {})
  {
  }

  /** A created notification adds one to its recipient's unread count exactly when it is unread. */
  lemma CreateNotificationCount(db: Db, dto: NotificationDto, v: Id)
    requires CreateNotification(db, dto).result.Ok?
    ensures GetUnreadCount(CreateNotification(db, dto).db, v) ==
      GetUnreadCount(db, v) + (if dto.recipientId == Some(v) && !dto.readFlag then 1 else 0)
  {
    var s := CreateNotification(db, dto);
    var k := s.result.value.id.value;
    var n := s.db.notifications[k];
    assert NotificationMapper.ToDto(n) == dto.(id := Some(k));
    UnreadAfterInsert(db.notifications, k, n, v);
  }

  // ---- getUserNotifications: the user's notifications, newest first ----

  /**
   * The order of findByRecipientIdOrderByCreatedAtDesc: `a` may come before
   * `b`. A null creation time sorts after every timestamp.
   */
  predicate NewerOrSame(a: Option<Time>, b: Option<Time>) {
    b.None? || (a.Some? && a.value >= b.value)
  }

  predicate NoDup<T(==)>(r: seq<T>) {
    forall i, j :: 0 <= i < j < |r| ==> r[i] != r[j]
  }

  /** Splitting a duplicate-free list into head and tail. */
  lemma NoDupTail<T>(r: seq<T>)
    requires NoDup(r) && r != []
    ensures NoDup(r[1..]) && r[0] !in r[1..]
  {
    forall i, j | 0 <= i < j < |r[1..]| ensures r[1..][i] != r[1..][j] {
      assert r[1..][i] == r[i + 1] && r[1..][j] == r[j + 1];
    }
    forall j | 0 <= j < |r[1..]| ensures r[1..][j] != r[0] {
      assert r[1..][j] == r[j + 1];
    }
  }

  predicate SortedDesc(ns: map<Id, Notification>, r: seq<Id>) {
    && (forall i :: 0 <= i < |r| ==> r[i] in ns)
    && forall i, j :: 0 <= i < j < |r| ==> NewerOrSame(ns[r[i]].createdAt, ns[r[j]].createdAt)
  }

  /** Prepending to a duplicate-free list an element it lacks keeps it duplicate-free. */
  lemma NoDupCons<T>(x: T, r: seq<T>)
    requires NoDup(r) && x !in r
    ensures NoDup([x] + r)
  {
    var r' := [x] + r;
    forall i, j | 0 <= i < j < |r'| ensures r'[i] != r'[j] {
      assert r'[j] == r[j - 1];
      if i > 0 {
        assert r'[i] == r[i - 1];
      }
    }
  }

  /** Prepending an entry at least as new as every entry of a newest-first list keeps it newest-first. */
  lemma SortedCons(ns: map<Id, Notification>, x: Id, r: seq<Id>)
    requires x in ns && SortedDesc(ns, r)
    requires forall y :: y in r ==> NewerOrSame(ns[x].createdAt, ns[y].createdAt)
    ensures SortedDesc(ns, [x] + r)
  {
    var r' := [x] + r;
    forall i | 0 <= i < |r'| ensures r'[i] in ns {
      if i > 0 {
        assert r'[i] == r[i - 1];
      }
    }
    forall i, j | 0 <= i < j < |r'| ensures NewerOrSame(ns[r'[i]].createdAt, ns[r'[j]].createdAt) {
      assert r'[j] == r[j - 1];
      if i > 0 {
        assert r'[i] == r[i - 1];
      }
    }
  }

  /** An entry at least as new as the head of a newest-first list is at least as new as all of it. */
  lemma NewerThanHead(ns: map<Id, Notification>, x: Id, r: seq<Id>)
    requires x in ns && SortedDesc(ns, r) && r != []
    requires NewerOrSame(ns[x].createdAt, ns[r[0]].createdAt)
    ensures forall y :: y in r ==> NewerOrSame(ns[x].createdAt, ns[y].createdAt)
  {
    forall y | y in r ensures NewerOrSame(ns[x].createdAt, ns[y].createdAt) {
      var j :| 0 <= j < |r| && r[j] == y;
      if j > 0 {
        assert NewerOrSame(ns[r[0]].createdAt, ns[r[j]].createdAt);
      }
    }
  }

  /** The head of a newest-first list is at least as new as everything after it. */
  lemma HeadNewest(ns: map<Id, Notification>, r: seq<Id>, rest: seq<Id>, k: Id)
    requires r != [] && SortedDesc(ns, r) && k in ns
    requires NewerOrSame(ns[r[0]].createdAt, ns[k].createdAt)
    requires forall x :: x in rest ==> x in r[1..] || x == k
    ensures forall x :: x in rest ==> NewerOrSame(ns[r[0]].createdAt, ns[x].createdAt)
  {
    forall x | x in rest
      ensures NewerOrSame(ns[r[0]].createdAt, ns[x].createdAt)
    {
      if x != k {
        var j :| 0 <= j < |r[1..]| && r[1..][j] == x;
        assert r[j + 1] == x;
      }
    }
  }

  /** Inserts `k` into a newest-first list of notification ids. */
  function Insert(ns: map<Id, Notification>, r: seq<Id>, k: Id): (r': seq<Id>)
    requires k in ns && SortedDesc(ns, r)
    ensures SortedDesc(ns, r')
    ensures |r'| == |r| + 1
    ensures forall x :: x in r' <==> x in r || x == k
    ensures NoDup(r) && k !in r ==> NoDup(r')
  {
    if r == [] then [k]
    else if NewerOrSame(ns[k].createdAt, ns[r[0]].createdAt) then
      NewerThanHead(ns, k, r);
      SortedCons(ns, k, r);
      assert NoDup(r) && k !in r ==> NoDup([k] + r) by {
        if NoDup(r) && k !in r {
          NoDupCons(k, r);
        }
      }
      [k] + r
    else
      var rest := Insert(ns, r[1..], k);
      assert r == [r[0]] + r[1..];
      assert NoDup(r) && k !in r ==> NoDup([r[0]] + rest) by {
        if NoDup(r) && k !in r {
          NoDupTail(r);
          NoDupCons(r[0], rest);
        }
      }
      HeadNewest(ns, r, rest, k);
      SortedCons(ns, r[0], rest);
      [r[0]] + rest
  }

  /** The ids of a user's notifications. */
  function UserIds(ns: map<Id, Notification>, u: Id): set<Id> {
    set k | k in ns && ns[k].recipientId == Some(u)
  }

  method UserNotificationIds(ns: map<Id, Notification>, u: Id) returns (r: seq<Id>)
    ensures NoDup(r) && SortedDesc(ns, r)
    ensures forall x :: x in r <==> x in UserIds(ns, u)
  {
    var remaining := UserIds(ns, u);
    r := [];
    while remaining != {}
      invariant remaining <= UserIds(ns, u)
      invariant forall x :: x in r <==> x in UserIds(ns, u) && x !in remaining
      invariant NoDup(r) && SortedDesc(ns, r)
      decreases |remaining|
    {
      var k :| k in remaining;
      r := Insert(ns, r, k);
      remaining := remaining - {k};
    }
  }

  /** The number of unread entries in a list of notifications. */
  function CountUnread(list: seq<NotificationDto>): nat {
    if list == [] then 0 else (if list[0].readFlag then 0 else 1) + CountUnread(list[1..])
  }

  /** The DTOs of the notifications with the given ids, in order. */
  function Dtos(ns: map<Id, Notification>, r: seq<Id>): (list: seq<NotificationDto>)
    requires forall i :: 0 <= i < |r| ==> r[i] in ns
    ensures |list| == |r|
    ensures forall i :: 0 <= i < |r| ==> list[i] == NotificationMapper.ToDto(ns[r[i]].(id := Some(r[i])))
  {
    if r == [] then [] else [NotificationMapper.ToDto(ns[r[0]].(id := Some(r[0])))] + Dtos(ns, r[1..])
  }

  /** The unread notifications among the ids of a list. */
  function UnreadAmong(ns: map<Id, Notification>, r: seq<Id>): set<Id> {
    set x | x in r && x in ns && !ns[x].readFlag
  }

  lemma UnreadAmongCons(ns: map<Id, Notification>, r: seq<Id>)
    requires r != [] && r[0] in ns
    ensures UnreadAmong(ns, r) == (if ns[r[0]].readFlag then {} else {r[0]}) + UnreadAmong(ns, r[1..])
  {
    assert forall x :: x in r <==> x == r[0] || x in r[1..];
  }

  /** Counting unread entries of a duplicate-free list counts the unread ids it holds. */
  lemma {:induction false} CountUnreadDistinct(ns: map<Id, Notification>, r: seq<Id>)
    requires NoDup(r) && forall i :: 0 <= i < |r| ==> r[i] in ns
    ensures CountUnread(Dtos(ns, r)) == |UnreadAmong(ns, r)|
  {
    if r != [] {
      NoDupTail(r);
      CountUnreadDistinct(ns, r[1..]);
      assert Dtos(ns, r)[1..] == Dtos(ns, r[1..]);
      UnreadAmongCons(ns, r);
      assert r[0] !in UnreadAmong(ns, r[1..]);
    }
  }

  /** The DTOs of a duplicate-free newest-first id list keep those ids, in that order. */
  lemma DtosOrdered(ns: map<Id, Notification>, r: seq<Id>)
    requires NoDup(r) && SortedDesc(ns, r)
    ensures var list := Dtos(ns, r);
      && (forall i :: 0 <= i < |list| ==> list[i].id == Some(r[i]) && list[i].createdAt == ns[r[i]].createdAt)
      && (forall i, j :: 0 <= i < j < |list| ==> list[i].id != list[j].id)
      && (forall i, j :: 0 <= i < j < |list| ==> NewerOrSame(list[i].createdAt, list[j].createdAt))
  {
  }

  /** The unread entries of the user's id list are the user's unread notifications. */
  lemma UnreadOfUser(ns: map<Id, Notification>, r: seq<Id>, u: Id)
    requires forall x :: x in r <==> x in UserIds(ns, u)
    ensures UnreadAmong(ns, r) == UnreadIds(ns, u)
  {
  }

  /**
   * getUserNotifications: exactly u's notifications, each once, newest
   * first; its unread entries number getUnreadCount(u).
   */
  method GetUserNotifications(db: Db, u: Id) returns (list: seq<NotificationDto>)
    ensures forall i :: 0 <= i < |list| ==>
      && list[i].id.Some? && list[i].id.value in db.notifications
      && list[i] == NotificationMapper.ToDto(db.notifications[list[i].id.value].(id := list[i].id))
      && list[i].recipientId == Some(u)
    ensures forall k :: k in db.notifications && db.notifications[k].recipientId == Some(u) ==>
      exists i :: 0 <= i < |list| && list[i].id == Some(k)
    ensures forall i, j :: 0 <= i < j < |list| ==> list[i].id != list[j].id
    ensures forall i, j :: 0 <= i < j < |list| ==> NewerOrSame(list[i].createdAt, list[j].createdAt)
    ensures CountUnread(list) == GetUnreadCount(db, u)
  {
    var ns := db.notifications;
    var r := UserNotificationIds(ns, u);
    list := Dtos(ns, r);
    DtosOrdered(ns, r);
    forall i | 0 <= i < |list|
      ensures list[i].recipientId == Some(u)
    {
      assert r[i] in r;
    }
    forall k | k in ns && ns[k].recipientId == Some(u)
      ensures exists i :: 0 <= i < |list| && list[i].id == Some(k)
    {
      assert k in UserIds(ns, u);
      var i :| 0 <= i < |r| && r[i] == k;
      assert list[i].id == Some(k);
    }
    CountUnreadDistinct(ns, r);
    UnreadOfUser(ns, r, u);
  }
}

=== FILE: passenger_dashboard.dfy ===
/**
 * The passenger's dashboard: the booking statistics and how the page
 * turns the rides and bookings endpoints' bodies into lists.
 */
module PassengerDashboard {
  import opened Wrappers
  import opened Entities
  import opened Js
  import opened ClientModel
  import DriverDashboard

  datatype PassengerStats = PassengerStats(totalBookings: nat, upcomingRides: nat, completedRides: nat, totalSpent: int)

  /**
   * `new Date(b.ride?.departureTime)`: `None` (an invalid date) when the
   * booking carries no ride or the ride's time is not a date. A null time
   * is the epoch (`new Date(null)`), which the ride carries as `Some(0)`.
   */
  function Departure(b: ClientBooking): Option<Time> {
    if b.ride.Some? then b.ride.value.departureTime else None
  }

  /** `(b.ride?.pricePerSeat || 0) * b.numberOfSeats`. */
  function Cost(b: ClientBooking): int {
    (if b.ride.Some? then Price(b.ride.value) else 0) * b.numberOfSeats
  }

  /** Departs after `now` and is neither CANCELLED nor REJECTED (a missing status is neither). */
  predicate Upcoming(b: ClientBooking, now: Time) {
    DepartsAfter(Departure(b), now) && !StatusIs(b, CANCELLED) && !StatusIs(b, REJECTED)
  }

  /** Not upcoming, departed by `now`, and CONFIRMED. */
  predicate Completed(b: ClientBooking, now: Time) {
    !Upcoming(b, now) && DepartedBy(Departure(b), now) && StatusIs(b, CONFIRMED)
  }

  // ---- reference definitions, each folding from the last element ----

  /** The positions of the upcoming bookings. */
  function UpcomingAt(bs: seq<ClientBooking>, now: Time): set<int> {
    set i | 0 <= i < |bs| && Upcoming(bs[i], now)
  }

  /** The positions of the completed bookings. */
  function CompletedAt(bs: seq<ClientBooking>, now: Time): set<int> {
    set i | 0 <= i < |bs| && Completed(bs[i], now)
  }

  function UpcomingCount(bs: seq<ClientBooking>, now: Time): (n: nat)
    ensures n == |UpcomingAt(bs, now)|
    ensures n <= |bs|
  {
    if bs == [] then 0
    else
      var init, last := bs[..|bs| - 1], |bs| - 1;
      assert UpcomingAt(bs, now) == UpcomingAt(init, now) + (if Upcoming(bs[last], now) then {last} else {});
      DriverDashboard.GrowsByLast(UpcomingAt(init, now), UpcomingAt(bs, now), last, Upcoming(bs[last], now));
      UpcomingCount(init, now) + (if Upcoming(bs[last], now) then 1 else 0)
  }

  function CompletedCount(bs: seq<ClientBooking>, now: Time): (n: nat)
    ensures n == |CompletedAt(bs, now)|
    ensures n <= |bs|
  {
    if bs == [] then 0
    else
      var init, last := bs[..|bs| - 1], |bs| - 1;
      assert CompletedAt(bs, now) == CompletedAt(init, now) + (if Completed(bs[last], now) then {last} else {});
      DriverDashboard.GrowsByLast(CompletedAt(init, now), CompletedAt(bs, now), last, Completed(bs[last], now));
      CompletedCount(init, now) + (if Completed(bs[last], now) then 1 else 0)
  }

  function Spent(bs: seq<ClientBooking>): int {
    if bs == [] then 0 else Spent(bs[..|bs| - 1]) + (if StatusIs(bs[|bs| - 1], CONFIRMED) then Cost(bs[|bs| - 1]) else 0)
  }

  /**
   * calculateStats: every booking counts once in the total; a CONFIRMED one
   * adds its cost; it is upcoming or completed, or neither.
   */
  method CalculateStats(bs: seq<ClientBooking>, now: Time) returns (s: PassengerStats)
    ensures s.totalBookings == |bs|
    ensures s.upcomingRides == UpcomingCount(bs, now)
    ensures s.completedRides == CompletedCount(bs, now)
    ensures s.totalSpent == Spent(bs)
  {
    var upcoming, completed, spent := 0, 0, 0;
    var i := 0;
    while i < |bs|
      invariant 0 <= i <= |bs|
      invariant upcoming == UpcomingCount(bs[..i], now)
      invariant completed == CompletedCount(bs[..i], now)
      invariant spent == Spent(bs[..i])
    {
      assert bs[..i + 1][..i] == bs[..i];
      var b := bs[i];
      var rideDate := Departure(b);
      if StatusIs(b, CONFIRMED) {
        spent := spent + Cost(b);
      }
      if DepartsAfter(rideDate, now) && !StatusIs(b, CANCELLED) && !StatusIs(b, REJECTED) {
        upcoming := upcoming + 1;
      } else if DepartedBy(rideDate, now) && StatusIs(b, CONFIRMED) {
        completed := completed + 1;
      }
      i := i + 1;
    }
    assert bs[..|bs|] == bs;
    s := PassengerStats(|bs|, upcoming, completed, spent);
  }

  /** No booking is both upcoming and completed, so the two together never exceed the total. */
  lemma {:induction false} UpcomingPlusCompleted(bs: seq<ClientBooking>, now: Time)
    ensures UpcomingCount(bs, now) + CompletedCount(bs, now) <= |bs|
  {
    if bs != [] {
      UpcomingPlusCompleted(bs[..|bs| - 1], now);
    }
  }

  /**
   * Bookings that carry no ride object (as the bookings endpoint's DTO,
   * which holds only a ride id) are never upcoming or completed and cost
   * nothing: the three statistics stay 0.
   */
  lemma {:induction false} RidelessBookingsCountNothing(bs: seq<ClientBooking>, now: Time)
    requires forall i :: 0 <= i < |bs| ==> bs[i].ride.None?
    ensures UpcomingCount(bs, now) == 0 && CompletedCount(bs, now) == 0 && Spent(bs) == 0
  {
    assert UpcomingAt(bs, now) == {} && CompletedAt(bs, now) == {};
    if bs != [] {
      RidelessBookingsCountNothing(bs[..|bs| - 1], now);
    }
  }

  /**
   * The amount spent over two lists is the sum of each: every confirmed
   * booking contributes its own cost, wherever it stands in the list.
   */
  lemma {:induction false} SpentSplits(a: seq<ClientBooking>, b: seq<ClientBooking>)
    ensures Spent(a + b) == Spent(a) + Spent(b)
  {
    if b != [] {
      var init := b[..|b| - 1];
      assert (a + b)[..|a + b| - 1] == a + init;
      SpentSplits(a, init);
    } else {
      assert a + b == a;
    }
  }

  /** A booking is completed exactly when it departed by `now` and is CONFIRMED: the two tests never overlap. */
  lemma CompletedIsDeparted(b: ClientBooking, now: Time)
    ensures Completed(b, now) <==> DepartedBy(Departure(b), now) && StatusIs(b, CONFIRMED)
  {
  }

  /** The bookings list: the body when it is an array, else empty (null included). */
  function NormaliseBookings(data: Payload<ClientBooking>): (bs: seq<ClientBooking>)
    ensures data.ArrayPayload? ==> bs == data.items
    ensures !data.ArrayPayload? ==> bs == []
  {
    if data.ArrayPayload? then data.items else []
  }

  /** The page's bookings list and its statistics. */
  datatype PassengerPage = PassengerPage(bookings: seq<ClientBooking>, stats: PassengerStats)

  /**
   * loadBookings: without a passenger id, or when the request is rejected
   * (`Err`, caught and only logged), the page is unchanged. Otherwise the
   * list and the statistics both come from the same normalised body.
   */
  method LoadBookings(page: PassengerPage, passengerId: JsVal, response: Result<Payload<ClientBooking>, string>, now: Time)
    returns (p: PassengerPage)
    ensures !Truthy(passengerId) || response.Err? ==> p == page
    ensures Truthy(passengerId) && response.Ok? ==>
      && p.bookings == NormaliseBookings(response.value)
      && p.stats.totalBookings == |p.bookings|
      && p.stats.upcomingRides == UpcomingCount(p.bookings, now)
      && p.stats.completedRides == CompletedCount(p.bookings, now)
      && p.stats.totalSpent == Spent(p.bookings)
      && p.stats.upcomingRides + p.stats.completedRides <= p.stats.totalBookings
    ensures Truthy(passengerId) && response.Ok? && !response.value.ArrayPayload? ==> p == PassengerPage([], PassengerStats(0, 0, 0, 0))
  {
    if !Truthy(passengerId) || response.Err? {
      return page;
    }
    var bs := NormaliseBookings(response.value);
    var stats := CalculateStats(bs, now);
    UpcomingPlusCompleted(bs, now);
    return PassengerPage(bs, stats);
  }

  /** The search form's fields. */
  datatype SearchParams = SearchParams(origin: string, destination: string, departureTime: string)

  /** The search endpoint is used iff some field is non-empty. */
  predicate HasSearch(p: SearchParams) {
    p.origin != "" || p.destination != "" || p.departureTime != ""
  }

  /** `Array.isArray(data) ? data : (data.content || [])`; reading `content` of null throws. */
  function RideList(data: Payload<ClientRide>): Result<seq<ClientRide>, string> {
    match data
    case ArrayPayload(items) => Ok(items)
    case PagePayload(content) => Ok(content.GetOr([]))
    case NullPayload => Err("TypeError")
  }

  /**
   * loadRides: the search body, or the listing body unwrapped by
   * `response.content || response`, normalised to a list. A failure leaves
   * the previous list (`Err`).
   */
  function LoadRides(p: SearchParams, searchBody: Payload<ClientRide>, allBody: Payload<ClientRide>):
    (r: Result<seq<ClientRide>, string>)
    ensures HasSearch(p) ==> (r.Err? <==> searchBody.NullPayload?)
    ensures !HasSearch(p) ==> (r.Err? <==> allBody.NullPayload?)
    ensures r.Ok? && HasSearch(p) && searchBody.ArrayPayload? ==> r.value == searchBody.items
    ensures r.Ok? && !HasSearch(p) && allBody.ArrayPayload? ==> r.value == allBody.items
  {
    if HasSearch(p) then RideList(searchBody)
    else
      match allBody
      case NullPayload => Err("TypeError")
      case PagePayload(Some(c)) => RideList(ArrayPayload(c))
      case _ => RideList(allBody)
  }

  /**
   * Both endpoints' bodies reach the same list: for any non-null body the
   * listing route's extra unwrapping changes nothing, and the driver's
   * dashboard normalises it the same way too.
   */
  lemma SourcesNormaliseAlike(p: SearchParams, q: SearchParams, body: Payload<ClientRide>, other: Payload<ClientRide>)
    requires HasSearch(p) && !HasSearch(q)
    requires !body.NullPayload?
    ensures LoadRides(p, body, other) == LoadRides(q, other, body)
    ensures LoadRides(p, body, other).Ok?
    ensures LoadRides(p, body, other) == DriverDashboard.NormaliseRides(body)
  {
  }
}

=== FILE: publish_ride.dfy ===
/**
 * The stand-alone publish page: required-field and user checks, and the
 * body it posts for the signed-in driver.
 */
module PublishRide {
  import opened Wrappers
  import opened Js
  import AuthContext
  import RideForm

  /** The inputs, as typed. */
  datatype Fields = Fields(origin: string, destination: string, departureTime: string,
                           availableSeats: string, pricePerSeat: string)

  const AllRequired: string := "All fields are required."
  const UserIdMissing: string := "User ID missing. Please re-login."

  /** The posted request: the driver's id and the body. */
  datatype Request = Request(driverId: JsVal, body: RideData)

  /** The body as this page builds it. */
  datatype RideData = RideData(origin: string, destination: string, departureTime: string,
                               availableSeats: JsVal, pricePerSeat: JsVal)

  /**
   * handleSubmit: refuses when a required field is empty (the price is
   * optional), then when the session user has no truthy id; otherwise
   * posts `Number(seats)` and `Number(price)`, or 0 without a price.
   */
  function HandleSubmit(f: Fields, user: Option<AuthContext.SessionUser>): (r: Result<Request, string>)
    ensures r == Err(AllRequired) <==> f.origin == "" || f.destination == "" || f.departureTime == "" || f.availableSeats == ""
    ensures r == Err(UserIdMissing) <==>
      && f.origin != "" && f.destination != "" && f.departureTime != "" && f.availableSeats != ""
      && (user.None? || !Truthy(user.value.id))
    ensures r.Ok? ==> user.Some? && r.value.driverId == user.value.id && Truthy(r.value.driverId)
    ensures r.Ok? ==>
      && r.value.body.origin == f.origin && r.value.body.destination == f.destination
      && r.value.body.departureTime == f.departureTime
    ensures r.Ok? ==> r.value.body.availableSeats == StringToNumber(f.availableSeats)
    ensures r.Ok? ==> r.value.body.pricePerSeat == if f.pricePerSeat == "" then Num(0.0) else StringToNumber(f.pricePerSeat)
  {
    if f.origin == "" || f.destination == "" || f.departureTime == "" || f.availableSeats == "" then Err(AllRequired)
    else if user.None? || !Truthy(user.value.id) then Err(UserIdMissing)
    else
      Ok(Request(user.value.id, RideData(f.origin, f.destination, f.departureTime, StringToNumber(f.availableSeats),
                                          if f.pricePerSeat != "" then StringToNumber(f.pricePerSeat) else Num(0.0))))
  }

  /** A submission that passes the page's checks posts the same body the shared ride form submits for the same texts. */
  lemma SameBodyAsRideForm(f: Fields, user: Option<AuthContext.SessionUser>)
    requires f.origin != "" && f.destination != "" && f.departureTime != "" && f.availableSeats != ""
    requires user.Some? && Truthy(user.value.id)
    ensures HandleSubmit(f, user).Ok?
    ensures var b := HandleSubmit(f, user).value.body;
      var s := RideForm.Submit(RideForm.FormState(Str(f.origin), Str(f.destination), Str(f.departureTime),
                                                  Str(f.availableSeats), Str(f.pricePerSeat)));
      s == RideForm.Body(Str(b.origin), Str(b.destination), Str(b.departureTime), b.availableSeats, b.pricePerSeat)
  {
  }

  /** A price left empty is sent as 0 and a required field left empty posts nothing, whatever the user. */
  lemma OptionalPriceOnly(f: Fields, user: AuthContext.SessionUser)
    requires f.origin != "" && f.destination != "" && f.departureTime != "" && f.availableSeats != ""
    requires Truthy(user.id) && f.pricePerSeat == ""
    ensures HandleSubmit(f, Some(user)).Ok? && HandleSubmit(f, Some(user)).value.body.pricePerSeat == Num(0.0)
    ensures HandleSubmit(f.(availableSeats := ""), Some(user)) == Err(AllRequired)
  {
  }
}

=== FILE: ride_form.dfy ===
/**
 * The shared ride form used to publish and to edit a ride: prefilling
 * from an existing ride, and the body it hands to its caller on submit.
 * Prefilled values keep whatever type the ride carried, so every field is
 * a JavaScript value.
 */
module RideForm {
  import opened Wrappers
  import opened Text
  import opened Js

  /** The ride the form is opened with, as received. */
  datatype InitialData = InitialData(origin: JsVal, destination: JsVal, departureTime: JsVal,
                                     availableSeats: JsVal, pricePerSeat: JsVal)

  /** The five inputs' state. */
  datatype FormState = FormState(origin: JsVal, destination: JsVal, departureTime: JsVal,
                                 availableSeats: JsVal, pricePerSeat: JsVal)

  const Blank: FormState := FormState(Str(""), Str(""), Str(""), Str(""), Str(""))

  /** The body the form submits. */
  datatype Body = Body(origin: JsVal, destination: JsVal, departureTime: JsVal,
                       availableSeats: JsVal, pricePerSeat: JsVal)

  /**
   * The prefill effect. Without initial data the state stays as it was.
   * Origin and destination fall back to "" when falsy; a truthy departure
   * loses its first `Z` (calling `replace` on anything but a string
   * throws); seats and price fall back to "" only when null or undefined.
   */
  function Prefill(state: FormState, init: Option<InitialData>): (r: Result<FormState, string>)
    ensures init.None? ==> r == Ok(state)
    ensures init.Some? ==> (r.Err? <==> Truthy(init.value.departureTime) && !init.value.departureTime.Str?)
    ensures r.Ok? && init.Some? ==>
      var d := init.value;
      && r.value.origin == (if Truthy(d.origin) then d.origin else Str(""))
      && r.value.destination == (if Truthy(d.destination) then d.destination else Str(""))
      && r.value.availableSeats == (if d.availableSeats.Undefined? || d.availableSeats.Null? then Str("") else d.availableSeats)
      && r.value.pricePerSeat == (if d.pricePerSeat.Undefined? || d.pricePerSeat.Null? then Str("") else d.pricePerSeat)
      && (Truthy(d.departureTime) ==> r.value.departureTime == Str(RemoveFirst(d.departureTime.s, 'Z')))
      && (!Truthy(d.departureTime) ==> r.value.departureTime == Str(""))
  {
    match init
    case None => Ok(state)
    case Some(d) =>
      if Truthy(d.departureTime) && !d.departureTime.Str? then Err("TypeError")
      else
        var departure := if Truthy(d.departureTime) then Str(RemoveFirst(d.departureTime.s, 'Z')) else Str("");
        Ok(FormState(Or(d.origin, Str("")), Or(d.destination, Str("")), departure,
                     Coalesce(d.availableSeats, Str("")), Coalesce(d.pricePerSeat, Str(""))))
  }

  /** submit: the texts as they are, `Number(seats)`, and `Number(price)` or 0 when the price is falsy. */
  function Submit(state: FormState): (b: Body)
    ensures b.origin == state.origin && b.destination == state.destination && b.departureTime == state.departureTime
    ensures b.availableSeats == ToNumber(state.availableSeats)
    ensures !Truthy(state.pricePerSeat) ==> b.pricePerSeat == Num(0.0)
    ensures Truthy(state.pricePerSeat) ==> b.pricePerSeat == ToNumber(state.pricePerSeat)
  {
    Body(state.origin, state.destination, state.departureTime, ToNumber(state.availableSeats),
         if Truthy(state.pricePerSeat) then ToNumber(state.pricePerSeat) else Num(0.0))
  }

  // ---- properties ----

  /**
   * Editing a ride without touching the form sends back what the ride
   * held: string texts, numeric seats and price (0 included), and the
   * departure without its trailing `Z`.
   */
  lemma EditRoundTrip(state: FormState, o: string, dst: string, t: string, seats: real, price: real)
    requires 'Z' !in t
    ensures var d := InitialData(Str(o), Str(dst), Str(t + "Z"), Num(seats), Num(price));
      && Prefill(state, Some(d)).Ok?
      && Submit(Prefill(state, Some(d)).value) == Body(Str(o), Str(dst), Str(t), Num(seats), Num(price))
  {
    RemoveFirstLast(t, 'Z');
  }

  /** `??` keeps a zero that `||` would have dropped: prefilled seats of 0 stay 0. */
  lemma ZeroSeatsKept(state: FormState, d: InitialData)
    requires d.availableSeats == Num(0.0) && !(Truthy(d.departureTime) && !d.departureTime.Str?)
    ensures Prefill(state, Some(d)).value.availableSeats == Num(0.0)
    ensures Or(d.availableSeats, Str("")) == Str("")
  {
  }

  /** A missing origin or destination prefills as the empty text and is submitted as such. */
  lemma MissingTextsBlank(state: FormState, d: InitialData)
    requires d.origin.Null? && d.destination.Undefined? && !d.departureTime.Str? && !Truthy(d.departureTime)
    ensures Submit(Prefill(state, Some(d)).value).origin == Str("")
    ensures Submit(Prefill(state, Some(d)).value).destination == Str("")
    ensures Submit(Prefill(state, Some(d)).value).departureTime == Str("")
  {
  }

  /** An empty price is sent as 0, where an empty seat count reads as 0 through `Number`. */
  lemma EmptyFormBody()
    ensures Submit(Blank) == Body(Str(""), Str(""), Str(""), Num(0.0), Num(0.0))
  {
  }
}

=== FILE: ride_mapper.dfy ===
/**
 * Conversion between Ride and RideDto. The entity side of the driver
 * reference is the user row it resolves to, which the caller loads.
 */
module RideMapper {
  import opened Wrappers
  import opened Entities

  /**
   * Copies the six scalar fields; driverId and driverName only when there
   * is a driver, passengerIds only when there is a passenger list.
   */
  function ToDto(r: Ride, driver: Option<User>): RideDto {
    RideDto(
      r.id, r.origin, r.destination, r.departureTime, r.availableSeats, r.pricePerSeat,
      if driver.Some? then driver.value.id else None,
      if driver.Some? then Some(driver.value.name) else None,
      r.passengerIds)
  }

  /**
   * Copies the six scalar fields (including the id) and attaches the given
   * driver; the DTO's driverId, driverName and passengerIds are ignored and
   * the passenger list stays null.
   */
  function ToEntity(d: RideDto, driver: Option<User>): Ride {
    Ride(d.id, d.origin, d.destination, d.departureTime, d.availableSeats, d.pricePerSeat,
         if driver.Some? then driver.value.id else None, None)
  }

  /** The driver fields of the DTO are present exactly when the ride has a driver, and name it. */
  lemma DriverFields(r: Ride, driver: Option<User>)
    ensures ToDto(r, driver).driverName.Some? <==> driver.Some?
    ensures driver.Some? ==> ToDto(r, driver).driverId == driver.value.id && ToDto(r, driver).driverName == Some(driver.value.name)
    ensures driver.None? ==> ToDto(r, driver).driverId.None?
  {
  }

  /** passengerIds is present exactly when the passenger list is, with the same ids in order. */
  lemma PassengerIds(r: Ride, driver: Option<User>)
    ensures ToDto(r, driver).passengerIds.Some? <==> r.passengerIds.Some?
    ensures r.passengerIds.Some? ==> ToDto(r, driver).passengerIds.value == r.passengerIds.value
  {
  }

  /** The DTO-side fields are not read by ToEntity. */
  lemma ToEntityIgnoresDriverFields(d: RideDto, e: RideDto, driver: Option<User>)
    requires d.(driverId := e.driverId, driverName := e.driverName, passengerIds := e.passengerIds) == e
    ensures ToEntity(d, driver) == ToEntity(e, driver)
  {
  }

  /**
   * A DTO turned into an entity and back keeps its six scalars and reports
   * the attached driver; it has no passenger list any more.
   */
  lemma DtoRoundTrip(d: RideDto, driver: User)
    ensures var d' := ToDto(ToEntity(d, Some(driver)), Some(driver));
      && d'.id == d.id && d'.origin == d.origin && d'.destination == d.destination
      && d'.departureTime == d.departureTime && d'.availableSeats == d.availableSeats
      && d'.pricePerSeat == d.pricePerSeat
      && d'.driverId == driver.id && d'.driverName == Some(driver.name)
      && d'.passengerIds.None?
  {
  }
}

=== FILE: ride_repository.dfy ===
/**
 * The ride queries: the derived finders and the hand-written search query,
 * each as a filter over the ride store. Query results are returned keyed by
 * id; the database's row order is not modelled.
 */
module RideRepository {
  import opened Wrappers
  import opened Text
  import opened Entities

  /** The rows of `rides` that satisfy `p`, unchanged. */
  function Where(rides: map<Id, Ride>, p: Ride -> bool): (m: map<Id, Ride>)
    ensures forall k :: k in m <==> k in rides && p(rides[k])
    ensures forall k :: k in m ==> m[k] == rides[k]
  {
    map k | k in rides && p(rides[k]) :: rides[k]
  }

  /** findByOriginIgnoreCaseAndDestinationIgnoreCase: exact route, case ignored. */
  predicate SameRoute(r: Ride, origin: string, destination: string) {
    SqlEqualsIgnoreCase(r.origin, origin) && SqlEqualsIgnoreCase(r.destination, destination)
  }

  function FindByOriginIgnoreCaseAndDestinationIgnoreCase(rides: map<Id, Ride>, origin: string, destination: string): map<Id, Ride> {
    Where(rides, r => SameRoute(r, origin, destination))
  }

  /**
   * One text criterion of the search query: a null or empty argument
   * imposes nothing; otherwise the lower-cased column must be LIKE the
   * lower-cased pattern `%arg%`, in which any `%` or `_` of the argument
   * is a wildcard.
   */
  predicate TextMatches(column: string, arg: Option<string>) {
    arg.None? || arg.value == "" || Like(ToLower(column), ToLower("%" + arg.value + "%"))
  }

  /** Lower-casing the pattern lower-cases the argument inside it. */
  lemma LowerPattern(arg: string)
    ensures ToLower("%" + arg + "%") == "%" + ToLower(arg) + "%"
  {
    assert forall i :: 0 <= i < |arg| ==> ("%" + arg + "%")[i + 1] == arg[i];
  }

  /** An argument without `%` or `_` matches the columns that contain it, ignoring case. */
  lemma TextMatchesSubstring(column: string, arg: string)
    requires NoWildcard(arg)
    ensures TextMatches(column, Some(arg)) <==> arg == "" || Contains(ToLower(column), ToLower(arg))
  {
    LowerPattern(arg);
    assert NoWildcard(ToLower(arg));
    LikeIsContains(ToLower(column), ToLower(arg));
    if arg == "" {
      ContainsEmpty(ToLower(column));
    }
  }

  /** Every four-letter lower-case text "r?me" matches the pattern "%r_me%". */
  lemma MatchesRMe(low: string)
    requires |low| == 4 && low[0] == 'r' && low[2..] == "me"
    ensures Like(low, "%r_me%")
  {
    LikeItselfThenAnything("me", "");
    assert "me" + "" == "me" && "me" + "%" == "me%";
    assert Like(low[2..], "me%");
    assert low[1..][1..] == low[2..] && "_me%"[1..] == "me%";
    assert Like(low[1..], "_me%");
    assert "r_me%"[0] == 'r' && "r_me%"[1..] == "_me%";
    assert Like(low, "r_me%");
    LikeSkip(low, 0, "r_me%");
    assert "%" + "r_me%" == "%r_me%";
  }

  /** The argument's `_` is a wildcard: "r_me" finds Rome and Rime. */
  lemma UnderscoreIsWildcard()
    ensures TextMatches("Rome", Some("r_me")) && TextMatches("Rime", Some("r_me"))
    ensures !Contains(ToLower("Rome"), "r_me")
  {
    LowerPattern("r_me");
    assert ToLower("r_me") == "r_me";
    assert "%" + "r_me" + "%" == "%r_me%";
    assert ToLower("Rome") == "rome" && ToLower("Rime") == "rime";
    MatchesRMe("rome");
    MatchesRMe("rime");
  }

  /** A column equal to the argument ignoring case matches it. */
  lemma SameTextMatches(column: string, arg: string)
    requires SqlEqualsIgnoreCase(column, arg)
    ensures TextMatches(column, Some(arg))
  {
    LowerPattern(arg);
    assert OccursAt(ToLower(column), ToLower(arg), 0);
    ContainsLike(ToLower(column), ToLower(arg));
  }

  /** The search query's WHERE clause; a null departure bound makes the comparison unknown, so nothing matches. */
  predicate SearchMatch(r: Ride, origin: Option<string>, destination: Option<string>, departureTime: Option<Time>) {
    && TextMatches(r.origin, origin)
    && TextMatches(r.destination, destination)
    && departureTime.Some? && r.departureTime >= departureTime.value
  }

  function SearchRides(rides: map<Id, Ride>, origin: Option<string>, destination: Option<string>, departureTime: Option<Time>): map<Id, Ride> {
    Where(rides, r => SearchMatch(r, origin, destination, departureTime))
  }

  /**
   * The finder RideServiceImpl.searchRides calls,
   * findByOriginIgnoreCaseAndDestinationIgnoreCaseAndDepartureTimeAfter.
   * It is not declared in RideRepository; this is the meaning Spring Data
   * would derive from its name.
   */
  predicate RouteAfter(r: Ride, origin: string, destination: string, departureTime: Time) {
    SameRoute(r, origin, destination) && r.departureTime > departureTime
  }

  function FindByOriginIgnoreCaseAndDestinationIgnoreCaseAndDepartureTimeAfter(
    rides: map<Id, Ride>, origin: string, destination: string, departureTime: Time): map<Id, Ride>
  {
    Where(rides, r => RouteAfter(r, origin, destination, departureTime))
  }

  /** findByDriverId: rides whose driver has the given id. */
  predicate DrivenBy(r: Ride, driverId: Id) {
    r.driverId == Some(driverId)
  }

  function FindByDriverId(rides: map<Id, Ride>, driverId: Id): map<Id, Ride> {
    Where(rides, r => DrivenBy(r, driverId))
  }

  /** A null or empty text argument leaves only the departure bound. */
  lemma SearchWithoutText(rides: map<Id, Ride>, origin: Option<string>, destination: Option<string>, t: Time)
    requires origin == None || origin == Some("")
    requires destination == None || destination == Some("")
    ensures forall k :: k in SearchRides(rides, origin, destination, Some(t)) <==> k in rides && rides[k].departureTime >= t
  {
  }

  /** A null departure bound matches nothing. */
  lemma SearchWithoutBound(rides: map<Id, Ride>, origin: Option<string>, destination: Option<string>)
    ensures SearchRides(rides, origin, destination, None) == map[]
  {
  }

  /** The departure bound of the search query is inclusive. */
  lemma SearchBoundInclusive(r: Ride)
    ensures SearchMatch(r, None, None, Some(r.departureTime))
  {
  }

  /** Destination filtering behaves exactly like origin filtering. */
  lemma SearchSymmetric(r: Ride, origin: Option<string>, destination: Option<string>, t: Option<Time>)
    ensures SearchMatch(r, origin, destination, t) ==
            SearchMatch(r.(origin := r.destination, destination := r.origin), destination, origin, t)
  {
  }

  /** The case of a search argument does not matter. */
  lemma SearchIgnoresCase(column: string, arg: string)
    ensures TextMatches(column, Some(arg)) == TextMatches(column, Some(ToUpper(arg)))
  {
    LowerPattern(arg);
    LowerPattern(ToUpper(arg));
    ToLowerToUpper(arg);
  }

  /**
   * Every ride the name-derived finder returns is also returned by the
   * search query with the same arguments; the converse fails for partial
   * names and for rides leaving exactly at the bound.
   */
  lemma DerivedFinderWithinSearch(rides: map<Id, Ride>, origin: string, destination: string, t: Time)
    ensures FindByOriginIgnoreCaseAndDestinationIgnoreCaseAndDepartureTimeAfter(rides, origin, destination, t).Keys
            <= SearchRides(rides, Some(origin), Some(destination), Some(t)).Keys
  {
    forall k | k in FindByOriginIgnoreCaseAndDestinationIgnoreCaseAndDepartureTimeAfter(rides, origin, destination, t)
      ensures k in SearchRides(rides, Some(origin), Some(destination), Some(t))
    {
      SameTextMatches(rides[k].origin, origin);
      SameTextMatches(rides[k].destination, destination);
    }
  }

  /** A ride leaving exactly at the bound is found by the search query but not by the derived finder. */
  lemma BoundDiffers(r: Ride)
    ensures SearchMatch(r, Some(r.origin), Some(r.destination), Some(r.departureTime))
    ensures !RouteAfter(r, r.origin, r.destination, r.departureTime)
  {
    SameTextMatches(r.origin, r.origin);
    SameTextMatches(r.destination, r.destination);
  }

  /** No ride is returned for two different drivers. */
  lemma DriversDisjoint(rides: map<Id, Ride>, d1: Id, d2: Id)
    requires d1 != d2
    ensures FindByDriverId(rides, d1).Keys !! FindByDriverId(rides, d2).Keys
  {
  }
}

=== FILE: ride_service.dfy ===
/** The ride service: create, read, search, update, delete, list by driver. */
module RideService {
  import opened Wrappers
  import opened Entities
  import opened Store
  import RideMapper
  import RideRepository

  /**
   * `d` shows stored ride `k` as it now is: its scalar fields, its driver's
   * id and current name when the driver reference resolves, and the ids of
   * its passengers.
   */
  predicate Shows(db: Db, k: Id, d: RideDto)
    requires k in db.rides
  {
    var r := db.rides[k];
    && d.id == Some(k) && d.origin == r.origin && d.destination == r.destination
    && d.departureTime == r.departureTime && d.availableSeats == r.availableSeats
    && d.pricePerSeat == r.pricePerSeat
    && (if r.driverId.Some? && r.driverId.value in db.users
        then d.driverId == r.driverId && d.driverName == Some(db.users[r.driverId.value].name)
        else d.driverId.None? && d.driverName.None?)
    && d.passengerIds == Some(PassengerRows(r))
  }

  /** The DTO of a stored ride as findById loads it. */
  function Load(db: Db, k: Id): (d: RideDto)
    requires k in db.rides
    ensures Shows(db, k, d)
  {
    var ride := FindRide(db, k).value;
    RideMapper.ToDto(ride, FindDriver(db, ride))
  }

  /** The DTOs of a set of stored rides, keyed by id. */
  function Dtos(db: Db, found: map<Id, Ride>): (m: map<Id, RideDto>)
    requires found.Keys <= db.rides.Keys
    ensures m.Keys == found.Keys
    ensures forall k :: k in m ==> Shows(db, k, m[k])
  {
    map k | k in found :: Load(db, k)
  }

  /**
   * createRide as written: the DTO's id is copied into the entity
   * (RideMapper.toEntity) and `save` merges an entity whose id names an
   * existing ride into that ride.
   */
  function CreateRideAsWritten(db: Db, dto: RideDto, driverId: Id): (s: Step<RideDto>)
    ensures s.db.(rides := db.rides) == db
    ensures driverId !in db.users ==> s == Step(db, Err(NotFound("Driver not found")))
    ensures driverId in db.users ==>
      && s.result.Ok? && s.result.value.id.Some?
      && var k := s.result.value.id.value;
      && k in s.db.rides
      && s.db.rides == db.rides[k := s.db.rides[k]]
      && (dto.id.Some? && dto.id.value in db.rides ==> k == dto.id.value)
      && (!(dto.id.Some? && dto.id.value in db.rides) ==> k !in db.rides && k !in db.retiredRides)
  {
    var driver := FindUser(db, driverId);
    if driver.None? then Step(db, Err(NotFound("Driver not found")))
    else
      var ride := RideMapper.ToEntity(dto, driver);
      var k := SaveKey(db.rides, db.retiredRides, ride.id);
      var saved := ride.(id := Some(k));
      Step(db.(rides := db.rides[k := saved]), Ok(RideMapper.ToDto(saved, driver)))
  }

  /** A create request that carries the id of an existing ride replaces that ride instead of adding one. */
  lemma CreateRideOverwritesExisting(db: Db, dto: RideDto, driverId: Id)
    requires driverId in db.users
    requires dto.id.Some? && dto.id.value in db.rides
    ensures var s := CreateRideAsWritten(db, dto, driverId);
      && s.db.rides.Keys == db.rides.Keys
      && s.db.rides[dto.id.value].driverId == Some(driverId)
      && s.db.rides[dto.id.value].origin == dto.origin
  {
  }

  /**
   * createRide as evidently intended: the ride is always stored as a new
   * row, whatever id the request carries.
   */
  function CreateRide(db: Db, dto: RideDto, driverId: Id): (s: Step<RideDto>)
    ensures s.db.(rides := db.rides) == db
    ensures driverId !in db.users ==> s == Step(db, Err(NotFound("Driver not found")))
    ensures driverId in db.users ==>
      && s.result.Ok? && s.result.value.id.Some?
      && var k := s.result.value.id.value;
      && k !in db.rides && k !in db.retiredRides
      && s.db.rides.Keys == db.rides.Keys + {k}
      && (forall j :: j in db.rides ==> s.db.rides[j] == db.rides[j])
      && s.db.rides[k].driverId == Some(driverId) && s.db.rides[k].passengerIds.None?
      && s.result.value == dto.(id := Some(k), driverId := Some(driverId),
                                driverName := Some(db.users[driverId].name), passengerIds := None)
  {
    var driver := FindUser(db, driverId);
    if driver.None? then Step(db, Err(NotFound("Driver not found")))
    else
      var ride := RideMapper.ToEntity(dto, driver);
      var k := FreshKey(db.rides, db.retiredRides);
      var saved := ride.(id := Some(k));
      Step(db.(rides := db.rides[k := saved]), Ok(RideMapper.ToDto(saved, driver)))
  }

  /** getRideById: the stored ride as it now is, its driver's current name included. */
  function GetRideById(db: Db, id: Id): (r: Result<RideDto, Error>)
    ensures id !in db.rides ==> r == Err(NotFound("Ride not found"))
    ensures id in db.rides ==> r.Ok? && Shows(db, id, r.value)
  {
    var ride := FindRide(db, id);
    if ride.None? then Err(NotFound("Ride not found")) else Ok(RideMapper.ToDto(ride.value, FindDriver(db, ride.value)))
  }

  /**
   * searchRides: delegates to the name-derived finder (exact route ignoring
   * case, departure strictly after the bound), not to the repository's
   * search query.
   */
  function SearchRides(db: Db, origin: string, destination: string, departureTime: Time): (m: map<Id, RideDto>)
    ensures forall k :: k in m <==> k in db.rides && RideRepository.RouteAfter(db.rides[k], origin, destination, departureTime)
    ensures forall k :: k in m ==> Shows(db, k, m[k])
  {
    Dtos(db, RideRepository.FindByOriginIgnoreCaseAndDestinationIgnoreCaseAndDepartureTimeAfter(db.rides, origin, destination, departureTime))
  }

  /** updateRide: overwrites origin, destination, departure time, seats and price of the loaded ride. */
  function UpdateRide(db: Db, id: Id, dto: RideDto): (s: Step<RideDto>)
    ensures s.db.(rides := db.rides) == db
    ensures id !in db.rides ==> s == Step(db, Err(NotFound("Ride not found")))
    ensures id in db.rides ==>
      && s.result.Ok?
      && s.db.rides.Keys == db.rides.Keys
      && (forall k :: k in db.rides && k != id ==> s.db.rides[k] == db.rides[k])
      && var r, r' := db.rides[id], s.db.rides[id];
      && r'.origin == dto.origin && r'.destination == dto.destination
      && r'.departureTime == dto.departureTime && r'.availableSeats == dto.availableSeats
      && r'.pricePerSeat == dto.pricePerSeat
      && r'.driverId == r.driverId && PassengerRows(r') == PassengerRows(r)
      && Shows(s.db, id, s.result.value)
  {
    var ride := FindRide(db, id);
    if ride.None? then Step(db, Err(NotFound("Ride not found")))
    else
      var r := ride.value.(
        origin := dto.origin, destination := dto.destination, departureTime := dto.departureTime,
        availableSeats := dto.availableSeats, pricePerSeat := dto.pricePerSeat);
      Step(db.(rides := db.rides[id := r]), Ok(RideMapper.ToDto(r, FindDriver(db, r))))
  }

  /** The bookings of ride `id`: those the ride's cascading collection holds. */
  function BookingsOf(db: Db, id: Id): (ks: set<Id>)
    ensures forall b :: b in ks <==> b in db.bookings && db.bookings[b].rideId == Some(id)
  {
    set b | b in db.bookings && db.bookings[b].rideId == Some(id)
  }

  /**
   * deleteRide: removes the ride and, through the cascade on its bookings,
   * every booking of that ride; the ids of the removed rows are retired.
   */
  function DeleteRide(db: Db, id: Id): (s: Step<()>)
    ensures s.db.users == db.users && s.db.notifications == db.notifications && s.db.retiredUsers == db.retiredUsers
    ensures id !in db.rides ==> s == Step(db, Err(NotFound("Ride not found")))
    ensures id in db.rides ==>
      && s.result.Ok?
      && s.db.rides.Keys == db.rides.Keys - {id}
      && (forall k :: k in s.db.rides ==> s.db.rides[k] == db.rides[k])
      && (forall b :: b in s.db.bookings <==> b in db.bookings && db.bookings[b].rideId != Some(id))
      && (forall b :: b in s.db.bookings ==> s.db.bookings[b] == db.bookings[b])
      && id in s.db.retiredRides && db.retiredRides <= s.db.retiredRides
      && (forall b :: b in db.bookings && b !in s.db.bookings ==> b in s.db.retiredBookings)
      && db.retiredBookings <= s.db.retiredBookings
  {
    if id !in db.rides then Step(db, Err(NotFound("Ride not found")))
    else
      var gone := BookingsOf(db, id);
      Step(db.(rides := db.rides - {id}, bookings := db.bookings - gone,
               retiredRides := db.retiredRides + {id}, retiredBookings := db.retiredBookings + gone), Ok(()))
  }

  /** Deleting a ride keeps every foreign key resolvable: no booking is left pointing at it. */
  lemma DeleteRideKeepsConsistent(db: Db, id: Id)
    requires Consistent(db)
    ensures Consistent(DeleteRide(db, id).db)
  {
    var s := DeleteRide(db, id);
    if s.result.Ok? {
      forall k | k in s.db.bookings
        ensures Resolves(s.db.rides, s.db.bookings[k].rideId)
      {
        assert db.bookings[k].rideId != Some(id);
      }
    }
  }

  /** getRidesByDriver: the rides whose driver reference is that id. */
  function GetRidesByDriver(db: Db, driverId: Id): (m: map<Id, RideDto>)
    ensures forall k :: k in m <==> k in db.rides && RideRepository.DrivenBy(db.rides[k], driverId)
    ensures forall k :: k in m ==> Shows(db, k, m[k])
    ensures driverId in db.users ==> forall k :: k in m ==> m[k].driverId == Some(driverId)
  {
    Dtos(db, RideRepository.FindByDriverId(db.rides, driverId))
  }

  /**
   * A created ride is found again by id, as it was returned except that the
   * loaded ride has an (empty) passenger list; it is listed under its driver.
   */
  lemma CreateThenGet(db: Db, dto: RideDto, driverId: Id)
    requires driverId in db.users
    ensures var s := CreateRide(db, dto, driverId);
      && GetRideById(s.db, s.result.value.id.value) == Ok(s.result.value.(passengerIds := Some([])))
      && s.result.value.id.value in GetRidesByDriver(s.db, driverId)
  {
  }

  /** After an update, reading the ride gives back the five updated fields. */
  lemma UpdateThenGet(db: Db, id: Id, dto: RideDto)
    requires id in db.rides
    ensures var r := GetRideById(UpdateRide(db, id, dto).db, id);
      && r.Ok?
      && r.value.origin == dto.origin && r.value.destination == dto.destination
      && r.value.departureTime == dto.departureTime && r.value.availableSeats == dto.availableSeats
      && r.value.pricePerSeat == dto.pricePerSeat
  {
  }

  /**
   * After a delete, the ride is not found, deleting it again fails, and a
   * ride created afterwards never gets the deleted ride's id.
   */
  lemma DeleteThenGet(db: Db, id: Id, dto: RideDto, driverId: Id)
    requires id in db.rides && driverId in db.users
    ensures GetRideById(DeleteRide(db, id).db, id) == Err(NotFound("Ride not found"))
    ensures DeleteRide(DeleteRide(db, id).db, id).result == Err(NotFound("Ride not found"))
    ensures CreateRide(DeleteRide(db, id).db, dto, driverId).result.value.id != Some(id)
  {
  }
}

=== FILE: routes.dfy ===
/**
 * The client's route table: which page a path renders for the current
 * session user, and where it redirects otherwise.
 */
module Routes {
  import opened Wrappers
  import opened Js
  import AuthContext
  import AuthController

  /** What the router renders; dashboards receive the user's name and id as props. */
  datatype Page =
    | Home
    | LoginPage
    | RegisterPage
    | DriverDashboard(userName: JsVal, userId: JsVal)
    | PassengerDashboard(userName: JsVal, userId: JsVal)
    | CreateRidePage
    | Navigate(to: string)

  /** The exact role string the ride-creation page admits. */
  const DriverRole: JsVal := Str("Driver")

  /**
   * The page for a path. The dashboards need a user but no role; ride
   * creation needs a user whose role is exactly `Driver`; every refusal
   * goes to the login page, and an unknown path goes home.
   */
  function Route(path: string, user: Option<AuthContext.SessionUser>): (p: Page)
    ensures (p.DriverDashboard? || p.PassengerDashboard? || p.CreateRidePage?) ==> user.Some?
    ensures p.CreateRidePage? ==> user.value.role == DriverRole
    ensures (p.DriverDashboard? || p.PassengerDashboard?) ==> p.userName == user.value.name && p.userId == user.value.id
    ensures p.Navigate? ==> p.to == "/login" || p.to == "/"
  {
    if path == "/" then Home
    else if path == "/login" then LoginPage
    else if path == "/register" then RegisterPage
    else if path == "/driver-dashboard" then
      if user.Some? then DriverDashboard(user.value.name, user.value.id) else Navigate("/login")
    else if path == "/passenger-dashboard" then
      if user.Some? then PassengerDashboard(user.value.name, user.value.id) else Navigate("/login")
    else if path == "/create-ride" then
      if user.Some? && user.value.role == DriverRole then CreateRidePage else Navigate("/login")
    else Navigate("/")
  }

  predicate Public(path: string) {
    path == "/" || path == "/login" || path == "/register"
  }

  predicate Known(path: string) {
    Public(path) || path == "/driver-dashboard" || path == "/passenger-dashboard" || path == "/create-ride"
  }

  /** The public pages render the same with or without a user, and never redirect. */
  lemma PublicIgnoresUser(path: string, u1: Option<AuthContext.SessionUser>, u2: Option<AuthContext.SessionUser>)
    requires Public(path)
    ensures Route(path, u1) == Route(path, u2)
    ensures !Route(path, u1).Navigate?
  {
  }

  /** Either dashboard renders iff there is a user, whatever that user's role. */
  lemma DashboardsIgnoreRole(path: string, user: Option<AuthContext.SessionUser>, role: JsVal)
    requires path == "/driver-dashboard" || path == "/passenger-dashboard"
    ensures Route(path, user).Navigate? <==> user.None?
    ensures user.None? ==> Route(path, user) == Navigate("/login")
    ensures user.Some? ==> Route(path, user) == Route(path, Some(user.value.(role := role)))
  {
  }

  /** Ride creation renders iff the user's role is the string `Driver`, exactly. */
  lemma CreateRideGate(user: Option<AuthContext.SessionUser>)
    ensures Route("/create-ride", user) == CreateRidePage <==> user.Some? && user.value.role == Str("Driver")
    ensures Route("/create-ride", user) != CreateRidePage ==> Route("/create-ride", user) == Navigate("/login")
  {
  }

  /** A role in the upper-case form of the enum name is refused. */
  lemma UpperCaseRoleRefused(u: AuthContext.SessionUser)
    requires u.role == Str("DRIVER")
    ensures Route("/create-ride", Some(u)) == Navigate("/login")
  {
  }

  /** Every path outside the table goes home, with or without a user. */
  lemma UnknownPathGoesHome(path: string, user: Option<AuthContext.SessionUser>)
    requires !Known(path)
    ensures Route(path, user) == Navigate("/")
  {
  }

  /**
   * After logging in with the server's reply, ride creation is open iff
   * the server's role string is exactly `Driver`.
   */
  lemma LoginRoleGate(s: AuthContext.Session, r: AuthController.LoginResponse, codec: AuthContext.Codec,
                      decode: string -> Option<AuthContext.TokenClaims>)
    requires decode(r.accessToken).Some?
    ensures var res := AuthContext.Login(s, Some(r.accessToken), AuthContext.FromResponse(r), codec, decode);
      res.Ok? && (Route("/create-ride", res.value.user) == CreateRidePage <==> r.role == "Driver")
  {
    AuthContext.ResponseLoginDecodes(s, r, codec, decode);
  }
}

=== FILE: seat_ledger.dfy ===
/**
 * The seat ledger of a ride: its available seats plus the seats held by
 * its CONFIRMED/ACCEPTED bookings. Accepting, rejecting and cancelling a
 * booking move seats between the two terms and never change the total;
 * updating a booking that holds no seats does.
 */
module SeatLedger {
  import opened Wrappers
  import opened Entities
  import opened Store
  import opened BookingService

  /** The bookings of ride `r` that hold seats. */
  function Holding(bs: map<Id, Booking>, r: Id): (ks: set<Id>)
    ensures ks <= bs.Keys
    ensures forall k :: k in ks <==> k in bs && bs[k].rideId == Some(r) && IsConfirmed(bs[k].status)
  {
    set k | k in bs && bs[k].rideId == Some(r) && IsConfirmed(bs[k].status)
  }

  /** The seats booking `b` holds on ride `r`. */
  function Held(b: Booking, r: Id): int {
    if b.rideId == Some(r) && IsConfirmed(b.status) then b.numberOfSeats else 0
  }

  /** The total of `numberOfSeats` over the bookings `ks`. */
  ghost function SeatSum(bs: map<Id, Booking>, ks: set<Id>): int
    requires ks <= bs.Keys
    decreases ks
  {
    if ks == {} then 0
    else
      var k :| k in ks;
      bs[k].numberOfSeats + SeatSum(bs, ks - {k})
  }

  /** The total does not depend on which booking is taken out first. */
  lemma {:induction false} SeatSumRemove(bs: map<Id, Booking>, ks: set<Id>, k: Id)
    requires ks <= bs.Keys && k in ks
    ensures SeatSum(bs, ks) == bs[k].numberOfSeats + SeatSum(bs, ks - {k})
    decreases ks
  {
    var j :| j in ks && SeatSum(bs, ks) == bs[j].numberOfSeats + SeatSum(bs, ks - {j});
    if j != k {
      SeatSumRemove(bs, ks - {j}, k);
      SeatSumRemove(bs, ks - {k}, j);
      assert ks - {j} - {k} == ks - {k} - {j};
    }
  }

  /** The total reads only the seat counts of the bookings it sums. */
  lemma {:induction false} SeatSumFrame(bs: map<Id, Booking>, bs': map<Id, Booking>, ks: set<Id>)
    requires ks <= bs.Keys && ks <= bs'.Keys
    requires forall k :: k in ks ==> bs'[k].numberOfSeats == bs[k].numberOfSeats
    ensures SeatSum(bs', ks) == SeatSum(bs, ks)
    decreases ks
  {
    if ks != {} {
      var k :| k in ks;
      SeatSumRemove(bs, ks, k);
      SeatSumRemove(bs', ks, k);
      SeatSumFrame(bs, bs', ks - {k});
    }
  }

  /** Seats held on ride `r` by its bookings. */
  ghost function HeldSeats(bs: map<Id, Booking>, r: Id): int {
    SeatSum(bs, Holding(bs, r))
  }

  /** Replacing one booking (same ride) changes the seats held by the difference of what the two hold. */
  lemma EntryChange(bs: map<Id, Booking>, id: Id, nb: Booking, r: Id)
    requires id in bs && nb.rideId == bs[id].rideId
    ensures HeldSeats(bs[id := nb], r) + Held(bs[id], r) == HeldSeats(bs, r) + Held(nb, r)
  {
    var bs' := bs[id := nb];
    var h, h' := Holding(bs, r), Holding(bs', r);
    assert h - {id} == h' - {id};
    SeatSumFrame(bs, bs', h - {id});
    if id in h {
      SeatSumRemove(bs, h, id);
    } else {
      assert h == h - {id};
    }
    if id in h' {
      SeatSumRemove(bs', h', id);
    } else {
      assert h' == h' - {id};
    }
  }

  /** Adding a booking adds what it holds. */
  lemma NewEntry(bs: map<Id, Booking>, k: Id, nb: Booking, r: Id)
    requires k !in bs
    ensures HeldSeats(bs[k := nb], r) == HeldSeats(bs, r) + Held(nb, r)
  {
    var bs' := bs[k := nb];
    var h, h' := Holding(bs, r), Holding(bs', r);
    assert h == h' - {k};
    SeatSumFrame(bs, bs', h);
    if k in h' {
      SeatSumRemove(bs', h', k);
    } else {
      assert h' == h;
    }
  }

  /** A ride's committed seats: still available plus held by its bookings. */
  ghost function Committed(db: Db, r: Id): int
    requires r in db.rides
  {
    db.rides[r].availableSeats + HeldSeats(db.bookings, r)
  }

  /** No ride appears or disappears, and every ride keeps its committed seats. */
  ghost predicate Conserved(db: Db, db': Db) {
    && db'.rides.Keys == db.rides.Keys
    && forall r :: r in db.rides ==> Committed(db', r) == Committed(db, r)
  }

  /** Changing the status of a booking that holds no seats to another that holds none keeps every ledger. */
  lemma StatusWithoutSeats(db: Db, db': Db, id: Id, st: Status)
    requires id in db.bookings && !IsConfirmed(db.bookings[id].status) && !IsConfirmed(st)
    requires db'.rides == db.rides && db'.bookings == db.bookings[id := db.bookings[id].(status := st)]
    ensures Conserved(db, db')
  {
    forall r | r in db.rides
      ensures Committed(db', r) == Committed(db, r)
    {
      EntryChange(db.bookings, id, db.bookings[id].(status := st), r);
    }
  }

  /** Adding bookings that hold no seats, and changing nothing else, keeps every ledger. */
  lemma AddedWithoutSeats(db: Db, db': Db)
    requires db'.rides == db.rides
    requires db.bookings.Keys <= db'.bookings.Keys
    requires forall k :: k in db.bookings ==> db'.bookings[k] == db.bookings[k]
    requires forall k :: k in db'.bookings && k !in db.bookings ==> !IsConfirmed(db'.bookings[k].status)
    ensures Conserved(db, db')
  {
    forall r | r in db.rides
      ensures Committed(db', r) == Committed(db, r)
    {
      assert Holding(db'.bookings, r) == Holding(db.bookings, r);
      SeatSumFrame(db.bookings, db'.bookings, Holding(db.bookings, r));
    }
  }

  lemma {:induction false} CreateConserves(db: Db, dto: BookingDto, now: Time)
    ensures Conserved(db, CreateBooking(db, dto, now).db)
  {
    if CanBook(db, dto) {
      assert !IsConfirmed(Some(PENDING));
      AddedWithoutSeats(db, CreateBooking(db, dto, now).db);
    }
  }

  lemma {:induction false} AcceptConserves(db: Db, id: Id)
    ensures Conserved(db, AcceptBooking(db, id).db)
  {
    var s := AcceptBooking(db, id);
    if id in db.bookings && !IsConfirmed(db.bookings[id].status) && RideResolves(db, db.bookings[id]) {
      var b := db.bookings[id];
      var r0 := b.rideId.value;
      if db.rides[r0].availableSeats >= b.numberOfSeats {
        ConfirmedHoldsSeats();
        forall r | r in db.rides
          ensures Committed(s.db, r) == Committed(db, r)
        {
          EntryChange(db.bookings, id, b.(status := Some(CONFIRMED)), r);
        }
      }
    }
  }

  lemma {:induction false} RejectConserves(db: Db, id: Id)
    ensures Conserved(db, RejectBooking(db, id).db)
  {
    if id in db.bookings && !IsConfirmed(db.bookings[id].status) {
      RejectedHoldsNone(REJECTED);
      StatusWithoutSeats(db, RejectBooking(db, id).db, id, Some(REJECTED));
    }
  }

  lemma {:induction false} CancelConserves(db: Db, id: Id)
    ensures Conserved(db, CancelBooking(db, id).db)
  {
    var s := CancelBooking(db, id);
    CancelledHoldsNone(CANCELLED);
    if id in db.bookings && !IsConfirmed(db.bookings[id].status) {
      StatusWithoutSeats(db, s.db, id, Some(CANCELLED));
    } else if id in db.bookings && RideResolves(db, db.bookings[id]) {
      var b := db.bookings[id];
      forall r | r in db.rides
        ensures Committed(s.db, r) == Committed(db, r)
      {
        EntryChange(db.bookings, id, b.(status := Some(CANCELLED)), r);
      }
    }
  }

  /** Cancelling a cancelled booking changes nothing. */
  lemma CancelIdempotent(db: Db, id: Id)
    requires CancelBooking(db, id).result.Ok?
    ensures var once := CancelBooking(db, id).db;
      CancelBooking(once, id) == Step(once, Ok(()))
  {
    var once := CancelBooking(db, id).db;
    CancelledHoldsNone(CANCELLED);
    assert once.bookings[id := once.bookings[id].(status := Some(CANCELLED))] == once.bookings;
  }

  /** An update of a booking that holds seats and keeps holding them moves seats without changing the total. */
  lemma {:induction false} UpdateHeldConserves(db: Db, id: Id, dto: BookingDto)
    requires id in db.bookings && IsConfirmed(db.bookings[id].status) && IsConfirmed(dto.status)
    ensures Conserved(db, UpdateBooking(db, id, dto).db)
  {
    var s := UpdateBooking(db, id, dto);
    var b := db.bookings[id];
    if RideResolves(db, b) && s.result.Ok? {
      forall r | r in db.rides
        ensures Committed(s.db, r) == Committed(db, r)
      {
        EntryChange(db.bookings, id, b.(numberOfSeats := dto.numberOfSeats, status := dto.status), r);
      }
    }
  }

  /**
   * An update of a booking that holds no seats still moves the seat
   * difference out of the ride: the ride's committed total drops by it.
   */
  lemma {:induction false} UpdatePendingShiftsSeats(db: Db, id: Id, dto: BookingDto)
    requires id in db.bookings && !IsConfirmed(db.bookings[id].status) && !IsConfirmed(dto.status)
    requires RideResolves(db, db.bookings[id])
    requires UpdateBooking(db, id, dto).result.Ok?
    ensures var r := db.bookings[id].rideId.value;
      Committed(UpdateBooking(db, id, dto).db, r) ==
        Committed(db, r) - (dto.numberOfSeats - db.bookings[id].numberOfSeats)
  {
    var b := db.bookings[id];
    EntryChange(db.bookings, id, b.(numberOfSeats := dto.numberOfSeats, status := dto.status), b.rideId.value);
  }

  /** A cancelled or rejected booking can be accepted again, taking its seats once more. */
  lemma AcceptRevives(db: Db, id: Id)
    requires id in db.bookings
    requires db.bookings[id].status == Some(CANCELLED) || db.bookings[id].status == Some(REJECTED)
    requires RideResolves(db, db.bookings[id])
    requires db.rides[db.bookings[id].rideId.value].availableSeats >= db.bookings[id].numberOfSeats
    ensures var s := AcceptBooking(db, id);
      var r := db.bookings[id].rideId.value;
      && s.db.bookings[id].status == Some(CONFIRMED)
      && s.db.rides[r].availableSeats == db.rides[r].availableSeats - db.bookings[id].numberOfSeats
  {
    CancelledHoldsNone(CANCELLED);
    RejectedHoldsNone(REJECTED);
  }
}

=== FILE: store.dfy ===
/**
 * The four JPA repositories as maps from id to entity, the exceptions the
 * services throw, and the identity allocation of `save`.
 */
module Store {
  import opened Wrappers
  import opened Entities

  /** The exceptions a service call can end in. */
  datatype Error =
    | NotFound(message: string)          // EntityNotFoundException / RuntimeException "not found"
    | IllegalArgument(message: string)   // IllegalArgumentException
    | IllegalState(message: string)      // IllegalStateException
    | InvalidCredentials(message: string)
    | NullReference                      // NullPointerException on a missing reference
    | IncorrectResultSize                // a single-result finder matched several rows
    | IntegrityViolation                 // a foreign key still refers to a deleted row

  /** Spring Data's findById(null) rejects the null id before any lookup. */
  const NullIdError: Error := IllegalArgument("The given id must not be null")

  /**
   * The four tables, and for each table whose rows can be deleted the ids
   * of its deleted rows: an identity column never hands an id out twice.
   */
  datatype Db = Db(
    users: map<Id, User>,
    rides: map<Id, Ride>,
    bookings: map<Id, Booking>,
    notifications: map<Id, Notification>,
    retiredUsers: set<Id>,
    retiredRides: set<Id>,
    retiredBookings: set<Id>)

  /**
   * The database after a service call together with what the call returned
   * or threw. Repository writes are committed one `save` at a time, so a
   * call that throws half-way keeps the writes made before the throw.
   */
  datatype Step<T> = Step(db: Db, result: Result<T, Error>)

  /** Pigeonhole: a set holding each of 0 .. n-1 has at least n elements. */
  lemma {:induction false} RangeBound(keys: set<Id>, n: nat)
    requires forall j :: 0 <= j < n ==> j in keys
    ensures n <= |keys|
    decreases n
  {
    if n > 0 {
      var rest := keys - {n - 1};
      RangeBound(rest, n - 1);
      assert keys == rest + {n - 1};
    }
  }

  /** The least id at or above `k` that is not in use. */
  function FirstAbsent(keys: set<Id>, k: Id): (r: Id)
    requires forall j :: 0 <= j < k ==> j in keys
    requires k <= |keys|
    ensures r !in keys && k <= r <= |keys|
    ensures forall j :: 0 <= j < r ==> j in keys
    decreases |keys| - k
  {
    if k !in keys then k
    else
      RangeBound(keys, k + 1);
      FirstAbsent(keys, k + 1)
  }

  /**
   * The id an identity column hands out to a newly persisted row: one
   * neither in use nor held by a deleted row.
   */
  function FreshKey<V>(m: map<Id, V>, retired: set<Id>): (k: Id)
    ensures k !in m && k !in retired
  {
    FirstAbsent(m.Keys + retired, 0)
  }

  /** Inserting at a fresh key adds that key and keeps every other row. */
  lemma InsertFresh<V>(m: map<Id, V>, k: Id, v: V)
    requires k !in m
    ensures m[k := v].Keys == m.Keys + {k} && |m[k := v]| == |m| + 1
    ensures forall j :: j in m ==> m[k := v][j] == m[j]
  {
  }

  /**
   * The row `save(entity)` writes: an entity whose id names an existing row
   * is merged into that row; any other entity is persisted as a new row.
   */
  function SaveKey<V>(m: map<Id, V>, retired: set<Id>, id: Option<Id>): (k: Id)
    ensures id.Some? && id.value in m ==> k == id.value
    ensures !(id.Some? && id.value in m) ==> k !in m && k !in retired
  {
    if id.Some? && id.value in m then id.value else FreshKey(m, retired)
  }

  /** findById: the stored row with its id column filled in, or nothing. */
  function FindUser(db: Db, id: Id): (u: Option<User>)
    ensures u.Some? <==> id in db.users
    ensures u.Some? ==> u.value.id == Some(id)
  {
    if id in db.users then Some(db.users[id].(id := Some(id))) else None
  }

  /** The passenger rows of a stored ride: an unset list was persisted as no rows. */
  function PassengerRows(r: Ride): seq<Id> {
    if r.passengerIds.Some? then r.passengerIds.value else []
  }

  /**
   * findById on rides: the stored row with its id filled in and its
   * passenger list loaded, which is never null.
   */
  function FindRide(db: Db, id: Id): (r: Option<Ride>)
    ensures r.Some? <==> id in db.rides
    ensures r.Some? ==> r.value.id == Some(id) && r.value.passengerIds == Some(PassengerRows(db.rides[id]))
    ensures r.Some? ==> r.value.(id := db.rides[id].id, passengerIds := db.rides[id].passengerIds) == db.rides[id]
  {
    if id in db.rides then Some(db.rides[id].(id := Some(id), passengerIds := Some(PassengerRows(db.rides[id])))) else None
  }

  /** The driver a loaded ride refers to, if its reference is set and resolves. */
  function FindDriver(db: Db, r: Ride): (u: Option<User>)
    ensures u.Some? <==> r.driverId.Some? && r.driverId.value in db.users
    ensures u.Some? ==> u.value == db.users[r.driverId.value].(id := r.driverId)
  {
    if r.driverId.Some? then FindUser(db, r.driverId.value) else None
  }

  function FindBooking(db: Db, id: Id): (b: Option<Booking>)
    ensures b.Some? <==> id in db.bookings
    ensures b.Some? ==> b.value.id == Some(id)
  {
    if id in db.bookings then Some(db.bookings[id].(id := Some(id))) else None
  }

  function FindNotification(db: Db, id: Id): (n: Option<Notification>)
    ensures n.Some? <==> id in db.notifications
    ensures n.Some? ==> n.value.id == Some(id)
  {
    if id in db.notifications then Some(db.notifications[id].(id := Some(id))) else None
  }

  /** A ride refers to user `u` as its driver or as one of its passengers. */
  predicate RideRefersTo(r: Ride, u: Id) {
    r.driverId == Some(u) || u in PassengerRows(r)
  }

  /**
   * Some row holds a foreign key to user `u`: a ride (driver or passenger),
   * a booking (passenger) or a notification (recipient).
   */
  predicate UserReferenced(db: Db, u: Id) {
    || (exists k :: k in db.rides && RideRefersTo(db.rides[k], u))
    || (exists k :: k in db.bookings && db.bookings[k].passengerId == Some(u))
    || (exists k :: k in db.notifications && db.notifications[k].recipientId == Some(u))
  }

  /** A nullable foreign key into `m` is null or names a row of `m`. */
  predicate Resolves<V>(m: map<Id, V>, ref: Option<Id>) {
    ref.None? || ref.value in m
  }

  /**
   * Every foreign key resolves, as the database's constraints keep it: a
   * ride's driver and passengers, a booking's ride and passenger, a
   * notification's recipient. A notification's ride and booking ids are
   * plain columns and may dangle.
   */
  predicate Consistent(db: Db) {
    && (forall k :: k in db.rides ==>
          Resolves(db.users, db.rides[k].driverId) && forall u :: u in PassengerRows(db.rides[k]) ==> u in db.users)
    && (forall k :: k in db.bookings ==>
          Resolves(db.rides, db.bookings[k].rideId) && Resolves(db.users, db.bookings[k].passengerId))
    && (forall k :: k in db.notifications ==> Resolves(db.users, db.notifications[k].recipientId))
  }

  /** The ids of the users registered under `email`. */
  function UsersWithEmail(users: map<Id, User>, email: string): (ks: set<Id>)
    ensures forall k :: k in ks <==> k in users && users[k].email == email
  {
    set k | k in users && users[k].email == email
  }

  lemma SingletonElement(s: set<Id>, x: Id, y: Id)
    requires |s| == 1 && x in s && y in s
    ensures x == y
  {
    assert |s - {x}| == 0;
    assert y !in s - {x};
  }

  lemma TwoElements(s: set<Id>)
    requires |s| >= 2
    ensures exists x, y :: x in s && y in s && x != y
  {
    var x :| x in s;
    assert |s - {x}| >= 1;
    var y :| y in s - {x};
  }

  /**
   * findByEmail, a single-result finder: nothing when no user has the
   * email, that user when exactly one has it, and an exception when the
   * query matches several rows.
   */
  function FindUserByEmail(db: Db, email: string): (r: Result<Option<User>, Error>)
    ensures r.Ok? && r.value.None? <==> forall k :: k in db.users ==> db.users[k].email != email
    ensures r.Ok? && r.value.Some? ==>
      && r.value.value.email == email
      && r.value.value.id.Some?
      && r.value.value.id.value in db.users
      && r.value.value == db.users[r.value.value.id.value].(id := r.value.value.id)
    ensures r.Err? <==> exists j, k :: j in db.users && k in db.users && j != k && db.users[j].email == email && db.users[k].email == email
  {
    var ks := UsersWithEmail(db.users, email);
    if |ks| == 0 then Ok(None)
    else if |ks| == 1 then
      assert forall x, y :: x in ks && y in ks ==> x == y by {
        forall x, y | x in ks && y in ks
          ensures x == y
        {
          SingletonElement(ks, x, y);
        }
      }
      var k :| k in ks;
      Ok(Some(db.users[k].(id := Some(k))))
    else
      TwoElements(ks);
      Err(IncorrectResultSize)
  }
}

=== FILE: text.dfy ===
/**
 * The string primitives the source relies on: case folding (Java's
 * equalsIgnoreCase, SQL LOWER and UPPER), prefix and substring tests,
 * JavaScript's whitespace trimming and the decimal rendering of a
 * non-negative int.
 */
module Text {

  /** Lower-cases an ASCII letter; every other character is unchanged. */
  function Lower(c: char): char {
    if 'A' <= c <= 'Z' then (c as int + 32) as char else c
  }

  /** Upper-cases an ASCII letter; every other character is unchanged. */
  function Upper(c: char): char {
    if 'a' <= c <= 'z' then (c as int - 32) as char else c
  }

  function ToLower(s: string): (r: string)
    ensures |r| == |s|
    ensures forall i :: 0 <= i < |s| ==> r[i] == Lower(s[i])
  {
    seq(|s|, i requires 0 <= i < |s| => Lower(s[i]))
  }

  function ToUpper(s: string): (r: string)
    ensures |r| == |s|
    ensures forall i :: 0 <= i < |s| ==> r[i] == Upper(s[i])
  {
    seq(|s|, i requires 0 <= i < |s| => Upper(s[i]))
  }

  /**
   * The database's case-insensitive comparison of the derived `IgnoreCase`
   * finders, `upper(a) = upper(b)`, on ASCII letters.
   */
  predicate SqlEqualsIgnoreCase(a: string, b: string) {
    ToLower(a) == ToLower(b)
  }

  /**
   * Java's Character.toUpperCase on the characters whose upper case is an
   * ASCII letter: the ASCII letters, dotless i (U+0131) and long s (U+017F).
   * Every other character is its own upper case here.
   */
  function JavaUpper(c: char): char {
    if 'a' <= c <= 'z' then (c as int - 32) as char
    else if c == '\U{0131}' then 'I'
    else if c == '\U{017F}' then 'S'
    else c
  }

  /**
   * Java's Character.toLowerCase on the characters whose lower case is an
   * ASCII letter: the ASCII letters, dotted capital I (U+0130) and the
   * Kelvin sign (U+212A). Every other character is its own lower case here.
   */
  function JavaLower(c: char): char {
    if 'A' <= c <= 'Z' then (c as int + 32) as char
    else if c == '\U{0130}' then 'i'
    else if c == '\U{212A}' then 'k'
    else c
  }

  /**
   * The per-character test of Java's String.regionMatches with ignoreCase:
   * equal characters, equal upper cases, or equal lower cases of the upper
   * cases.
   */
  predicate JavaCharEqualsIgnoreCase(a: char, b: char) {
    a == b || JavaUpper(a) == JavaUpper(b) || JavaLower(JavaUpper(a)) == JavaLower(JavaUpper(b))
  }

  /** Java's String.equalsIgnoreCase: same length, and every position matches ignoring case. */
  predicate EqualsIgnoreCase(a: string, b: string) {
    |a| == |b| && forall i :: 0 <= i < |a| ==> JavaCharEqualsIgnoreCase(a[i], b[i])
  }

  /** The case fold that decides Java's test: lower case of upper case. */
  function Fold(s: string): (r: string)
    ensures |r| == |s|
    ensures forall i :: 0 <= i < |s| ==> r[i] == JavaLower(JavaUpper(s[i]))
  {
    seq(|s|, i requires 0 <= i < |s| => JavaLower(JavaUpper(s[i])))
  }

  /** Two texts are equal ignoring case exactly when they fold to the same text. */
  lemma EqualsIgnoreCaseFolds(a: string, b: string)
    ensures EqualsIgnoreCase(a, b) <==> Fold(a) == Fold(b)
  {
    if Fold(a) == Fold(b) {
      forall i | 0 <= i < |a|
        ensures JavaCharEqualsIgnoreCase(a[i], b[i])
      {
        assert Fold(a)[i] == Fold(b)[i];
      }
    }
  }

  /** Java's String.startsWith. */
  predicate StartsWith(s: string, prefix: string) {
    |prefix| <= |s| && s[..|prefix|] == prefix
  }

  /** `t` occurs in `s` starting at index `i`. */
  predicate OccursAt(s: string, t: string, i: int) {
    0 <= i <= |s| - |t| && s[i..i + |t|] == t
  }

  /** `t` occurs in `s` as a contiguous block, every character compared exactly. */
  predicate Contains(s: string, t: string) {
    exists i | 0 <= i <= |s| - |t| :: OccursAt(s, t, i)
  }

  /**
   * SQL's `s LIKE p` with no escape character: `%` in the pattern matches
   * any run of characters, `_` any one character, and every other pattern
   * character itself.
   */
  predicate Like(s: string, p: string)
    decreases |s| + |p|
  {
    if p == [] then s == []
    else if p[0] == '%' then Like(s, p[1..]) || (s != [] && Like(s[1..], p))
    else s != [] && (p[0] == '_' || p[0] == s[0]) && Like(s[1..], p[1..])
  }

  /** A text in which LIKE sees no wildcard. */
  predicate NoWildcard(t: string) {
    forall i :: 0 <= i < |t| ==> t[i] != '%' && t[i] != '_'
  }

  /** `%` alone matches every text. */
  lemma {:induction false} LikeAnything(s: string)
    ensures Like(s, "%")
    decreases |s|
  {
    if s != [] {
      LikeAnything(s[1..]);
    }
  }

  /** A pattern matches itself followed by anything, once a `%` is appended. */
  lemma {:induction false} LikeItselfThenAnything(t: string, u: string)
    ensures Like(t + u, t + "%")
    decreases |t|
  {
    if t == [] {
      assert t + u == u && t + "%" == "%";
      LikeAnything(u);
    } else {
      assert (t + u)[1..] == t[1..] + u && (t + "%")[1..] == t[1..] + "%";
      LikeItselfThenAnything(t[1..], u);
    }
  }

  /** A leading `%` may skip any prefix of the text. */
  lemma {:induction false} LikeSkip(s: string, i: nat, q: string)
    requires i <= |s| && Like(s[i..], q)
    ensures Like(s, "%" + q)
    decreases i
  {
    if i == 0 {
      assert s[i..] == s && ("%" + q)[1..] == q;
    } else {
      assert s[1..][i - 1..] == s[i..];
      LikeSkip(s[1..], i - 1, q);
    }
  }

  /** A literal pattern prefix must be matched character for character. */
  lemma {:induction false} LiteralPrefix(s: string, t: string, r: string)
    requires NoWildcard(t) && Like(s, t + r)
    ensures |t| <= |s| && s[..|t|] == t && Like(s[|t|..], r)
    decreases |t|
  {
    if t == [] {
      assert t + r == r && s[|t|..] == s;
    } else {
      assert (t + r)[0] == t[0] && (t + r)[1..] == t[1..] + r;
      LiteralPrefix(s[1..], t[1..], r);
      assert s[..|t|] == [s[0]] + s[1..][..|t| - 1];
      assert s[|t|..] == s[1..][|t| - 1..];
    }
  }

  /** A text containing `t` matches `%t%`, whatever `t` holds. */
  lemma ContainsLike(s: string, t: string)
    requires Contains(s, t)
    ensures Like(s, "%" + t + "%")
  {
    var i :| 0 <= i <= |s| - |t| && OccursAt(s, t, i);
    assert s[i..] == t + s[i + |t|..];
    LikeItselfThenAnything(t, s[i + |t|..]);
    LikeSkip(s, i, t + "%");
    assert "%" + t + "%" == "%" + (t + "%");
  }

  /** Without wildcards in `t`, matching `%t%` is containing `t`. */
  lemma {:induction false} LikeIsContains(s: string, t: string)
    requires NoWildcard(t)
    ensures Like(s, "%" + t + "%") <==> Contains(s, t)
    decreases |s|
  {
    if Contains(s, t) {
      ContainsLike(s, t);
    }
    if Like(s, "%" + t + "%") {
      var p := "%" + t + "%";
      assert p[1..] == t + "%";
      if Like(s, t + "%") {
        LiteralPrefix(s, t, "%");
        assert OccursAt(s, t, 0);
      } else {
        assert s != [] && Like(s[1..], p);
        LikeIsContains(s[1..], t);
        var i :| 0 <= i <= |s[1..]| - |t| && OccursAt(s[1..], t, i);
        assert s[i + 1..i + 1 + |t|] == s[1..][i..i + |t|];
        assert OccursAt(s, t, i + 1);
      }
    }
  }

  /** A text with no upper-case letter folds to itself. */
  lemma LowerFixed(s: string)
    requires forall i :: 0 <= i < |s| ==> !('A' <= s[i] <= 'Z')
    ensures ToLower(s) == s
  {
  }

  /** Folding the case of an upper-cased character is folding the original. */
  lemma LowerUpper(c: char)
    ensures Lower(Upper(c)) == Lower(c)
  {
  }

  /** Case folding forgets any earlier change of case. */
  lemma ToLowerToUpper(s: string)
    ensures ToLower(ToUpper(s)) == ToLower(s)
  {
    forall i | 0 <= i < |s|
      ensures ToLower(ToUpper(s))[i] == ToLower(s)[i]
    {
      LowerUpper(s[i]);
    }
  }

  /** Every string contains the empty string. */
  lemma ContainsEmpty(s: string)
    ensures Contains(s, "")
  {
    assert OccursAt(s, "", 0);
  }

  /**
   * The characters JavaScript's String.prototype.trim and Number() skip:
   * the WhiteSpace and LineTerminator productions of ECMAScript, with the
   * Unicode space separators (category Zs) written out.
   */
  predicate IsJsSpace(c: char) {
    var n := c as int;
    || n == 0x20 || n == 0x09 || n == 0x0A || n == 0x0B || n == 0x0C || n == 0x0D
    || n == 0xA0 || n == 0xFEFF || n == 0x1680 || (0x2000 <= n <= 0x200A)
    || n == 0x2028 || n == 0x2029 || n == 0x202F || n == 0x205F || n == 0x3000
  }

  function TrimStart(s: string): (r: string)
    ensures |r| <= |s| && r == s[|s| - |r|..]
    ensures r == [] || !IsJsSpace(r[0])
    ensures forall i :: 0 <= i < |s| - |r| ==> IsJsSpace(s[i])
  {
    if s != [] && IsJsSpace(s[0]) then TrimStart(s[1..]) else s
  }

  function TrimEnd(s: string): (r: string)
    ensures |r| <= |s| && r == s[..|r|]
    ensures r == [] || !IsJsSpace(r[|r| - 1])
    ensures forall i :: |r| <= i < |s| ==> IsJsSpace(s[i])
  {
    if s != [] && IsJsSpace(s[|s| - 1]) then TrimEnd(s[..|s| - 1]) else s
  }

  /** JavaScript's String.prototype.trim. */
  function Trim(s: string): string {
    TrimEnd(TrimStart(s))
  }

  /** A string is blank after trimming exactly when it is all whitespace. */
  lemma {:induction false} TrimEmptyIffBlank(s: string)
    ensures Trim(s) == [] <==> forall i :: 0 <= i < |s| ==> IsJsSpace(s[i])
  {
    var t := TrimStart(s);
    if t != [] {
      assert !IsJsSpace(t[0]);
      var r := TrimEnd(t);
      assert r != [];
      assert r[0] == t[0] == s[|s| - |t|];
    }
  }

  /** The text with its first occurrence of `c` removed (JavaScript `replace(c, "")`). */
  function RemoveFirst(s: string, c: char): (r: string)
    ensures c !in s ==> r == s
    ensures c in s ==> |r| == |s| - 1
  {
    if s == [] then s
    else if s[0] == c then s[1..]
    else [s[0]] + RemoveFirst(s[1..], c)
  }

  /** Removing the first `c` from a text that ends with its only `c` drops that last character. */
  lemma {:induction false} RemoveFirstLast(s: string, c: char)
    requires c !in s
    ensures RemoveFirst(s + [c], c) == s
  {
    if s != [] {
      assert (s + [c])[1..] == s[1..] + [c];
      RemoveFirstLast(s[1..], c);
    }
  }

  /** Trimming a trimmed text changes nothing. */
  lemma TrimIdempotent(s: string)
    ensures Trim(Trim(s)) == Trim(s)
  {
    var t := Trim(s);
    if t != [] {
      assert t[0] == TrimStart(s)[0];
    }
  }

  function DigitChar(d: nat): char
    requires d < 10
  {
    ('0' as int + d) as char
  }

  /** Decimal rendering of a non-negative integer, as Java's string concatenation prints it. */
  function NatToString(n: nat): (r: string)
    ensures |r| >= 1
    ensures forall i :: 0 <= i < |r| ==> '0' <= r[i] <= '9'
    decreases n
  {
    if n < 10 then [DigitChar(n)] else NatToString(n / 10) + [DigitChar(n % 10)]
  }

  /** Decimal rendering of any Java int. */
  function IntToString(n: int): string {
    if n < 0 then "-" + NatToString(-n) else NatToString(n)
  }
}

=== FILE: user_mapper.dfy ===
/** Field-for-field conversion between User and UserDto. */
module UserMapper {
  import opened Entities

  /** Copies all six fields; the password is copied as stored, not masked. */
  function ToDto(u: User): UserDto {
    UserDto(u.id, u.name, u.email, u.password, u.phone, u.role)
  }

  function ToEntity(d: UserDto): User {
    User(d.id, d.name, d.email, d.password, d.phone, d.role)
  }

  /** The DTO exposes the stored password unchanged. */
  lemma PasswordNotMasked(u: User)
    ensures ToDto(u).password == u.password
  {
  }

  /** Entity to DTO and back loses nothing. */
  lemma EntityRoundTrip(u: User)
    ensures ToEntity(ToDto(u)) == u
  {
  }

  /** DTO to entity and back loses nothing. */
  lemma DtoRoundTrip(d: UserDto)
    ensures ToDto(ToEntity(d)) == d
  {
  }
}

=== FILE: user_service.dfy ===
/** The user service: register, read, update, delete, and password login. */
module UserService {
  import opened Wrappers
  import opened Text
  import opened Entities
  import opened Store
  import UserMapper

  /** The message every user lookup by id fails with. */
  function UserNotFound(id: Id): Error {
    NotFound("User not found with id: " + NatToString(id))
  }

  /**
   * createUser as written: the DTO's id is copied into the entity, so a
   * registration that carries the id of an existing user is merged into
   * that user's row.
   */
  function CreateUserAsWritten(db: Db, dto: UserDto): (s: Step<UserDto>)
    ensures s.db.(users := db.users) == db
    ensures s.result.Ok? && s.result.value.id.Some?
    ensures var k := s.result.value.id.value;
      && k in s.db.users
      && s.db.users == db.users[k := s.db.users[k]]
      && (dto.id.Some? && dto.id.value in db.users ==> k == dto.id.value)
      && (!(dto.id.Some? && dto.id.value in db.users) ==> k !in db.users && k !in db.retiredUsers)
  {
    var user := UserMapper.ToEntity(dto);
    var k := SaveKey(db.users, db.retiredUsers, user.id);
    var saved := user.(id := Some(k));
    Step(db.(users := db.users[k := saved]), Ok(UserMapper.ToDto(saved)))
  }

  /** A registration carrying an existing user's id replaces that user's credentials. */
  lemma CreateUserOverwritesExisting(db: Db, dto: UserDto)
    requires dto.id.Some? && dto.id.value in db.users
    ensures var s := CreateUserAsWritten(db, dto);
      && s.db.users.Keys == db.users.Keys
      && s.db.users[dto.id.value].password == dto.password
      && s.db.users[dto.id.value].email == dto.email
  {
  }

  /** createUser as evidently intended: registration always adds a new user. */
  function CreateUser(db: Db, dto: UserDto): (s: Step<UserDto>)
    ensures s.db.(users := db.users) == db
    ensures s.result.Ok? && s.result.value.id.Some?
    ensures var k := s.result.value.id.value;
      && k !in db.users && k !in db.retiredUsers
      && s.db.users.Keys == db.users.Keys + {k}
      && (forall j :: j in db.users ==> s.db.users[j] == db.users[j])
      && s.result.value == dto.(id := Some(k))
  {
    var k := FreshKey(db.users, db.retiredUsers);
    var saved := UserMapper.ToEntity(dto.(id := Some(k)));
    InsertFresh(db.users, k, saved);
    Step(db.(users := db.users[k := saved]), Ok(UserMapper.ToDto(saved)))
  }

  function GetUserById(db: Db, id: Id): (r: Result<UserDto, Error>)
    ensures id !in db.users ==> r == Err(UserNotFound(id))
    ensures id in db.users ==> r.Ok? && r.value.id == Some(id) && UserMapper.ToEntity(r.value) == db.users[id].(id := Some(id))
  {
    var u := FindUser(db, id);
    if u.None? then Err(UserNotFound(id)) else Ok(UserMapper.ToDto(u.value))
  }

  /** updateUser: overwrites name, email, phone, password and role; keeps the id. */
  function UpdateUser(db: Db, id: Id, dto: UserDto): (s: Step<UserDto>)
    ensures s.db.(users := db.users) == db
    ensures id !in db.users ==> s == Step(db, Err(UserNotFound(id)))
    ensures id in db.users ==>
      && s.db.users.Keys == db.users.Keys
      && (forall k :: k in db.users && k != id ==> s.db.users[k] == db.users[k])
      && s.db.users[id] == db.users[id].(name := dto.name, email := dto.email, phone := dto.phone,
                                         password := dto.password, role := dto.role)
      && s.result == Ok(dto.(id := Some(id)))
  {
    if id !in db.users then Step(db, Err(UserNotFound(id)))
    else
      var u := db.users[id].(name := dto.name, email := dto.email, phone := dto.phone,
                             password := dto.password, role := dto.role);
      Step(db.(users := db.users[id := u]), Ok(UserMapper.ToDto(u.(id := Some(id)))))
  }

  /**
   * deleteUser: checks existence first, then removes exactly that user and
   * retires the id. The removal is refused by the foreign keys, and nothing
   * changes, while a ride, booking or notification still refers to the user.
   */
  function DeleteUser(db: Db, id: Id): (s: Step<()>)
    ensures s.db.rides == db.rides && s.db.bookings == db.bookings && s.db.notifications == db.notifications
    ensures id !in db.users ==> s == Step(db, Err(UserNotFound(id)))
    ensures id in db.users && UserReferenced(db, id) ==> s == Step(db, Err(IntegrityViolation))
    ensures s.result.Ok? <==> id in db.users && !UserReferenced(db, id)
    ensures s.result.Ok? ==>
      && s.db.users.Keys == db.users.Keys - {id}
      && (forall k :: k in s.db.users ==> s.db.users[k] == db.users[k])
      && s.db.retiredUsers == db.retiredUsers + {id}
  {
    if id !in db.users then Step(db, Err(UserNotFound(id)))
    else if UserReferenced(db, id) then Step(db, Err(IntegrityViolation))
    else Step(db.(users := db.users - {id}, retiredUsers := db.retiredUsers + {id}), Ok(()))
  }

  /** Deleting a user keeps every foreign key resolvable. */
  lemma DeleteUserKeepsConsistent(db: Db, id: Id)
    requires Consistent(db)
    ensures Consistent(DeleteUser(db, id).db)
  {
    var s := DeleteUser(db, id);
    if s.result.Ok? {
      forall k | k in s.db.rides
        ensures Resolves(s.db.users, s.db.rides[k].driverId)
        ensures forall u :: u in PassengerRows(s.db.rides[k]) ==> u in s.db.users
      {
        assert !RideRefersTo(db.rides[k], id);
      }
      forall k | k in s.db.bookings
        ensures Resolves(s.db.users, s.db.bookings[k].passengerId)
      {
        assert db.bookings[k].passengerId != Some(id);
      }
      forall k | k in s.db.notifications
        ensures Resolves(s.db.users, s.db.notifications[k].recipientId)
      {
        assert db.notifications[k].recipientId != Some(id);
      }
    }
  }

  /**
   * login: the user registered under the email, provided the stored
   * password equals the given one character for character. An unknown
   * email and a wrong password end in the same error.
   */
  function Login(db: Db, email: string, password: string): (r: Result<UserDto, Error>)
    ensures r.Ok? ==>
      && r.value.id.Some? && r.value.id.value in db.users
      && r.value.email == email && r.value.password == password
      && UserMapper.ToEntity(r.value) == db.users[r.value.id.value].(id := r.value.id)
    ensures (forall k :: k in db.users ==> db.users[k].email != email) ==>
      r == Err(InvalidCredentials("Invalid email or password"))
  {
    match FindUserByEmail(db, email)
    case Err(e) => Err(e)
    case Ok(None) => Err(InvalidCredentials("Invalid email or password"))
    case Ok(Some(u)) =>
      if u.password != password then Err(InvalidCredentials("Invalid email or password"))
      else Ok(UserMapper.ToDto(u))
  }

  /**
   * When exactly one user has the email, login succeeds exactly when the
   * password matches, and otherwise gives the same error as an unknown email.
   */
  lemma LoginDecision(db: Db, k: Id, password: string)
    requires k in db.users
    requires forall j :: j in db.users && j != k ==> db.users[j].email != db.users[k].email
    ensures var r := Login(db, db.users[k].email, password);
      && (r.Ok? <==> db.users[k].password == password)
      && (r.Ok? ==> r.value.id == Some(k))
      && (r.Err? ==> r.error == InvalidCredentials("Invalid email or password"))
  {
    var email := db.users[k].email;
    var found := FindUserByEmail(db, email);
    assert UsersWithEmail(db.users, email) == {k};
    assert found.value.Some?;
  }

  /** A registered user can log in with the password they registered. */
  lemma CreateThenLogin(db: Db, dto: UserDto)
    requires forall j :: j in db.users ==> db.users[j].email != dto.email
    ensures var s := CreateUser(db, dto);
      Login(s.db, dto.email, dto.password) == Ok(s.result.value)
  {
    var s := CreateUser(db, dto);
    var k := s.result.value.id.value;
    LoginDecision(s.db, k, dto.password);
  }

  /**
   * After an update, the user logs in with the new email and password and
   * gets the updated record; any other password fails.
   */
  lemma UpdateThenLogin(db: Db, id: Id, dto: UserDto, other: string)
    requires id in db.users
    requires forall j :: j in db.users && j != id ==> db.users[j].email != dto.email
    requires other != dto.password
    ensures var s := UpdateUser(db, id, dto);
      && Login(s.db, dto.email, dto.password) == Ok(dto.(id := Some(id)))
      && Login(s.db, dto.email, other) == Err(InvalidCredentials("Invalid email or password"))
  {
    var s := UpdateUser(db, id, dto);
    LoginDecision(s.db, id, dto.password);
    LoginDecision(s.db, id, other);
  }

  /**
   * After a delete, the user is not found, deleting again fails, and a user
   * registered afterwards never gets the deleted user's id.
   */
  lemma DeleteThenGet(db: Db, id: Id, dto: UserDto)
    requires id in db.users && !UserReferenced(db, id)
    ensures var s := DeleteUser(db, id);
      && GetUserById(s.db, id) == Err(UserNotFound(id))
      && DeleteUser(s.db, id).result == Err(UserNotFound(id))
      && CreateUser(s.db, dto).result.value.id != Some(id)
  {
  }
}

=== FILE: wrappers.dfy ===
/** Failure-carrying values shared by every module of the model. */
module Wrappers {

  /** A Java reference or JavaScript value that may be null. */
  datatype Option<+T> = None | Some(value: T) {

    /** The wrapped value, or `default` when there is none. */
    function GetOr(default: T): T {
      match this
      case Some(v) => v
      case None => default
    }
  }

  /** The outcome of an operation that either returns a value or throws. */
  datatype Result<+T, +E> = Ok(value: T) | Err(error: E)
}
